=== FILE: README.md ===
# Design-token JSON to CSS: a verified model

This project models the core of a React tool that turns a design-token document into CSS. The document is a JSON tree in the W3C Design Tokens Community Group format. A token is an object with `$type` and `$value`, and `{a.b.c}` strings are aliases. The model covers:

- the name transforms: `transformKey`, `transformTokenName` and `transformToCssVariableName`;
- the CSS property check, `isValidCssProperty`;
- the trailing-zero and unit handling of `formatNumberValue`;
- the token walker, `extractTokenProperties`;
- the alias helpers, `extractTokenReference` and `transformTokenReference`;
- the three text generators;
- the invalid-property mapping and the component's default-mapping heuristic;
- the custom-property list;
- the component's class-rule generator, in one-file and several-file form;
- the per-file settings, the automatic width range, and the download naming.

Everything is modelled as pure functions over an immutable JSON datatype. A JSON object is an ordered sequence of key/value pairs, kept in the order given.

The modules follow the program:

- `Json`: the tree, JavaScript truthiness, and `String(v)`.
- `OrderedMaps`: objects used as insertion-ordered maps.
- `Strings`: white space, ASCII lower-casing, `split`/`join`, and integer printing.
- `Naming`: `transformKey` and the variable-name builders.
- `Validator`: the keyword list and `isValidCssProperty`.
- `NumberFormat`: `formatNumberValue`.
- `Tokens`: `extractTokenProperties`.
- `References`: the alias helpers and the class generator's own alias rewrite.
- `Generators`: the CSS-variable, `cssVars`/`plainJson` and token-to-token generators.
- `ObjectKeys`: `transformObjectKeys`.
- `Mappings`: `applyInvalidCssPropertyMappings`, the default-mapping chains, `checkAndMapInvalidCssProperty` and the custom-property upserts.
- `ClassRules`: `collectProperties` and the rule printing.
- `FileConfigs`: the per-file settings, the automatic range and the download target.

Conventions:

- An exception the source would throw is modelled as `None` of an `Option` result.
- The floating-point `toFixed` rendering is a parameter. Each generator takes a function from the number's text to its fixed-point digits.
- The keyword and custom-property lists, which the program keeps in caches and `localStorage`, are parameters too.

## Model

| member | source | states |
|---|---|---|
| OrderedMaps.Put | src/utils/ParserUtils.ts:786 | assigning a key makes it read back the new value, leaves every other key as it was, and never creates a duplicate key |
| OrderedMaps.PutShape | src/utils/ParserUtils.ts:786 | assigning an existing key keeps the object's size (the key keeps its place); a new key is appended at the end |
| OrderedMaps.Remove | src/utils/ParserUtils.ts:790 | deleting a key makes it absent, keeps every other key's value, and adds no entry |
| Naming.TransformKey | src/utils/ParserUtils.ts:197-207 | with a separator free of white space the result has no white space; with lower-casing on it has no upper-case letter; a key without white space is only re-cased |
| Naming.TransformKeyIdempotent | src/components/ParserRule.tsx:10-20 | applying the key transform to its own output changes nothing, so the component's second transform of a property name is harmless |
| Naming.JoinSpaceThenTransform | src/components/ParserRule.tsx:619-629 | transforming a space-joined path equals joining the separately transformed segments with the (re-cased) separator, for trimmed segments |
| Naming.SelectPath | src/utils/ParserUtils.ts:407-415 | a depth of 99 or more, or 0, keeps the whole path; a depth of 1 to 98 keeps exactly the last min(depth, length) segments |
| Naming.MarkedPrefix | src/utils/ParserUtils.ts:387-389 | the prefix used always starts with `--`, and a prefix that already does is used unchanged |
| Naming.TransformTokenName | src/utils/ParserUtils.ts:375-432 | every name starts with `--`; without an applicable prefix it is `--` plus the re-cased join of the selected segments or custom format; with one, it starts with the prefix, and a `--` is added only when the prefix lacks it |
| Naming.CssVariableNameAgrees | src/utils/ParserUtils.ts:317-370 | `transformToCssVariableName` gives the same name as `transformTokenName` on the token's path for every option set |
| Naming.TokenNameOfSuffix | src/utils/ParserUtils.ts:407-431 | without prefix or custom format, the name is `--` and the last min(depth, length) segments joined and re-cased |
| Naming.PrefixedTokenName | src/utils/ParserUtils.ts:426-428 | the separator goes between prefix and body exactly when the prefix does not already end with it |
| Validator.VendorPrefix | src/utils/ParserUtils.ts:64-66 | finds one of `-webkit-`, `-moz-`, `-ms-`, `-o-` at the start of the name, or reports that none is there |
| Validator.NoDashNoVendor | src/utils/ParserUtils.ts:64 | a name not starting with `-` never has a vendor prefix |
| Validator.IsValidCssProperty | src/utils/ParserUtils.ts:54-80 | a lower-cased keyword hit is valid; otherwise a vendor-prefixed name is valid exactly when its case-kept remainder is a keyword; otherwise the name is valid exactly when it matches a custom entry ignoring case or is one of the four built-in shorthands |
| Validator.VendorIgnoresCustoms | src/utils/ParserUtils.ts:63-68 | for a vendor-prefixed name the custom list makes no difference |
| Validator.CustomsMonotone | src/utils/ParserUtils.ts:70-80 | adding custom entries never makes a valid name invalid |
| Validator.RegisteredIsValid | src/utils/ParserUtils.ts:73-76 | a registered custom name without a vendor prefix is valid |
| Validator.CaseInsensitiveOutsideVendor | src/utils/ParserUtils.ts:59-80 | outside the vendor branch, validity does not depend on letter case |
| Validator.VendorRemainderIsCaseSensitive | src/utils/ParserUtils.ts:66-67 | `-webkit-transform` is valid with keyword `transform`, while `-webkit-Transform` is not |
| Validator.ShorthandExamples | src/utils/ParserUtils.ts:79-80 | `padding-horizontal` is valid in any letter case with empty lists |
| Validator.UnknownExample | src/utils/ParserUtils.ts:54-80 | an unknown name outside every list is invalid |
| Validator.MarginSidesBuiltin | src/utils/ParserUtils.ts:9-45 | the four margin sides are in the built-in property list |
| Validator.PaddingSidesBuiltin | src/utils/ParserUtils.ts:9-45 | the four padding sides are in the built-in property list |
| Validator.DimensionsBuiltin | src/utils/ParserUtils.ts:9-45 | `border-radius`, `height`, `width` and `gap` are in the built-in property list |
| NumberFormat.DropTrailingZeros | src/utils/ParserUtils.ts:229 | the result is a prefix of the digits, what it drops is all zeros, and it does not end in `0` |
| NumberFormat.TrimRegexAgrees | src/utils/ParserUtils.ts:229-234 | with at least one decimal, the `\.?0+$` replacement equals dropping the fraction's trailing zeros, and the point when nothing remains |
| NumberFormat.TrimRegexKeepsDigits | src/utils/ParserUtils.ts:234 | a fraction with a non-zero digit keeps the point and the digits up to the last non-zero one |
| NumberFormat.TrimRegexDropsPoint | src/utils/ParserUtils.ts:234 | an all-zero fraction is removed together with its point |
| NumberFormat.TrimKeepsValue | src/utils/ParserUtils.ts:234 | trimming only removes trailing zeros of the fraction, so the printed number has the same value |
| NumberFormat.NumberRunEnd | src/utils/ParserUtils.ts:225 | finds the end of the leading run of digits and dots: everything before it is in the run, the next character is not |
| NumberFormat.UnitMatch | src/utils/ParserUtils.ts:225-228 | `^([\d.]+)(.*)$` splits the text into a non-empty digit-and-dot run and the rest, and fails exactly when there is no run or the rest holds a line terminator |
| NumberFormat.UnitMatchParses | src/utils/ParserUtils.ts:217-226 | a string that the unit pattern matches parses as a number, unless it starts with a point that no digit follows |
| NumberFormat.FormatNumberValue | src/utils/ParserUtils.ts:215-235 | unparsable strings come back unchanged; a matched string keeps its unit after the trimmed number; a string that reads as a number but does not match the unit pattern (a sign or leading space, as in `-4px`) is rounded as a whole and loses its unit; a number is trimmed; booleans and null throw; objects print as `[object Object]`; arrays throw unless `Number` of their text is NaN |
| NumberFormat.FormatKeepsUnit | src/utils/ParserUtils.ts:224-229 | the unit text after the number run is kept verbatim at the end of the result |
| NumberFormat.FormatWithRun | src/utils/ParserUtils.ts:224-229 | a string that starts with a digit is formatted as its trimmed number run followed by the rest |
| NumberFormat.FormatNumberValueAsWritten | src/utils/ParserUtils.ts:215-235 | the function with the regular-expression trim as written: it throws, and passes values through, exactly where the intended version does; matched strings, unmatched strings and numbers each get the regular-expression trim of what `toFixed` prints |
| NumberFormat.SignedUnitDropped | src/utils/ParserUtils.ts:224-234 | `-4px` does not match the unit pattern, so it is rounded as a whole and comes out as `-4`, without its unit |
| NumberFormat.AsWrittenAgrees | src/utils/ParserUtils.ts:229-234 | with one decimal or more, the function as written returns the intended result for every value |
| NumberFormat.AsWrittenEatsIntegerZeros | src/utils/ParserUtils.ts:234 | with no decimals, a number whose rounded digits end in `0` comes out shorter as written than intended |
| NumberFormat.AsWrittenHundred | src/utils/ParserUtils.ts:234 | `100` with no decimals gives `1` as written and `100` as intended |
| NumberFormat.PassThroughExamples | src/utils/ParserUtils.ts:217-221 | `#CCCCCC` and `{Color.Gray.100}` come back unchanged |
| NumberFormat.UnitExample | src/utils/ParserUtils.ts:225-229 | `10.00000px` becomes `10px` |
| NumberFormat.FractionExample | src/utils/ParserUtils.ts:225-229 | `0.5` stays `0.5` |
| NumberFormat.IntegerZerosEaten | src/utils/ParserUtils.ts:234 | with zero decimals the replacement shortens an integer that ends in `0`, while the intended trim leaves it whole |
| NumberFormat.IntegerZerosExample | src/utils/ParserUtils.ts:234 | `100` rendered with zero decimals becomes `1` |
| Tokens.MakeRecord | src/utils/ParserUtils.ts:273-297 | a record carries the path, the path joined by `.` as its full path, the truthy type and value, and the code-syntax flag that holds exactly when the code-syntax object is truthy and has keys |
| Tokens.EmitsReachesToken | src/utils/ParserUtils.ts:270-307 | a path the walk emits at leads to a token node |
| Tokens.ExtractSound | src/utils/ParserUtils.ts:270-311 | every record's path extends the start path, leads through non-`$` keys to a token, and the record is the one built from that token |
| Tokens.ExtractComplete | src/utils/ParserUtils.ts:270-311 | every token the walk can reach produces a record with its path |
| Tokens.ExtractRenames | src/utils/ParserUtils.ts:300-305 | with key transformation on, the records are those of the plain walk with every path segment transformed |
| Tokens.ExtractPrefix | src/utils/ParserUtils.ts:288-304 | every record's path starts with the path the walk was started at |
| Tokens.ExtractOrdered | src/utils/ParserUtils.ts:300-306 | records appear in depth-first key order: of two records, the earlier one's path branches off at a key listed earlier |
| Tokens.AsWrittenThrowsOnAnyToken | src/utils/ParserUtils.ts:281-285 | as written, extraction throws exactly when the corrected walk would find a token, so it never returns a record |
| References.FindReference | src/utils/ParserUtils.ts:646 | finds the leftmost position where `{`, one or more characters other than `}`, and `}` begin, or reports there is none |
| References.ExtractTokenReference | src/utils/ParserUtils.ts:639-651 | non-strings give none; a string gives none exactly when it holds no `{...}` match; a result is non-empty, free of `}`, and is the leftmost match's inside |
| References.AliasRoundTrip | src/utils/ParserUtils.ts:646-648 | wrapping a `}`-free reference in braces, with no `{` before it, gives that reference back |
| References.ReferencePrefix | src/utils/ParserUtils.ts:687-694 | the prefix of a reference always starts with `--` |
| References.TransformTokenReference | src/utils/ParserUtils.ts:659-698 | the result always has the form `var(--...)` |
| References.ReferencePathOfJoin | src/utils/ParserUtils.ts:670-684 | a dotted reference built from segments is re-joined with the path separator and re-cased |
| References.ReferenceMatchesDeclaration | src/utils/ParserUtils.ts:659-698 | with matching separators, case and prefix settings and a depth of 99, a reference to a path becomes `var(` the very name `transformTokenName` declares for that path `)` |
| References.AliasExample | src/utils/ParserUtils.ts:646-648 | `{Color.Gray.100}` refers to `Color.Gray.100` |
| References.ReferenceExample | src/utils/ParserUtils.ts:659-698 | `Color.Gray.100` becomes `var(` the declared name of the path Color, Gray, 100 `)` |
| References.DeclaredNameExample | src/utils/ParserUtils.ts:375-432 | that declared name is `--color-gray-100` |
| References.ClassValueRewrite | src/components/ParserRule.tsx:652-656 | a string that starts with `{` and ends with `}` becomes `var(--...)` with a lower-case inside; any other value is unchanged |
| References.ClassValueOfPath | src/components/ParserRule.tsx:652-656 | the alias of a path becomes `var(--` and the path joined by `-`, lower-cased, `)` |
| References.ClassValueOfAlias | src/components/ParserRule.tsx:652-656 | the inside is split on `.`, re-joined with `-` and lower-cased |
| References.AliasOfPath | src/utils/ParserUtils.ts:646-648 | the alias of a path refers to the dotted path |
| References.ClassRewriteAgrees | src/components/ParserRule.tsx:652-656 | the class generator's rewrite agrees with `transformTokenReference` under `-`, lower-casing and no prefix |
| ObjectKeys.TransformObjectKeys | src/utils/ParserUtils.ts:588-616 | falsy and primitive values come back unchanged; arrays keep their length; objects come back with distinct keys and no more entries |
| ObjectKeys.TransformItems | src/utils/ParserUtils.ts:598-600 | every array item is transformed in place |
| ObjectKeys.TransformFields | src/utils/ParserUtils.ts:603-613 | the keys written are distinct and no more than the input's |
| ObjectKeys.FieldsGet | src/utils/ParserUtils.ts:603-613 | after the loop, each key holds the transformed value of the last field renamed to it, and keys no field renames to are absent |
| ObjectKeys.NewKeyIdempotent | src/utils/ParserUtils.ts:607 | re-keying a key a second time changes nothing |
| ObjectKeys.ObjectKeysIdempotent | src/utils/ParserUtils.ts:588-616 | transforming an already transformed tree changes nothing |
| ObjectKeys.ObjectKeysRenamed | src/utils/ParserUtils.ts:603-613 | an object's output keys are exactly the renamed input keys, and each holds the transformed value of the last input field renamed to it |
| ObjectKeys.ObjectKeysInOrder | src/utils/ParserUtils.ts:603-613 | when no two keys rename alike, the output is the input field for field, in order, with each key renamed and each value transformed |
| ObjectKeys.LastIndex | src/utils/ParserUtils.ts:605-611 | the position of the last key equal to a given one among the first `n`, and none exactly when no such key exists |
| Generators.SelectValue | src/utils/ParserUtils.ts:457-468 | without code syntax the token value is used; with it a truthy `web` value wins; otherwise the first code-syntax value when it is truthy, and the token value when it is not |
| Generators.LineAt | src/utils/ParserUtils.ts:451-477 | each declaration is one `  name: value;` line of the block, after exactly the lines before it, between `:root {` and `}` |
| Generators.WriteRoot | src/utils/ParserUtils.ts:451-477 | the block is written exactly when every value formats, and then it is the lines in order |
| Generators.GenerateCssFromTokens | src/utils/ParserUtils.ts:437-478 | throws exactly when some selected value cannot be formatted; otherwise one line per token, in input order |
| Generators.VarsNameIsFullPath | src/utils/ParserUtils.ts:507-512 | in `cssVars` mode a name is `--` and the whole path joined and re-cased, since neither prefix use nor depth is passed |
| Generators.GenerateJsonTokensAsCssVariables | src/utils/ParserUtils.ts:483-579 | `cssVars` writes one line per token in order and throws exactly when a value cannot be formatted; the other format, on success, builds an object tree in which every token not overwritten later is readable at its path; it succeeds whenever every value formats, every path is non-empty and no path is a proper prefix of a later one |
| Generators.SetNested | src/utils/ParserUtils.ts:544-552 | writing below an existing truthy non-object throws; an empty path never succeeds |
| Generators.SetNestedReads | src/utils/ParserUtils.ts:544-552 | after a successful write the value reads back at its path |
| Generators.SetNestedKeeps | src/utils/ParserUtils.ts:544-552 | a write leaves every non-empty string leaf elsewhere in place |
| Generators.GeneratePlainJson | src/utils/ParserUtils.ts:539-576 | on success every token not overwritten by a later one is readable at its (re-cased) path with its formatted value; it succeeds whenever every value formats, every path is non-empty and no path is a proper prefix of a later one |
| Generators.SetNestedSucceeds | src/utils/ParserUtils.ts:544-552 | a nested write succeeds when only objects lie on the proper prefixes of its path |
| Generators.SetNestedLeaves | src/utils/ParserUtils.ts:544-552 | a nested write adds a non-object only at its own path |
| Generators.TokenValue | src/utils/ParserUtils.ts:733-763 | a string with an alias becomes its `var()` reference; other strings pass through unformatted; only non-strings get code syntax and number formatting |
| Generators.GenerateTokenToToken | src/utils/ParserUtils.ts:703-770 | throws exactly when a non-string value cannot be formatted; otherwise one line per token in order |
| Generators.AliasResolvesToDeclaration | src/utils/ParserUtils.ts:722-765 | an alias to a token's full path is written as `var(` the name that token is declared under `)` |
| Generators.WholeAlias | src/utils/ParserUtils.ts:646-648 | a value that is exactly one alias refers to its inside |
| Mappings.ApplyMapping | src/utils/ParserUtils.ts:781-791 | an absent key or an empty mapping changes nothing; otherwise the key is removed, every other target gets the key's value, and nothing else changes |
| Mappings.MappingsApplied | src/utils/ParserUtils.ts:773-795 | for a table whose targets are never keys and never shared: mapped keys are removed, empty mappings are left alone, every target of a present key gets its value, and all other properties are kept |
| Mappings.UntouchedKept | src/utils/ParserUtils.ts:773-795 | a property that is neither a key nor a target keeps its value |
| Mappings.MappedKeyRemoved | src/utils/ParserUtils.ts:781-790 | a key with a non-empty mapping is gone afterwards |
| Mappings.EmptyMappingKept | src/utils/ParserUtils.ts:781 | a key with an empty mapping keeps its value |
| Mappings.TargetReceives | src/utils/ParserUtils.ts:785-787 | every target of a present key ends up with that key's value |
| Mappings.SelfTargetDeleted | src/utils/ParserUtils.ts:785-790 | a property mapped to itself is deleted, value and all |
| Mappings.DefaultMapping | src/components/ParserRule.tsx:513-534 | the suggestion is empty exactly when the name contains none of the trigger words |
| Mappings.DefaultMappingIsStandard | src/components/ParserRule.tsx:513-534 | every suggested property is in the built-in property list |
| Mappings.DefaultMappingsAgree | src/components/ParserRule.tsx:404-425 | the scan's chain, with its extra equality tests, suggests the same as the check's chain |
| Mappings.HorizontalExample | src/components/ParserRule.tsx:514-515 | `padding-horizontal` maps to the left and right padding |
| Mappings.DimensionExample | src/components/ParserRule.tsx:525-527 | `min-height` maps to `height` |
| Mappings.FindCustom | src/components/ParserRule.tsx:496-502 | finds the first registered entry equal to the name ignoring case, and finds none exactly when the name is not registered |
| Mappings.CheckAndMapInvalidCssProperty | src/components/ParserRule.tsx:481-550 | a cached name gives its stored mapping; a registered name gives its mapping when non-empty; a name neither standard nor registered gets the default suggestion, which is also stored; a standard name stands for itself; only the suggestion case changes the table |
| Mappings.CheckIsStable | src/components/ParserRule.tsx:485-488 | asking again with the table the first call left gives the same answer and the same table |
| Mappings.CheckAndMapAsWritten | src/components/ParserRule.tsx:491-493 | as written, the check throws exactly when the name is not cached and no keywords are loaded, and otherwise agrees with the corrected check |
| Mappings.CheckWithoutKeywords | src/components/ParserRule.tsx:491-493 | `color` with no keywords loaded throws as written, while the corrected check keeps it as `color` |
| Mappings.AddCustomCssProperty | src/components/ParserRule.tsx:160-178 | the list grows by at most one, gains no case-insensitive duplicate, afterwards holds the name with the mapping, and other entries and all old names are unchanged |
| Mappings.FindExact | src/components/ParserRule.tsx:142 | finds an entry with exactly that name, or reports that there is none |
| Mappings.SaveAsWritten | src/components/ParserRule.tsx:138-157 | saving the table as written adds at most one entry per table row |
| Mappings.SaveAsWrittenDuplicates | src/components/ParserRule.tsx:142-153 | as written, saving `gap-x` next to a registered `Gap-X` leaves two entries equal ignoring case |
| Mappings.SaveCustomCssProperties | src/components/ParserRule.tsx:138-157 | the corrected save adds at most one entry per row and introduces no case-insensitive duplicate |
| Mappings.SavedAreRegistered | src/components/ParserRule.tsx:138-157 | every row not overridden by a later row of the same name is registered with its mapping |
| Mappings.KeptThrough | src/components/ParserRule.tsx:138-157 | an entry no row matches is kept unchanged at its place |
| ClassRules.ClassName | src/components/ParserRule.tsx:619 | the class name is non-empty: the transformed parent path when that is non-empty, and `token-default` exactly when it is empty |
| ClassRules.Keys | src/components/ParserRule.tsx:633-638 | a token always gets at least one property: a valid name itself, an unmapped invalid name itself, a non-empty mapping's targets, and the property name when the mapping is empty |
| ClassRules.CssPropertyIsPropertyName | src/components/ParserRule.tsx:633 | with a separator free of white space, the second transform gives back the property name, so both fallbacks write the same name |
| ClassRules.RawValue | src/components/ParserRule.tsx:641-649 | with code syntax on and a truthy code-syntax object whose `web` is truthy, the value is that `web`; in every other case it is `$value` |
| ClassRules.Record | src/components/ParserRule.tsx:659-667 | recording sets every key of the class to the value, leaves the class's other declarations and all other classes as they were, and keeps class names distinct |
| ClassRules.RecordKeeps | src/components/ParserRule.tsx:659-667 | recording never removes a declaration |
| ClassRules.Collect | src/components/ParserRule.tsx:612-681 | the walk keeps class names distinct |
| ClassRules.CollectKeeps | src/components/ParserRule.tsx:612-681 | the walk never removes a declaration already present |
| ClassRules.CollectComplete | src/components/ParserRule.tsx:612-681 | every class token reached through non-`$` keys at a non-empty path has every one of its property names declared in its class |
| ClassRules.CollectSound | src/components/ParserRule.tsx:612-681 | every declaration the walk adds belongs to a class token it reaches: the class and property are the ones that token's path gives |
| ClassRules.ZeroValueCounts | src/components/ParserRule.tsx:616 | any typed node whose `$value` is present but falsy (`0`, `""`, `false`, `null`) yields a class declaration, while the extractor's truthiness test skips it |
| ClassRules.RulesTextPrefix | src/components/ParserRule.tsx:800-806 | the printed rules of the first k classes are a prefix of the whole text |
| ClassRules.RuleOfEachClass | src/components/ParserRule.tsx:800-806 | each class appears as one rule, directly after the rules of the classes before it |
| ClassRules.MediaCondition | src/components/ParserRule.tsx:742-750 | the condition is empty exactly when the file has no truthy bound, and starts with the `min-width` test when there is a lower bound |
| ClassRules.FindConfig | src/components/ParserRule.tsx:690 | finds a setting with the id, or reports that none has it |
| ClassRules.Others | src/components/ParserRule.tsx:724-729 | the blocks go to exactly the settings other than the default with data, in their order |
| ClassRules.GenerateClassCss | src/components/ParserRule.tsx:684-807 | with at most one file or no settings the output is the plain rules of the single file; otherwise it starts with the header |
| ClassRules.GenerateMultiFileCss | src/components/ParserRule.tsx:686-794 | the output is the header alone unless the default setting exists and has data; then it is the header, the default section, and one block per other setting with data |
| ClassRules.AppendBlocks | src/components/ParserRule.tsx:724-792 | the loop appends exactly the blocks of the other settings with data, in order |
| ClassRules.SkippedConfigsAddNothing | src/components/ParserRule.tsx:728-729 | the default setting, or one without data, adds no block |
| ClassRules.OneBlockEach | src/components/ParserRule.tsx:726-783 | each other setting with data adds exactly one block, after the blocks of the settings before it |
| FileConfigs.DefaultFileConfigs | src/components/ParserRule.tsx:239-277 | one setting per uploaded file, numbered by position and named after it; theme settings have no bounds |
| FileConfigs.DefaultRangesPartition | src/components/ParserRule.tsx:240-268 | the first three resolution settings cover every width, and no two of them cover the same width |
| FileConfigs.LaterFilesNarrow | src/components/ParserRule.tsx:259-267 | every file after the second covers exactly the widths up to 767 |
| FileConfigs.FindsEachDefault | src/components/ParserRule.tsx:239-280 | looking a fresh setting up by its id finds that very setting, so the first file is the default under id 0 |
| FileConfigs.Neighbours | src/components/ParserRule.tsx:1531 | the other settings are exactly those with a different id |
| FileConfigs.LowerBounds | src/components/ParserRule.tsx:1532 | every truthy upper bound of another setting is collected |
| FileConfigs.LowerBoundFrom | src/components/ParserRule.tsx:1532 | every collected value is some setting's truthy upper bound |
| FileConfigs.UpperBounds | src/components/ParserRule.tsx:1533 | every truthy lower bound of another setting is collected |
| FileConfigs.UpperBoundFrom | src/components/ParserRule.tsx:1533 | every collected value is some setting's truthy lower bound |
| FileConfigs.Max | src/components/ParserRule.tsx:1536 | the result is in the list and no element exceeds it |
| FileConfigs.Min | src/components/ParserRule.tsx:1537 | the result is in the list and no element is below it |
| FileConfigs.AutoRange | src/components/ParserRule.tsx:1531-1551 | a two-sided range is never inverted; "all resolutions" holds exactly when no other setting has a bound; a manual range is asked for exactly when some upper bound plus one exceeds some lower bound minus one |
| FileConfigs.AutoRangeAvoidsNeighbours | src/components/ParserRule.tsx:1535-1548 | every width in the derived range lies outside every other setting that has a bound |
| FileConfigs.AutoRangeTight | src/components/ParserRule.tsx:1536-1548 | the derived range starts just above some setting's upper bound and ends just below some setting's lower bound |
| FileConfigs.RangeLabelAgreesWithComment | src/components/ParserRule.tsx:1522-1551 | a setting with its own bounds is listed with the same text as the default-section comment; so is one with no bounds when no other setting has any |
| FileConfigs.MiddleFilled | src/components/ParserRule.tsx:1535-1539 | between a 1440-and-up setting and a 767-and-down setting, a setting without bounds gets 768 to 1439 |
| FileConfigs.DownloadTarget | src/components/ParserRule.tsx:934-956 | the file extension always matches the type; JSON is chosen exactly for token output in a format other than `cssVars`; plain text exactly for an unknown kind of work |

## Left out

- Reading files, promises and timers: `FileReader` and the async orchestration. Parsed file data is passed in as a map from file id to JSON.
- React state and rendering, including the previews and their error comments. The preview texts carry the JavaScript error's own message, which is outside the model.
- The component's name scan at src/components/ParserRule.tsx:330-432. Only its default-mapping chain is modelled. Its per-name state updates are asynchronous React state, so a loop of `set` calls from one stale map keeps only the last.
- `localStorage`, the keyword cache and its dynamic import. The keyword and custom lists are parameters.
- `createDownloadLink` and the Blob/DOM download. Only the file name and type choice is modelled.
- `transformCustomCssProperties` and `detectCustomProperties`. Their JavaScript regular expressions are beyond this model.
- `JSON.stringify` of the `plainJson` output. `Generators.GenerateJsonTokensAsCssVariables` returns the tree it would print.
- Floating-point parsing and rounding in `parseFloat` and `toFixed`. The fixed-point digits are a parameter, `fix`. The `decimals` count is the number of fraction digits `fix` returns; `decimals` 0 is a `fix` that returns no fraction digits.
- NumberFormat.FormatNumberValue: it and everything built on it use the intended trim, not `.replace(/\.?0+$/, '')` as written. The two agree whenever `decimals` is 1 or more (NumberFormat.AsWrittenAgrees). With `decimals` 0 the source also strips zeros of the integer part; NumberFormat.FormatNumberValueAsWritten models that, and Findings records it.
- NumberFormat.FormatNumberValue: `toFixed` output that is not plain digits is not modelled. `Infinity` and `-Infinity` (which pass `parseFloat`) print as themselves, and magnitudes of 1e21 or more print in exponent form such as `1e+30`, which the source's trim turns into `1e+3`. `fix` can only return digits, so for these inputs the model states a plain number where the source prints `Infinity` or exponent text.
- NumberFormat.FormatKeepsUnit: states the number part with the intended trim; with `decimals` 0 the source as written may also strip integer zeros before the unit.
- NumberFormat.FormatWithRun: states the number run with the intended trim; with `decimals` 0 the source as written may also strip integer zeros of the run.
- `parseInt` of typed widths, including NaN. Widths are integers or absent.
- `Object.keys` putting integer-like keys first, and inherited prototype keys. Object keys are taken in the order given.
- Unicode case mapping. Lower-casing is ASCII only.
- `$` patterns in replacement strings, which never occur with the separators used.
- Validator.IsValidCssProperty: the `catch` branch at src/utils/ParserUtils.ts:81-87 is not modelled, because nothing in the `try` block can throw once the lists are parameters.
- Tokens.ExtractSound: stated for the walk without key transformation. Tokens.ExtractRenames carries it over to the transforming walk.
- ClassRules.GenerateClassCss: in the several-file case it promises only the header. ClassRules.GenerateMultiFileCss states the rest.
- ClassRules.Collect: its contract states only that class names stay distinct. What the walk records is stated by ClassRules.CollectComplete, ClassRules.CollectSound and ClassRules.CollectKeeps.
- Mappings.MappingsApplied: stated for tables whose targets are never keys and never shared. With chained mappings the result depends on the order of the rows, and Mappings.SelfTargetDeleted shows one such case.
- Mappings.CheckAndMapInvalidCssProperty: it models the check with the undeclared list replaced by the built-in list. See Findings.
- Generators.GeneratePlainJson: it states only the tokens that no later token overwrites. A later write to the same path, or below a string leaf, wins or throws as in the source. Its success condition is sufficient, not necessary: a write below an empty-string value, or below a value a later token replaced, also succeeds.
- ObjectKeys.TransformObjectKeys: its own contract states the shape of the result. Which keys come out and what they hold is stated by ObjectKeys.ObjectKeysRenamed and ObjectKeys.ObjectKeysInOrder.
- ObjectKeys.TransformFields: its own contract states distinct keys and a size bound. ObjectKeys.FieldsGet states what the loop stores.

## Findings

| source | as written | input that shows it | evidently intended | confidence | as-written member | corrected member |
|---|---|---|---|---|---|---|
| src/utils/ParserUtils.ts:281-285 | `propertyInfo` calls `.includes` on the result of the async `getCssKeywords()`, which is a Promise, so every token reached throws a TypeError | any document with one token, e.g. `{"a": {"$type": "color", "$value": "#fff"}}` | compute `isCustomCssProperty` from the loaded keyword list; the record is pushed | not executed | Tokens.AsWrittenThrowsOnAnyToken | Tokens.ExtractSound |
| src/utils/ParserUtils.ts:234 | `toFixed(0).replace(/\.?0+$/, '')` also strips zeros of the integer part | value `100` with `decimals` 0 gives `1` | trim zeros only after a decimal point | not executed | NumberFormat.AsWrittenHundred | NumberFormat.FormatNumberValue |
| src/components/ParserRule.tsx:138-157 | `saveCustomCssProperties` matches names exactly, unlike `addCustomCssProperty`, so a row differing only in case is appended as a second entry | registered `Gap-X`, table row `gap-x` | update the entry that matches ignoring case, as `addCustomCssProperty` does | not executed | Mappings.SaveAsWrittenDuplicates | Mappings.SaveCustomCssProperties |
| src/components/ParserRule.tsx:491-493 | `validCssProperties` is read but neither declared nor imported in the component, so with no keywords loaded the check throws a ReferenceError | property `color` before the keyword list has loaded | fall back to the built-in list exported next to `isValidCssProperty` | not executed | Mappings.CheckWithoutKeywords | Mappings.CheckAndMapInvalidCssProperty |

=== FILE: classrules.dfy ===
/** The class-rule generator of the component: `collectProperties` gathers
    one declaration block per class from a token tree, and the blocks are
    printed as plain rules, or, when several files are configured, as the
    default file's rules followed by one `@media` or `[data-theme]` block
    per other file. */
module ClassRules {
  import opened Strings
  import opened Wrappers
  import opened Json
  import OrderedMaps
  import Naming
  import Validator
  import References
  import Tokens

  /** The component state `collectProperties` reads: the key transform
      settings, the property path depth, whether code syntax is used, the
      keyword and custom lists the validity check consults, and the table of
      invalid names. */
  datatype CollectOptions = CollectOptions(
    keySeparator: string,
    lowercase: bool,
    depth: int,
    useCodeSyntax: bool,
    keywords: seq<string>,
    customs: seq<Validator.CustomProperty>,
    invalid: OrderedMaps.OMap<seq<string>>)

  /** Class name to its declarations, property name to value, both in
      insertion order. */
  type Rules = OrderedMaps.OMap<OrderedMaps.OMap<Json>>

  // ---------------------------------------------------------------------
  // One token

  /** `data.$type && data.$value !== undefined`: unlike the extractor, a
      falsy `$value` such as `0` still counts. */
  predicate IsClassToken(j: Json) {
    TruthyOpt(Get(j, "$type")) && Get(j, "$value").Some?
  }

  function Key(s: string, o: CollectOptions): string {
    Naming.TransformKey(s, o.keySeparator, o.lowercase)
  }

  /** All segments but the last, joined by a space and transformed, or
      `token-default` when that is empty. */
  function ClassName(path: seq<string>, o: CollectOptions): (c: string)
    requires |path| > 0
    ensures |c| > 0
    ensures Key(Join(path[..|path| - 1], " "), o) != "" ==> c == Key(Join(path[..|path| - 1], " "), o)
    ensures Key(Join(path[..|path| - 1], " "), o) == "" ==> c == "token-default"
  {
    var n := Key(Join(path[..|path| - 1], " "), o);
    if n == "" then "token-default" else n
  }

  /** The whole path when the depth is 99 or more, otherwise its last
      `depth` segments, joined by a space and transformed. */
  function PropertyName(path: seq<string>, o: CollectOptions): string {
    Key(Join(Naming.SelectPath(path, o.depth), " "), o)
  }

  /** The property name run through the key transform once more. */
  function CssProperty(path: seq<string>, o: CollectOptions): string {
    Key(PropertyName(path, o), o)
  }

  /** `isValidCssProperty(p) ? [p] : (invalid.get(p) || [p])`; an empty
      mapping is a truthy array and is returned as it is. */
  function Targets(p: string, o: CollectOptions): seq<string> {
    if Validator.IsValidCssProperty(p, o.keywords, o.customs) then [p]
    else match OrderedMaps.Get(o.invalid, p)
      case Some(t) => t
      case None => [p]
  }

  /** The property names a token's value is assigned to: its targets, or
      the property name itself when there are none. */
  function Keys(path: seq<string>, o: CollectOptions): (ks: seq<string>)
    ensures |ks| > 0
    ensures Validator.IsValidCssProperty(CssProperty(path, o), o.keywords, o.customs) ==> ks == [CssProperty(path, o)]
    ensures !Validator.IsValidCssProperty(CssProperty(path, o), o.keywords, o.customs) ==>
      match OrderedMaps.Get(o.invalid, CssProperty(path, o))
      case None => ks == [CssProperty(path, o)]
      case Some(t) => ks == if |t| > 0 then t else [PropertyName(path, o)]
  {
    var t := Targets(CssProperty(path, o), o);
    if |t| > 0 then t else [PropertyName(path, o)]
  }

  /** With a separator free of white space the second transform changes
      nothing, so a name without targets is written under the same name
      whichever fallback applies. */
  lemma {:induction false} CssPropertyIsPropertyName(path: seq<string>, o: CollectOptions)
    requires NoSpace(o.keySeparator)
    ensures CssProperty(path, o) == PropertyName(path, o)
  {
    Naming.TransformKeyIdempotent(Join(Naming.SelectPath(path, o.depth), " "), o.keySeparator, o.lowercase);
  }

  /** The value before the alias rewrite: `codeSyntax.web` when code syntax
      is used and both it and `web` are truthy, `$value` otherwise. */
  function RawValue(j: Json, useCodeSyntax: bool): (v: Json)
    requires IsClassToken(j)
    ensures v == Get(j, "$value").value || (useCodeSyntax && Truthy(v))
    ensures useCodeSyntax && TruthyOpt(Tokens.CodeSyntax(j)) && TruthyOpt(Get(Tokens.CodeSyntax(j).value, "web")) ==>
      v == Get(Tokens.CodeSyntax(j).value, "web").value
    ensures !(useCodeSyntax && TruthyOpt(Tokens.CodeSyntax(j)) && TruthyOpt(Get(Tokens.CodeSyntax(j).value, "web"))) ==>
      v == Get(j, "$value").value
  {
    var cs := Tokens.CodeSyntax(j);
    if useCodeSyntax && TruthyOpt(cs) && TruthyOpt(Get(cs.value, "web")) then Get(cs.value, "web").value
    else Get(j, "$value").value
  }

  function DeclValue(j: Json, o: CollectOptions): Json
    requires IsClassToken(j)
  {
    References.ClassValueRewrite(RawValue(j, o.useCodeSyntax))
  }

  /** The declarations of one class, or none yet. */
  function Decls(rules: Rules, cls: string): OrderedMaps.OMap<Json> {
    match OrderedMaps.Get(rules, cls)
    case Some(d) => d
    case None => []
  }

  /** The class holds a declaration of the property. */
  predicate Holds(rules: Rules, cls: string, p: string) {
    OrderedMaps.HasKey(rules, cls) && OrderedMaps.HasKey(Decls(rules, cls), p)
  }

  /** `classProperties[cls] ||= {}` followed by the assignment of the value
      to every key: the class gains those declarations with that value and
      nothing else changes. */
  function Record(rules: Rules, cls: string, keys: seq<string>, v: Json): (r: Rules)
    ensures forall k :: k in keys ==> OrderedMaps.Get(Decls(r, cls), k) == Some(v)
    ensures forall k :: k !in keys ==> OrderedMaps.Get(Decls(r, cls), k) == OrderedMaps.Get(Decls(rules, cls), k)
    ensures forall c :: c != cls ==> OrderedMaps.Get(r, c) == OrderedMaps.Get(rules, c)
    ensures OrderedMaps.HasKey(r, cls)
    ensures OrderedMaps.Distinct(rules) ==> OrderedMaps.Distinct(r)
  {
    OrderedMaps.Put(rules, cls, OrderedMaps.PutAll(Decls(rules, cls), keys, v))
  }

  /** Recording never takes a declaration away. */
  lemma {:induction false} RecordKeeps(rules: Rules, cls: string, keys: seq<string>, v: Json)
    ensures forall c, p :: Holds(rules, c, p) ==> Holds(Record(rules, cls, keys, v), c, p)
  {
    var r := Record(rules, cls, keys, v);
    forall c, p | Holds(rules, c, p)
      ensures Holds(r, c, p)
    {
      if c != cls {
        assert Decls(r, c) == Decls(rules, c);
      } else if p !in keys {
        assert OrderedMaps.Get(Decls(r, cls), p) == OrderedMaps.Get(Decls(rules, cls), p);
      }
    }
  }

  // ---------------------------------------------------------------------
  // The walk

  /** `collectProperties(data, path)` adding to `rules`: a class token at a
      non-empty path is recorded and not walked further; any other object
      or array is walked key by key, skipping `$` keys; primitives add
      nothing. */
  function Collect(j: Json, path: seq<string>, rules: Rules, o: CollectOptions): (r: Rules)
    ensures OrderedMaps.Distinct(rules) ==> OrderedMaps.Distinct(r)
    decreases j, 1
  {
    if !IsObjectLike(j) then rules
    else if IsClassToken(j) then
      if |path| > 0 then Record(rules, ClassName(path, o), Keys(path, o), DeclValue(j, o))
      else rules
    else CollectEntries(j, 0, path, rules, o)
  }

  /** `Object.keys(data).forEach(...)` from the i-th key on. */
  function CollectEntries(j: Json, i: nat, path: seq<string>, rules: Rules, o: CollectOptions): (r: Rules)
    ensures OrderedMaps.Distinct(rules) ==> OrderedMaps.Distinct(r)
    decreases j, 0, EntryCount(j) - i
  {
    if i >= EntryCount(j) then rules
    else
      var k := EntryKey(j, i);
      var next := if IsMetaKey(k) then rules else Collect(EntryValue(j, i), path + [k], rules, o);
      CollectEntries(j, i + 1, path, next, o)
  }

  /** The walk never takes a declaration away. */
  lemma {:induction false} CollectKeeps(j: Json, path: seq<string>, rules: Rules, o: CollectOptions, cls: string, p: string)
    requires Holds(rules, cls, p)
    ensures Holds(Collect(j, path, rules, o), cls, p)
    decreases j, 1
  {
    if IsObjectLike(j) {
      if IsClassToken(j) {
        if |path| > 0 {
          RecordKeeps(rules, ClassName(path, o), Keys(path, o), DeclValue(j, o));
        }
      } else {
        EntriesKeep(j, 0, path, rules, o, cls, p);
      }
    }
  }

  lemma {:induction false} EntriesKeep(j: Json, i: nat, path: seq<string>, rules: Rules, o: CollectOptions, cls: string, p: string)
    requires Holds(rules, cls, p)
    ensures Holds(CollectEntries(j, i, path, rules, o), cls, p)
    decreases j, 0, EntryCount(j) - i
  {
    if i < EntryCount(j) {
      var k := EntryKey(j, i);
      if !IsMetaKey(k) {
        CollectKeeps(EntryValue(j, i), path + [k], rules, o, cls, p);
      }
      var next := if IsMetaKey(k) then rules else Collect(EntryValue(j, i), path + [k], rules, o);
      EntriesKeep(j, i + 1, path, next, o, cls, p);
    }
  }

  /** `keys` leads from `j` to a class token through objects and arrays
      that are not class tokens themselves, using no `$` key. */
  predicate Reaches(j: Json, keys: seq<string>)
    decreases |keys|
  {
    if |keys| == 0 then IsClassToken(j)
    else
      && IsObjectLike(j) && !IsClassToken(j) && !IsMetaKey(keys[0])
      && match Child(j, keys[0])
         case None => false
         case Some(c) => Reaches(c, keys[1..])
  }

  /** Every class token reached at a non-empty path has all its
      declarations in the result: no token is dropped. */
  lemma {:induction false} CollectComplete(
    j: Json, path: seq<string>, rules: Rules, o: CollectOptions, keys: seq<string>, p: string)
    requires DistinctKeys(j) && Reaches(j, keys) && |path + keys| > 0
    requires p in Keys(path + keys, o)
    ensures Holds(Collect(j, path, rules, o), ClassName(path + keys, o), p)
    decreases |keys|, 2
  {
    if |keys| == 0 {
      assert path + keys == path;
    } else {
      var c := Child(j, keys[0]).value;
      var i := Tokens.EntryOfChild(j, keys[0], c);
      EntriesSplit(j, 0, i, path, rules, o);
      EntryHolds(j, i, path, RulesBefore(j, 0, i, path, rules, o), o, keys, p);
    }
  }

  /** The rules the walk has built once it has gone through the entries
      from `from` up to, not including, `i`. */
  function RulesBefore(j: Json, from: nat, i: nat, path: seq<string>, rules: Rules, o: CollectOptions): Rules
    requires from <= i <= EntryCount(j)
    decreases i - from
  {
    if from == i then rules
    else
      var k := EntryKey(j, from);
      var next := if IsMetaKey(k) then rules else Collect(EntryValue(j, from), path + [k], rules, o);
      RulesBefore(j, from + 1, i, path, next, o)
  }

  /** The walk from `from` on is the walk from `i` on, started from the
      rules the entries before `i` built. */
  lemma {:induction false} EntriesSplit(j: Json, from: nat, i: nat, path: seq<string>, rules: Rules, o: CollectOptions)
    requires from <= i <= EntryCount(j)
    ensures CollectEntries(j, from, path, rules, o) == CollectEntries(j, i, path, RulesBefore(j, from, i, path, rules, o), o)
    decreases i - from
  {
    if from < i {
      var k := EntryKey(j, from);
      var next := if IsMetaKey(k) then rules else Collect(EntryValue(j, from), path + [k], rules, o);
      EntriesSplit(j, from + 1, i, path, next, o);
    }
  }

  /** The walk from the entry the path goes through on holds the declaration. */
  lemma {:induction false} EntryHolds(
    j: Json, i: nat, path: seq<string>, rules: Rules, o: CollectOptions, keys: seq<string>, p: string)
    requires DistinctKeys(j) && IsObjectLike(j) && !IsClassToken(j)
    requires |keys| > 0 && Reaches(j, keys) && p in Keys(path + keys, o)
    requires i < EntryCount(j) && EntryKey(j, i) == keys[0] && EntryValue(j, i) == Child(j, keys[0]).value
    ensures Holds(CollectEntries(j, i, path, rules, o), ClassName(path + keys, o), p)
    decreases |keys|, 0, 1
  {
    var k := EntryKey(j, i);
    var next := if IsMetaKey(k) then rules else Collect(EntryValue(j, i), path + [k], rules, o);
    assert CollectEntries(j, i, path, rules, o) == CollectEntries(j, i + 1, path, next, o);
    EntryComplete(j, i, path, rules, o, keys, p);
    EntriesKeep(j, i + 1, path, next, o, ClassName(path + keys, o), p);
  }

  /** The entry the path goes through records the declaration. */
  lemma {:induction false} EntryComplete(
    j: Json, i: nat, path: seq<string>, rules: Rules, o: CollectOptions, keys: seq<string>, p: string)
    requires DistinctKeys(j) && IsObjectLike(j) && !IsClassToken(j)
    requires |keys| > 0 && Reaches(j, keys) && p in Keys(path + keys, o)
    requires i < EntryCount(j) && EntryKey(j, i) == keys[0] && EntryValue(j, i) == Child(j, keys[0]).value
    ensures !IsMetaKey(EntryKey(j, i))
    ensures Holds(Collect(EntryValue(j, i), path + [EntryKey(j, i)], rules, o), ClassName(path + keys, o), p)
    decreases |keys|, 0, 0
  {
    var c := EntryValue(j, i);
    ChildOfEntry(j, i);
    assert Reaches(c, keys[1..]);
    Ungroup(path, keys, o, p);
    CollectComplete(c, path + [keys[0]], rules, o, keys[1..], p);
  }

  /** Splitting off the first key changes neither the class nor the properties. */
  lemma {:induction false} Ungroup(path: seq<string>, keys: seq<string>, o: CollectOptions, p: string)
    requires |keys| > 0 && p in Keys(path + keys, o)
    ensures |path + [keys[0]] + keys[1..]| > 0
    ensures ClassName(path + [keys[0]] + keys[1..], o) == ClassName(path + keys, o)
    ensures p in Keys(path + [keys[0]] + keys[1..], o)
  {
    assert path + [keys[0]] + keys[1..] == path + keys;
  }

  /** Every declaration the walk adds comes from a class token it reaches:
      its class and property are the ones that token's path gives. */
  lemma {:induction false} CollectSound(j: Json, path: seq<string>, rules: Rules, o: CollectOptions, cls: string, p: string)
    returns (keys: seq<string>)
    requires DistinctKeys(j)
    requires Holds(Collect(j, path, rules, o), cls, p) && !Holds(rules, cls, p)
    ensures Reaches(j, keys) && |path + keys| > 0
    ensures cls == ClassName(path + keys, o) && p in Keys(path + keys, o)
    decreases j, 1
  {
    if IsClassToken(j) {
      keys := [];
      assert path + keys == path;
    } else {
      keys := EntriesSound(j, 0, path, rules, o, cls, p);
    }
  }

  lemma {:induction false} EntriesSound(j: Json, i: nat, path: seq<string>, rules: Rules, o: CollectOptions, cls: string, p: string)
    returns (keys: seq<string>)
    requires DistinctKeys(j) && IsObjectLike(j) && !IsClassToken(j)
    requires Holds(CollectEntries(j, i, path, rules, o), cls, p) && !Holds(rules, cls, p)
    ensures Reaches(j, keys) && |path + keys| > 0
    ensures cls == ClassName(path + keys, o) && p in Keys(path + keys, o)
    decreases j, 0, EntryCount(j) - i
  {
    if i >= EntryCount(j) {
      assert false;
    }
    var k := EntryKey(j, i);
    var next := if IsMetaKey(k) then rules else Collect(EntryValue(j, i), path + [k], rules, o);
    if Holds(next, cls, p) {
      keys := EntrySound(j, i, path, rules, o, cls, p);
    } else {
      assert EntryCount(j) - (i + 1) < EntryCount(j) - i;
      keys := EntriesSound(j, i + 1, path, next, o, cls, p);
    }
  }

  /** The declaration comes from the entry at `i` itself. */
  lemma {:induction false} EntrySound(j: Json, i: nat, path: seq<string>, rules: Rules, o: CollectOptions, cls: string, p: string)
    returns (keys: seq<string>)
    requires DistinctKeys(j) && IsObjectLike(j) && !IsClassToken(j) && i < EntryCount(j)
    requires !IsMetaKey(EntryKey(j, i))
    requires Holds(Collect(EntryValue(j, i), path + [EntryKey(j, i)], rules, o), cls, p) && !Holds(rules, cls, p)
    ensures Reaches(j, keys) && |path + keys| > 0
    ensures cls == ClassName(path + keys, o) && p in Keys(path + keys, o)
    decreases j, 0, 0
  {
    var k := EntryKey(j, i);
    var c := EntryValue(j, i);
    ChildOfEntry(j, i);
    var rest := CollectSound(c, path + [k], rules, o, cls, p);
    ReachesThrough(j, k, c, rest);
    Regroup(path, k, rest, o, cls, p);
    keys := [k] + rest;
  }

  /** A path into a child a walk enters reaches down from the parent. */
  lemma {:induction false} ReachesThrough(j: Json, k: string, c: Json, rest: seq<string>)
    requires IsObjectLike(j) && !IsClassToken(j) && !IsMetaKey(k)
    requires Child(j, k) == Some(c) && Reaches(c, rest)
    ensures Reaches(j, [k] + rest)
  {
    assert ([k] + rest)[1..] == rest;
  }

  /** Re-associating the path changes neither its class nor its properties. */
  lemma {:induction false} Regroup(path: seq<string>, k: string, rest: seq<string>, o: CollectOptions, cls: string, p: string)
    requires |path + [k] + rest| > 0
    requires cls == ClassName(path + [k] + rest, o) && p in Keys(path + [k] + rest, o)
    ensures |path + ([k] + rest)| > 0
    ensures cls == ClassName(path + ([k] + rest), o) && p in Keys(path + ([k] + rest), o)
  {
    assert path + [k] + rest == path + ([k] + rest);
  }

  /** A typed node whose `$value` is present but falsy (`0`, `""`, `false`,
      `null`) yields a declaration here, while the extractor, which wants a
      truthy `$value`, skips it. */
  lemma {:induction false} ZeroValueCounts(j: Json)
    requires TruthyOpt(Get(j, "$type"))
    requires Get(j, "$value").Some? && !Truthy(Get(j, "$value").value)
    ensures IsClassToken(j) && !Tokens.IsToken(j)
  {
  }

  // ---------------------------------------------------------------------
  // Printing

  /** `  property: value;` lines of one class, each with the given indent. */
  function DeclLines(decls: OrderedMaps.OMap<Json>, indent: string): string
    decreases |decls|
  {
    if |decls| == 0 then ""
    else DeclLines(decls[..|decls| - 1], indent) + DeclLine(decls[|decls| - 1], indent)
  }

  function DeclLine(d: (string, Json), indent: string): string {
    indent + d.0 + ": " + ToString(d.1) + ";\n"
  }

  /** A top-level rule, followed by a blank line. */
  function BaseRule(c: (string, OrderedMaps.OMap<Json>)): string {
    "." + c.0 + " {\n" + DeclLines(c.1, "  ") + "}\n\n"
  }

  /** A rule nested one level inside a wrapper block. */
  function NestedRule(c: (string, OrderedMaps.OMap<Json>)): string {
    "  ." + c.0 + " {\n" + DeclLines(c.1, "    ") + "  }\n"
  }

  function Rule(c: (string, OrderedMaps.OMap<Json>), nested: bool): string {
    if nested then NestedRule(c) else BaseRule(c)
  }

  /** The rules of all classes in their insertion order. */
  function RulesText(rules: Rules, nested: bool): string
    decreases |rules|
  {
    if |rules| == 0 then ""
    else RulesText(rules[..|rules| - 1], nested) + Rule(rules[|rules| - 1], nested)
  }

  /** Printing a longer prefix of the classes extends the text. */
  lemma {:induction false} RulesTextPrefix(rules: Rules, nested: bool, k: nat)
    requires k <= |rules|
    ensures StartsWith(RulesText(rules, nested), RulesText(rules[..k], nested))
    decreases |rules| - k
  {
    if k < |rules| {
      var n := |rules|;
      RulesTextPrefix(rules[..n - 1], nested, k);
      assert rules[..n - 1][..k] == rules[..k];
      var a := RulesText(rules[..k], nested);
      var b := RulesText(rules[..n - 1], nested);
      assert |a| <= |b| && b[..|a|] == a;
      assert RulesText(rules, nested) == b + Rule(rules[n - 1], nested);
      assert (b + Rule(rules[n - 1], nested))[..|a|] == b[..|a|];
    } else {
      assert rules[..k] == rules;
    }
  }

  /** Every class appears as one rule, in insertion order: the rule of the
      k-th class directly follows the rules of the classes before it. */
  lemma {:induction false} RuleOfEachClass(rules: Rules, nested: bool, k: nat)
    requires k < |rules|
    ensures StartsWith(RulesText(rules, nested),
      RulesText(rules[..k], nested) + Rule(rules[k], nested))
  {
    RulesTextPrefix(rules, nested, k + 1);
    assert rules[..k + 1][..k] == rules[..k];
  }

  // ---------------------------------------------------------------------
  // Several files

  datatype Responsive = Resolution | Theme

  /** One configured file: its id, file name, label, and the optional width
      bounds of the resolution mode. */
  datatype FileConfig = FileConfig(id: int, fileName: string, config: string, minWidth: Option<int>, maxWidth: Option<int>)

  /** A width bound is used only when it is truthy: present and not 0. */
  predicate Bound(w: Option<int>) {
    w.Some? && w.value != 0
  }

  function Px(n: int): string {
    IntToString(n) + "px"
  }

  /** The range shown for the default file. */
  function RangeText(c: FileConfig, mode: Responsive): string {
    if mode == Theme then c.config
    else if Bound(c.minWidth) && Bound(c.maxWidth) then Px(c.minWidth.value) + " - " + Px(c.maxWidth.value)
    else if Bound(c.minWidth) then Px(c.minWidth.value) + " 이상"
    else if Bound(c.maxWidth) then Px(c.maxWidth.value) + " 이하"
    else "모든 해상도"
  }

  /** The media query condition of a file's block, from its truthy
      bounds; empty when it has none. */
  function MediaCondition(c: FileConfig): (m: string)
    ensures m == "" <==> !Bound(c.minWidth) && !Bound(c.maxWidth)
    ensures Bound(c.minWidth) ==> StartsWith(m, "(min-width: " + Px(c.minWidth.value) + ")")
    ensures Bound(c.maxWidth) ==> EndsWith(m, "(max-width: " + Px(c.maxWidth.value) + ")")
  {
    var lo := "(min-width: " + (if Bound(c.minWidth) then Px(c.minWidth.value) else "") + ")";
    var hi := "(max-width: " + (if Bound(c.maxWidth) then Px(c.maxWidth.value) else "") + ")";
    if Bound(c.minWidth) && Bound(c.maxWidth) then
      assert (lo + " and " + hi)[..|lo|] == lo;
      assert (lo + " and " + hi)[|lo + " and " + hi| - |hi|..] == hi;
      lo + " and " + hi
    else if Bound(c.minWidth) then
      assert lo[..|lo|] == lo;
      lo
    else if Bound(c.maxWidth) then
      assert hi[|hi| - |hi|..] == hi;
      hi
    else ""
  }

  /** The comment naming the file and its range inside a media block. */
  function FileComment(c: FileConfig): string {
    "  /* " + c.fileName + " - "
    + (if Bound(c.minWidth) then IntToString(c.minWidth.value) else "")
    + (if Bound(c.minWidth) && Bound(c.maxWidth) then "-" else "")
    + (if Bound(c.maxWidth) then IntToString(c.maxWidth.value) else "")
    + "px */\n"
  }

  /** The opening of the block of a non-default file. */
  function BlockHead(c: FileConfig, mode: Responsive): string {
    if mode == Resolution then "\n@media " + MediaCondition(c) + " {\n" + FileComment(c)
    else "\n/* 테마: " + c.config + " */\n" + "[data-theme=\"" + Lower(c.config) + "\"] {\n"
  }

  /** The whole block of a non-default file: its own classes, collected
      from an empty start, nested inside the wrapper. */
  function FileBlock(c: FileConfig, data: Json, mode: Responsive, o: CollectOptions): string {
    BlockHead(c, mode) + RulesText(Collect(data, [], [], o), true) + "}\n"
  }

  function Header(mode: Responsive): string {
    "/* " + (if mode == Resolution then "해상도" else "테마") + " 대응 CSS */\n\n"
  }

  /** The parsed data of a file, when it has truthy data. */
  predicate HasData(data: map<int, Json>, id: int) {
    id in data && Truthy(data[id])
  }

  /** `configs.find(fc => fc.id === id)`. */
  function FindConfig(configs: seq<FileConfig>, id: int): (r: Option<FileConfig>)
    ensures r.Some? ==> r.value in configs && r.value.id == id
    ensures r.None? ==> forall k :: 0 <= k < |configs| ==> configs[k].id != id
    decreases |configs|
  {
    if |configs| == 0 then None
    else if configs[0].id == id then Some(configs[0])
    else FindConfig(configs[1..], id)
  }

  /** The configurations that get a block: not the default, with data, in
      their configured order. */
  function Others(configs: seq<FileConfig>, defaultId: int, data: map<int, Json>): (r: seq<FileConfig>)
    ensures forall c :: c in r <==> c in configs && c.id != defaultId && HasData(data, c.id)
    ensures |r| <= |configs|
    decreases |configs|
  {
    if |configs| == 0 then []
    else
      var last := configs[|configs| - 1];
      var rest := Others(configs[..|configs| - 1], defaultId, data);
      assert configs == configs[..|configs| - 1] + [last];
      if last.id != defaultId && HasData(data, last.id) then rest + [last] else rest
  }

  function Blocks(cs: seq<FileConfig>, data: map<int, Json>, mode: Responsive, o: CollectOptions): string
    requires forall c :: c in cs ==> HasData(data, c.id)
    decreases |cs|
  {
    if |cs| == 0 then ""
    else
      var last := cs[|cs| - 1];
      assert last in cs;
      assert HasData(data, last.id);
      assert forall c :: c in cs[..|cs| - 1] ==> c in cs;
      Blocks(cs[..|cs| - 1], data, mode, o) + FileBlock(last, data[last.id], mode, o)
  }

  /** A default file is chosen, configured, and has data. */
  predicate DefaultReady(configs: seq<FileConfig>, defaultId: Option<int>, data: map<int, Json>) {
    defaultId.Some? && FindConfig(configs, defaultId.value).Some? && HasData(data, defaultId.value)
  }

  /** The default file's section: the range comment and its plain rules. */
  function DefaultSection(c: FileConfig, data: Json, mode: Responsive, o: CollectOptions): string {
    "/* 기본 스타일 - " + RangeText(c, mode) + " */\n" + RulesText(Collect(data, [], [], o), false)
  }

  /** The class-rule output of the component: with more than one file and
      at least one configuration, the multi-file output; otherwise the
      single file's plain rules. */
  method GenerateClassCss(
    fileCount: nat, configs: seq<FileConfig>, defaultId: Option<int>, data: map<int, Json>,
    single: Json, mode: Responsive, o: CollectOptions)
    returns (css: string)
    ensures fileCount <= 1 || |configs| == 0 ==> css == RulesText(Collect(single, [], [], o), false)
    ensures fileCount > 1 && |configs| > 0 ==> StartsWith(css, Header(mode))
  {
    if fileCount > 1 && |configs| > 0 {
      css := GenerateMultiFileCss(configs, defaultId, data, mode, o);
    } else {
      css := RulesText(Collect(single, [], [], o), false);
    }
  }

  /** The multi-file output: a header; then, when the default configuration
      exists and has data, its section followed by one block per other
      configuration with data. */
  method GenerateMultiFileCss(
    configs: seq<FileConfig>, defaultId: Option<int>, data: map<int, Json>, mode: Responsive, o: CollectOptions)
    returns (css: string)
    ensures StartsWith(css, Header(mode))
    ensures !DefaultReady(configs, defaultId, data) ==> css == Header(mode)
    ensures DefaultReady(configs, defaultId, data) ==>
      css == Header(mode)
        + DefaultSection(FindConfig(configs, defaultId.value).value, data[defaultId.value], mode, o)
        + Blocks(Others(configs, defaultId.value, data), data, mode, o)
  {
    var header := Header(mode);
    if !DefaultReady(configs, defaultId, data) {
      StartsWithConcat(header, "");
      assert header + "" == header;
      return header;
    }
    var id := defaultId.value;
    var section := DefaultSection(FindConfig(configs, id).value, data[id], mode, o);
    css := AppendBlocks(header + section, configs, id, data, mode, o);
    HeadFirst(header, section, css, Blocks(Others(configs, id, data), data, mode, o));
  }

  /** Text built as `(header + section) + blocks` starts with the header
      and equals `header + section + blocks`. */
  lemma {:induction false} HeadFirst(header: string, section: string, css: string, blocks: string)
    requires css == header + section + blocks
    ensures StartsWith(css, header)
  {
    StartsWithConcat(header, section + blocks);
  }

  /** What the loop body appends for one configuration: the default file
      and a file without data are skipped, any other gets its block. */
  function StepBlock(c: FileConfig, id: int, data: map<int, Json>, mode: Responsive, o: CollectOptions): string {
    if c.id != id && HasData(data, c.id) then FileBlock(c, data[c.id], mode, o) else ""
  }

  /** The loop over the other configurations: a block for each one with
      data, skipping the default. */
  method AppendBlocks(head: string, configs: seq<FileConfig>, id: int, data: map<int, Json>, mode: Responsive, o: CollectOptions)
    returns (css: string)
    ensures css == head + Blocks(Others(configs, id, data), data, mode, o)
  {
    var blocks := "";
    var i := 0;
    while i < |configs|
      invariant 0 <= i <= |configs|
      invariant blocks == Blocks(Others(configs[..i], id, data), data, mode, o)
    {
      BlocksStep(configs, i, id, data, mode, o);
      blocks := blocks + StepBlock(configs[i], id, data, mode, o);
      i := i + 1;
    }
    assert configs[..i] == configs;
    css := head + blocks;
  }

  /** One iteration extends the blocks of the configurations before it by
      that configuration's step. */
  lemma {:induction false} BlocksStep(configs: seq<FileConfig>, i: nat, id: int, data: map<int, Json>, mode: Responsive, o: CollectOptions)
    requires i < |configs|
    ensures Blocks(Others(configs[..i + 1], id, data), data, mode, o)
      == Blocks(Others(configs[..i], id, data), data, mode, o) + StepBlock(configs[i], id, data, mode, o)
  {
    if configs[i].id != id && HasData(data, configs[i].id) {
      OneBlockEach(configs, i, id, data, mode, o);
    } else {
      SkippedConfigsAddNothing(configs, i, id, data);
    }
  }

  /** A configuration without data, or the default one, contributes no
      block: the blocks are exactly those of the other files with data. */
  lemma {:induction false} SkippedConfigsAddNothing(configs: seq<FileConfig>, i: nat, defaultId: int, data: map<int, Json>)
    requires i < |configs|
    requires configs[i].id == defaultId || !HasData(data, configs[i].id)
    ensures Others(configs[..i + 1], defaultId, data) == Others(configs[..i], defaultId, data)
  {
    assert configs[..i + 1][..i] == configs[..i];
  }

  /** Each other configuration with data gets exactly one block, placed
      after the blocks of the configurations before it. */
  lemma {:induction false} OneBlockEach(configs: seq<FileConfig>, i: nat, defaultId: int, data: map<int, Json>,
    mode: Responsive, o: CollectOptions)
    requires i < |configs|
    requires configs[i].id != defaultId && HasData(data, configs[i].id)
    ensures Blocks(Others(configs[..i + 1], defaultId, data), data, mode, o)
      == Blocks(Others(configs[..i], defaultId, data), data, mode, o) + FileBlock(configs[i], data[configs[i].id], mode, o)
  {
    assert configs[..i + 1][..i] == configs[..i];
    var r := Others(configs[..i], defaultId, data);
    assert Others(configs[..i + 1], defaultId, data) == r + [configs[i]];
    assert (r + [configs[i]])[..|r|] == r;
  }
}

=== FILE: fileconfig.dfy ===
/** The per-file settings of the several-file class output: the settings a
    fresh upload starts with, the automatic range shown for a file without
    bounds, and the name and type of the downloaded result. */
module FileConfigs {
  import opened Strings
  import opened Wrappers
  import ClassRules

  type FileConfig = ClassRules.FileConfig

  // ---------------------------------------------------------------------
  // Settings of a fresh upload

  /** The setting of the file uploaded at `index`: in resolution mode the
      first file is the wide screen, the second the middle range and every
      later one the narrow screen; in theme mode the first is light and
      the others dark. */
  function DefaultConfig(index: nat, fileName: string, mode: ClassRules.Responsive): FileConfig {
    if mode == ClassRules.Theme then
      ClassRules.FileConfig(index, fileName, if index == 0 then "light" else "dark", None, None)
    else if index == 0 then ClassRules.FileConfig(index, fileName, "1440px 이상", Some(1440), None)
    else if index == 1 then ClassRules.FileConfig(index, fileName, "768px-1439px", Some(768), Some(1439))
    else ClassRules.FileConfig(index, fileName, "767px 이하", None, Some(767))
  }

  /** One setting per uploaded file, in upload order, each numbered by its
      position. */
  function DefaultFileConfigs(fileNames: seq<string>, mode: ClassRules.Responsive): (r: seq<FileConfig>)
    ensures |r| == |fileNames|
    ensures forall i :: 0 <= i < |r| ==> r[i].id == i && r[i].fileName == fileNames[i]
    ensures mode == ClassRules.Theme ==>
      forall i :: 0 <= i < |r| ==> !ClassRules.Bound(r[i].minWidth) && !ClassRules.Bound(r[i].maxWidth)
  {
    seq(|fileNames|, i requires 0 <= i < |fileNames| => DefaultConfig(i, fileNames[i], mode))
  }

  /** Whether a viewport width falls inside a file's range: its truthy
      bounds are inclusive, as `min-width` and `max-width` are in section 6
      of Media Queries Level 3. */
  predicate Covers(c: FileConfig, w: int) {
    && (!ClassRules.Bound(c.minWidth) || c.minWidth.value <= w)
    && (!ClassRules.Bound(c.maxWidth) || w <= c.maxWidth.value)
  }

  /** The first three resolution settings split the widths: every width is
      covered by exactly one of them. */
  lemma {:induction false} DefaultRangesPartition(fileNames: seq<string>, w: int)
    requires |fileNames| >= 3
    ensures var r := DefaultFileConfigs(fileNames, ClassRules.Resolution);
      && (Covers(r[0], w) || Covers(r[1], w) || Covers(r[2], w))
      && !(Covers(r[0], w) && Covers(r[1], w))
      && !(Covers(r[0], w) && Covers(r[2], w))
      && !(Covers(r[1], w) && Covers(r[2], w))
  {
  }

  /** Every file after the second gets the narrow-screen range. */
  lemma {:induction false} LaterFilesNarrow(fileNames: seq<string>, i: nat, w: int)
    requires 2 <= i < |fileNames|
    ensures var r := DefaultFileConfigs(fileNames, ClassRules.Resolution);
      Covers(r[i], w) <==> w <= 767
  {
  }

  /** The numbering is by position, so looking a setting up by its id
      finds that very setting; the first file, which becomes the default,
      is found under id 0. */
  lemma {:induction false} FindsEachDefault(fileNames: seq<string>, mode: ClassRules.Responsive, i: nat)
    requires i < |fileNames|
    ensures var r := DefaultFileConfigs(fileNames, mode);
      ClassRules.FindConfig(r, i) == Some(r[i])
  {
    var r := DefaultFileConfigs(fileNames, mode);
    var f := ClassRules.FindConfig(r, i);
    if f.Some? {
      var k :| 0 <= k < |r| && r[k] == f.value;
      assert k == i;
    }
  }

  // ---------------------------------------------------------------------
  // Automatic range

  /** The other files' settings. */
  function Neighbours(configs: seq<FileConfig>, id: int): (r: seq<FileConfig>)
    ensures forall o :: o in r <==> o in configs && o.id != id
    decreases |configs|
  {
    if |configs| == 0 then []
    else
      var last := configs[|configs| - 1];
      var rest := Neighbours(configs[..|configs| - 1], id);
      assert configs == configs[..|configs| - 1] + [last];
      if last.id != id then rest + [last] else rest
  }

  /** The truthy upper bounds of the given settings: below each of them
      the automatic range has to start. */
  function LowerBounds(cs: seq<FileConfig>): (r: seq<int>)
    ensures forall o :: o in cs && ClassRules.Bound(o.maxWidth) ==> o.maxWidth.value in r
    decreases |cs|
  {
    if |cs| == 0 then []
    else
      var last := cs[|cs| - 1];
      var rest := LowerBounds(cs[..|cs| - 1]);
      assert cs == cs[..|cs| - 1] + [last];
      if ClassRules.Bound(last.maxWidth) then rest + [last.maxWidth.value] else rest
  }

  /** Every collected bound is the upper bound of one of the settings. */
  lemma {:induction false} LowerBoundFrom(cs: seq<FileConfig>, x: int)
    requires x in LowerBounds(cs)
    ensures exists o :: o in cs && ClassRules.Bound(o.maxWidth) && o.maxWidth.value == x
    decreases |cs|
  {
    var last := cs[|cs| - 1];
    var init := cs[..|cs| - 1];
    assert cs == init + [last];
    if x in LowerBounds(init) {
      LowerBoundFrom(init, x);
      var o :| o in init && ClassRules.Bound(o.maxWidth) && o.maxWidth.value == x;
      assert o in cs;
    } else {
      assert last in cs;
    }
  }

  /** The truthy lower bounds of the given settings: above each of them
      the automatic range has to end. */
  function UpperBounds(cs: seq<FileConfig>): (r: seq<int>)
    ensures forall o :: o in cs && ClassRules.Bound(o.minWidth) ==> o.minWidth.value in r
    decreases |cs|
  {
    if |cs| == 0 then []
    else
      var last := cs[|cs| - 1];
      var rest := UpperBounds(cs[..|cs| - 1]);
      assert cs == cs[..|cs| - 1] + [last];
      if ClassRules.Bound(last.minWidth) then rest + [last.minWidth.value] else rest
  }

  /** Every collected bound is the lower bound of one of the settings. */
  lemma {:induction false} UpperBoundFrom(cs: seq<FileConfig>, x: int)
    requires x in UpperBounds(cs)
    ensures exists o :: o in cs && ClassRules.Bound(o.minWidth) && o.minWidth.value == x
    decreases |cs|
  {
    var last := cs[|cs| - 1];
    var init := cs[..|cs| - 1];
    assert cs == init + [last];
    if x in UpperBounds(init) {
      UpperBoundFrom(init, x);
      var o :| o in init && ClassRules.Bound(o.minWidth) && o.minWidth.value == x;
      assert o in cs;
    } else {
      assert last in cs;
    }
  }

  function Max(s: seq<int>): (m: int)
    requires |s| > 0
    ensures m in s && forall x :: x in s ==> x <= m
    decreases |s|
  {
    if |s| == 1 then s[0]
    else
      var rest := Max(s[1..]);
      assert forall x :: x in s ==> x == s[0] || x in s[1..];
      if s[0] >= rest then s[0] else rest
  }

  function Min(s: seq<int>): (m: int)
    requires |s| > 0
    ensures m in s && forall x :: x in s ==> m <= x
    decreases |s|
  {
    if |s| == 1 then s[0]
    else
      var rest := Min(s[1..]);
      assert forall x :: x in s ==> x == s[0] || x in s[1..];
      if s[0] <= rest then s[0] else rest
  }

  /** The range derived for a file from the bounds of the other files. */
  datatype Range =
    | Between(lo: int, hi: int)
    | AtLeast(lo: int)
    | AtMost(hi: int)
    | Manual
    | Everything

  /** The gap the other files leave: from just above their highest upper
      bound to just below their lowest lower bound; one-sided when only
      one kind of bound exists; everything when none does; and a request
      for a manual range when the gap is empty. */
  function AutoRange(configs: seq<FileConfig>, id: int): (r: Range)
    ensures r.Between? ==> r.lo <= r.hi
    ensures r.Everything? <==>
      forall o :: o in configs && o.id != id ==> !ClassRules.Bound(o.minWidth) && !ClassRules.Bound(o.maxWidth)
    ensures r.Manual? <==>
      exists a, b :: && a in configs && a.id != id && ClassRules.Bound(a.maxWidth)
                     && b in configs && b.id != id && ClassRules.Bound(b.minWidth)
                     && a.maxWidth.value + 1 > b.minWidth.value - 1
  {
    var others := Neighbours(configs, id);
    var lows := LowerBounds(others);
    var ups := UpperBounds(others);
    if |lows| > 0 && |ups| > 0 then
      var lo := Max(lows) + 1;
      var hi := Min(ups) - 1;
      if lo <= hi then
        assert forall a :: a in others && ClassRules.Bound(a.maxWidth) ==> a.maxWidth.value + 1 <= lo;
        assert forall b :: b in others && ClassRules.Bound(b.minWidth) ==> hi <= b.minWidth.value - 1;
        LowerBoundFrom(others, Max(lows));
        Between(lo, hi)
      else
        LowerBoundFrom(others, Max(lows));
        UpperBoundFrom(others, Min(ups));
        Manual
    else if |lows| > 0 then
      LowerBoundFrom(others, Max(lows));
      AtLeast(Max(lows) + 1)
    else if |ups| > 0 then
      UpperBoundFrom(others, Min(ups));
      AtMost(Min(ups) - 1)
    else Everything
  }

  /** Whether a width lies in a derived range. */
  predicate InRange(r: Range, w: int) {
    match r
    case Between(lo, hi) => lo <= w <= hi
    case AtLeast(lo) => lo <= w
    case AtMost(hi) => w <= hi
    case Manual => false
    case Everything => true
  }

  /** A width in the derived range lies outside the range of every other
      file that has a bound: the automatic range only fills the gap. */
  lemma {:induction false} AutoRangeAvoidsNeighbours(configs: seq<FileConfig>, id: int, o: FileConfig, w: int)
    requires InRange(AutoRange(configs, id), w)
    requires o in configs && o.id != id
    requires ClassRules.Bound(o.minWidth) || ClassRules.Bound(o.maxWidth)
    ensures !Covers(o, w)
  {
    var others := Neighbours(configs, id);
    assert o in others;
    var lows := LowerBounds(others);
    var ups := UpperBounds(others);
    if ClassRules.Bound(o.maxWidth) {
      assert o.maxWidth.value in lows;
    } else {
      assert o.minWidth.value in ups;
    }
  }

  /** The derived range is tight: its lower end sits just above the upper
      bound of some other file, and its upper end just below the lower
      bound of some other file. */
  lemma {:induction false} AutoRangeTight(configs: seq<FileConfig>, id: int)
    ensures var r := AutoRange(configs, id);
      (r.Between? || r.AtLeast?) ==>
        exists a :: a in configs && a.id != id && ClassRules.Bound(a.maxWidth) && a.maxWidth.value == r.lo - 1
    ensures var r := AutoRange(configs, id);
      (r.Between? || r.AtMost?) ==>
        exists b :: b in configs && b.id != id && ClassRules.Bound(b.minWidth) && b.minWidth.value == r.hi + 1
  {
    var others := Neighbours(configs, id);
    var lows := LowerBounds(others);
    var ups := UpperBounds(others);
    if |lows| > 0 {
      LowerBoundFrom(others, Max(lows));
    }
    if |ups| > 0 {
      UpperBoundFrom(others, Min(ups));
    }
  }

  /** The range text listed next to a file: its own bounds when it has
      any, otherwise the derived range. */
  function RangeLabel(c: FileConfig, configs: seq<FileConfig>): string {
    if ClassRules.Bound(c.minWidth) && ClassRules.Bound(c.maxWidth) then
      ClassRules.Px(c.minWidth.value) + " - " + ClassRules.Px(c.maxWidth.value)
    else if ClassRules.Bound(c.minWidth) then ClassRules.Px(c.minWidth.value) + " 이상"
    else if ClassRules.Bound(c.maxWidth) then ClassRules.Px(c.maxWidth.value) + " 이하"
    else
      match AutoRange(configs, c.id)
      case Between(lo, hi) => ClassRules.Px(lo) + " - " + ClassRules.Px(hi) + " (자동)"
      case AtLeast(lo) => ClassRules.Px(lo) + " 이상 (자동)"
      case AtMost(hi) => ClassRules.Px(hi) + " 이하 (자동)"
      case Manual => "범위를 수동으로 지정해주세요"
      case Everything => "모든 해상도"
  }

  /** A file with its own bounds is listed with the same range text as the
      comment over the default file's rules; a file without bounds gets
      the derived range, which is "all resolutions" exactly when that
      comment would say so for every file. */
  lemma {:induction false} RangeLabelAgreesWithComment(c: FileConfig, configs: seq<FileConfig>)
    ensures ClassRules.Bound(c.minWidth) || ClassRules.Bound(c.maxWidth) ==>
      RangeLabel(c, configs) == ClassRules.RangeText(c, ClassRules.Resolution)
    ensures AutoRange(configs, c.id).Everything? && !ClassRules.Bound(c.minWidth) && !ClassRules.Bound(c.maxWidth) ==>
      RangeLabel(c, configs) == ClassRules.RangeText(c, ClassRules.Resolution)
  {
  }

  /** With the wide and narrow settings in place and a third file whose
      bounds were cleared, the third file is given the middle range. */
  lemma {:induction false} MiddleFilled(configs: seq<FileConfig>)
    requires |configs| == 3
    requires configs[0] == ClassRules.FileConfig(0, configs[0].fileName, configs[0].config, Some(1440), None)
    requires configs[1] == ClassRules.FileConfig(1, configs[1].fileName, configs[1].config, None, None)
    requires configs[2] == ClassRules.FileConfig(2, configs[2].fileName, configs[2].config, None, Some(767))
    ensures AutoRange(configs, 1) == Between(768, 1439)
  {
    var others := Neighbours(configs, 1);
    assert configs == [configs[0], configs[1], configs[2]];
    assert configs[0] in others && configs[2] in others;
    assert forall o :: o in others ==> o == configs[0] || o == configs[2];
    var lows := LowerBounds(others);
    var ups := UpperBounds(others);
    assert 767 in lows && 1440 in ups;
    forall x | x in lows
      ensures x == 767
    {
      LowerBoundFrom(others, x);
    }
    forall x | x in ups
      ensures x == 1440
    {
      UpperBoundFrom(others, x);
    }
  }

  // ---------------------------------------------------------------------
  // Download

  /** The extension each download type is saved with. */
  function Extension(mime: string): string {
    if mime == "text/css" then ".css"
    else if mime == "application/json" then ".json"
    else ".txt"
  }

  /** The file name and type of the download, from the kind of work and,
      for token output, its format. */
  function DownloadTarget(taskType: string, tokenOutputFormat: string): (r: (string, string))
    ensures r.1 in ["text/css", "application/json", "text/plain"]
    ensures EndsWith(r.0, Extension(r.1))
    ensures r.1 == "application/json" <==> taskType == "jsonToToken" && tokenOutputFormat != "cssVars"
    ensures r.1 == "text/plain" <==> taskType !in ["jsonToCss", "jsonToToken", "tokenToToken"]
  {
    if taskType == "jsonToCss" then ("generated-styles.css", "text/css")
    else if taskType == "jsonToToken" then
      if tokenOutputFormat == "cssVars" then ("token-variables.css", "text/css")
      else ("tokens.json", "application/json")
    else if taskType == "tokenToToken" then ("token-references.css", "text/css")
    else ("generated-output.txt", "text/plain")
  }
}

=== FILE: generators.dfy ===
/** The text generators over an extracted token list:
    `generateCssFromTokens`, `generateJsonTokensAsCssVariables` (its
    `cssVars` and `plainJson` outputs) and `generateTokenToToken`.

    Each generator formats every token's value with `formatNumberValue`,
    which throws for some values (see `NumberFormat.FormatNumberValue`); a
    generator then throws as well, and its result is `None` here. */
module Generators {
  import opened Strings
  import opened Wrappers
  import opened Json
  import OrderedMaps
  import Naming
  import NumberFormat
  import opened Tokens
  import References

  /** `parseFloat(t).toFixed(decimals)` for the configured `decimals`. */
  type Fix = string -> NumberFormat.FixedText

  // ---------------------------------------------------------------------
  // Value selection

  /** The code-syntax branch is taken: asked for, and the token carries
      code-syntax values. */
  predicate UsesCodeSyntax(r: TokenRecord, useCodeSyntax: bool) {
    useCodeSyntax && r.hasCodeSyntax && TruthyOpt(r.codeSyntaxValues)
  }

  /** The value a token is written with. With code syntax in use, a truthy
      `web` entry wins, then a truthy first entry; otherwise the token's own
      `$value` stays. */
  function SelectValue(r: TokenRecord, useCodeSyntax: bool): (v: Json)
    ensures !UsesCodeSyntax(r, useCodeSyntax) ==> v == r.value
    ensures v != r.value ==>
      UsesCodeSyntax(r, useCodeSyntax) && Truthy(v) && v in ObjectValues(r.codeSyntaxValues.value)
    ensures UsesCodeSyntax(r, useCodeSyntax) && TruthyOpt(Get(r.codeSyntaxValues.value, "web")) ==>
      v == Get(r.codeSyntaxValues.value, "web").value
    ensures UsesCodeSyntax(r, useCodeSyntax) && !TruthyOpt(Get(r.codeSyntaxValues.value, "web")) ==>
      var values := ObjectValues(r.codeSyntaxValues.value);
      v == if |values| > 0 && Truthy(values[0]) then values[0] else r.value
  {
    if !UsesCodeSyntax(r, useCodeSyntax) then r.value
    else
      var cs := r.codeSyntaxValues.value;
      var web := Get(cs, "web");
      if TruthyOpt(web) then
        GetInValues(cs, "web");
        web.value
      else
        var values := ObjectValues(cs);
        if |values| > 0 && Truthy(values[0]) then values[0] else r.value
  }

  lemma {:induction false} GetInValues(j: Json, k: string)
    requires Get(j, k).Some?
    ensures Get(j, k).value in ObjectValues(j)
  {
    var i :| 0 <= i < |j.fields| && j.fields[i] == (k, Get(j, k).value);
    assert ObjectValues(j)[i] == j.fields[i].1;
  }

  // ---------------------------------------------------------------------
  // The `:root` block

  /** One custom-property declaration. */
  datatype Decl = Decl(name: string, value: string)

  /** The line `  name: value;` a declaration is written as. */
  function Line(d: Decl): string {
    "  " + d.name + ": " + d.value + ";\n"
  }

  /** The lines of a declaration list, in list order. */
  function Lines(ds: seq<Decl>): string
    decreases |ds|
  {
    if |ds| == 0 then "" else Lines(ds[..|ds| - 1]) + Line(ds[|ds| - 1])
  }

  /** The whole generated text for a declaration list. */
  function RootBlock(ds: seq<Decl>): string {
    ":root {\n" + Lines(ds) + "}\n"
  }

  /** The lines of a concatenation are the lines of each part. */
  lemma {:induction false} LinesConcat(a: seq<Decl>, b: seq<Decl>)
    ensures Lines(a + b) == Lines(a) + Lines(b)
    decreases |b|
  {
    if |b| == 0 {
      assert a + b == a;
    } else {
      DropLastConcat(a, b);
      LinesConcat(a, b[..|b| - 1]);
    }
  }

  /** The last element of a concatenation with a non-empty second part
      comes from that part. */
  lemma {:induction false} DropLastConcat<T>(a: seq<T>, b: seq<T>)
    requires |b| > 0
    ensures (a + b)[..|a + b| - 1] == a + b[..|b| - 1] && (a + b)[|a + b| - 1] == b[|b| - 1]
  {
  }

  /** Each declaration is one line of the block, after exactly the lines of
      the declarations before it and before exactly those after it. */
  lemma {:induction false} LineAt(ds: seq<Decl>, k: nat)
    requires k < |ds|
    ensures RootBlock(ds) == ":root {\n" + Lines(ds[..k]) + Line(ds[k]) + Lines(ds[k + 1..]) + "}\n"
  {
    assert ds == ds[..k] + [ds[k]] + ds[k + 1..];
    LinesConcat(ds[..k] + [ds[k]], ds[k + 1..]);
    LinesConcat(ds[..k], [ds[k]]);
    assert [ds[k]][..0] == [];
  }

  /** A name with its value, or `None` where formatting the value throws. */
  type Pending = (string, Option<string>)

  predicate AllFormatted(ps: seq<Pending>) {
    forall k :: 0 <= k < |ps| ==> ps[k].1.Some?
  }

  function Formatted(ps: seq<Pending>): (ds: seq<Decl>)
    requires AllFormatted(ps)
    ensures |ds| == |ps|
    ensures forall k :: 0 <= k < |ps| ==> ds[k] == Decl(ps[k].0, ps[k].1.value)
  {
    seq(|ps|, k requires 0 <= k < |ps| => Decl(ps[k].0, ps[k].1.value))
  }

  /** The `forEach` all three generators run: start with `:root {`, append
      one line per token, stop at the first value that throws, close with
      `}`. */
  method WriteRoot(ps: seq<Pending>) returns (r: Option<string>)
    ensures r.Some? <==> AllFormatted(ps)
    ensures r.Some? ==> r.value == RootBlock(Formatted(ps))
  {
    var css := ":root {\n";
    var i := 0;
    while i < |ps|
      invariant i <= |ps|
      invariant AllFormatted(ps[..i])
      invariant css == ":root {\n" + Lines(Formatted(ps[..i]))
    {
      if ps[i].1.None? {
        assert !AllFormatted(ps) by {
          assert !ps[i].1.Some?;
        }
        return None;
      }
      var d := Decl(ps[i].0, ps[i].1.value);
      assert ps[..i + 1] == ps[..i] + [ps[i]];
      assert AllFormatted(ps[..i + 1]);
      ghost var ds := Formatted(ps[..i + 1]);
      assert ds[..i] == Formatted(ps[..i]);
      assert ds[i] == d;
      css := css + Line(d);
      i := i + 1;
    }
    assert ps[..i] == ps;
    r := Some(css + "}\n");
  }

  // ---------------------------------------------------------------------
  // generateCssFromTokens

  /** What one token contributes: its `transformToCssVariableName` name and
      its selected, formatted value. */
  function CssEntry(p: TokenRecord, no: Naming.NameOptions, useCodeSyntax: bool, fix: Fix): Pending {
    (Naming.TransformToCssVariableName(p.path, no),
     NumberFormat.FormatNumberValue(SelectValue(p, useCodeSyntax), fix))
  }

  function CssEntries(props: seq<TokenRecord>, no: Naming.NameOptions, useCodeSyntax: bool, fix: Fix): seq<Pending> {
    seq(|props|, k requires 0 <= k < |props| => CssEntry(props[k], no, useCodeSyntax, fix))
  }

  /** `generateCssFromTokens(properties, options)`: one declaration line per
      token, in input order, named by the naming options. */
  method GenerateCssFromTokens(props: seq<TokenRecord>, no: Naming.NameOptions, useCodeSyntax: bool, fix: Fix)
    returns (r: Option<string>)
    ensures r.Some? <==>
      forall k :: 0 <= k < |props| ==> NumberFormat.FormatNumberValue(SelectValue(props[k], useCodeSyntax), fix).Some?
    ensures r.Some? ==> r.value == RootBlock(Formatted(CssEntries(props, no, useCodeSyntax, fix)))
  {
    var ps := CssEntries(props, no, useCodeSyntax, fix);
    assert forall k :: 0 <= k < |ps| ==> ps[k].1 == NumberFormat.FormatNumberValue(SelectValue(props[k], useCodeSyntax), fix);
    r := WriteRoot(ps);
  }

  // ---------------------------------------------------------------------
  // generateJsonTokensAsCssVariables

  /** The options after defaults; `outputFormat` is `cssVars` when absent
      and any other text selects the plain JSON tree. */
  datatype JsonOptions = JsonOptions(
    separator: string,
    lowercase: bool,
    customFormat: seq<string>,
    useCodeSyntax: bool,
    outputFormat: string,
    prefix: string)

  /** Names in `cssVars` mode pass only separator, case, custom format and
      prefix on: no `usePrefix`, no depth. */
  function VarsNameOptions(o: JsonOptions): Naming.NameOptions {
    Naming.NameOptions(o.separator, o.lowercase, o.customFormat, o.prefix, false, 99)
  }

  /** Without a custom format, a `cssVars` name is `--` and the whole path,
      whatever prefix is configured. */
  lemma {:induction false} VarsNameIsFullPath(path: seq<string>, o: JsonOptions)
    requires |o.customFormat| == 0
    ensures Naming.TransformTokenName(path, VarsNameOptions(o)) == "--" + Naming.Case(Join(path, o.separator), o.lowercase)
  {
    var r := Naming.TransformTokenName(path, VarsNameOptions(o));
    assert r == r[..2] + r[2..];
  }

  function VarsEntry(p: TokenRecord, o: JsonOptions, fix: Fix): Pending {
    (Naming.TransformTokenName(p.path, VarsNameOptions(o)),
     NumberFormat.FormatNumberValue(SelectValue(p, o.useCodeSyntax), fix))
  }

  function VarsEntries(props: seq<TokenRecord>, o: JsonOptions, fix: Fix): seq<Pending> {
    seq(|props|, k requires 0 <= k < |props| => VarsEntry(props[k], o, fix))
  }

  /** The two outputs: CSS text, or the token tree before `JSON.stringify`. */
  datatype JsonOutput = CssText(text: string) | Tree(tree: Json)

  /** `generateJsonTokensAsCssVariables(properties, options)`. */
  method GenerateJsonTokensAsCssVariables(props: seq<TokenRecord>, o: JsonOptions, fix: Fix)
    returns (r: Option<JsonOutput>)
    ensures o.outputFormat == "cssVars" ==>
      && (r.Some? <==> forall k :: 0 <= k < |props| ==> PlainValue(props[k], o, fix).Some?)
      && (r.Some? ==> r.value == CssText(RootBlock(Formatted(VarsEntries(props, o, fix)))))
    ensures o.outputFormat != "cssVars" && r.Some? ==>
      && r.value.Tree? && r.value.tree.JObj?
      && (forall k :: 0 <= k < |props| ==> PlainValue(props[k], o, fix).Some? && |props[k].path| > 0)
      && (forall k :: 0 <= k < |props| && Survives(props, o.lowercase, k, |props|) ==>
            Stored(r.value.tree, props, o, fix, k))
    ensures o.outputFormat != "cssVars" && ValuesUpTo(props, o, fix, |props|) && PrefixFree(props, o.lowercase) ==> r.Some?
  {
    if o.outputFormat == "cssVars" {
      var ps := VarsEntries(props, o, fix);
      assert forall k :: 0 <= k < |ps| ==> ps[k].1 == PlainValue(props[k], o, fix);
      var css := WriteRoot(ps);
      r := if css.Some? then Some(CssText(css.value)) else None;
    } else {
      var tree := GeneratePlainJson(props, o, fix);
      r := if tree.Some? then Some(Tree(tree.value)) else None;
    }
  }

  // ---------------------------------------------------------------------
  // The plainJson tree

  /** `setNestedValue(obj, pathParts, value)` on the fields of an object.
      `None` is the exception the call raises: an empty path recurses until
      the stack overflows, and a path that runs through a non-empty string
      ends in a property write on a primitive, a `TypeError` in module code.
      Only objects and strings occur in the tree, so every non-object met on
      the way is such a string. */
  function SetNested(fields: OrderedMaps.OMap<Json>, parts: seq<string>, value: Json): (r: Option<OrderedMaps.OMap<Json>>)
    ensures r.Some? ==> |parts| > 0
    ensures |parts| >= 2 && TruthyOpt(OrderedMaps.Get(fields, parts[0])) && !OrderedMaps.Get(fields, parts[0]).value.JObj? ==> r.None?
    decreases |parts|
  {
    if |parts| == 0 then None
    else if |parts| == 1 then Some(OrderedMaps.Put(fields, parts[0], value))
    else
      var current := OrderedMaps.Get(fields, parts[0]);
      var next := if TruthyOpt(current) then current.value else JObj([]);
      if !next.JObj? then None
      else
        match SetNested(next.fields, parts[1..], value)
        case None => None
        case Some(sub) => Some(OrderedMaps.Put(fields, parts[0], JObj(sub)))
  }

  /** After a successful write the value reads back at its path. */
  lemma {:induction false} SetNestedReads(fields: OrderedMaps.OMap<Json>, parts: seq<string>, value: Json)
    requires SetNested(fields, parts, value).Some?
    ensures Navigate(JObj(SetNested(fields, parts, value).value), parts) == Some(value)
    decreases |parts|
  {
    var r := SetNested(fields, parts, value).value;
    if |parts| == 1 {
      assert Child(JObj(r), parts[0]) == Some(value);
      assert parts[1..] == [];
    } else {
      var current := OrderedMaps.Get(fields, parts[0]);
      var next := if TruthyOpt(current) then current.value else JObj([]);
      var sub := SetNested(next.fields, parts[1..], value).value;
      SetNestedReads(next.fields, parts[1..], value);
      assert Child(JObj(r), parts[0]) == Some(JObj(sub));
    }
  }

  predicate IsPathPrefix(p: seq<string>, q: seq<string>) {
    |p| <= |q| && q[..|p|] == p
  }

  /** A write leaves every non-empty string leaf where it was, unless its
      own path leads to (or through) that leaf. */
  lemma {:induction false} SetNestedKeeps(fields: OrderedMaps.OMap<Json>, parts: seq<string>, value: Json, q: seq<string>, s: string)
    requires SetNested(fields, parts, value).Some?
    requires !IsPathPrefix(parts, q)
    requires Navigate(JObj(fields), q) == Some(JStr(s)) && |s| > 0
    ensures Navigate(JObj(SetNested(fields, parts, value).value), q) == Some(JStr(s))
    decreases |parts|
  {
    var r := SetNested(fields, parts, value).value;
    assert |q| > 0;
    var c := OrderedMaps.Get(fields, q[0]).value;
    assert Navigate(c, q[1..]) == Some(JStr(s));
    if q[0] != parts[0] {
      assert OrderedMaps.Get(r, q[0]) == OrderedMaps.Get(fields, q[0]);
    } else {
      assert |parts| >= 2 && |q| >= 2;
      assert c.JObj?;
      var sub := SetNested(c.fields, parts[1..], value).value;
      assert !IsPathPrefix(parts[1..], q[1..]);
      SetNestedKeeps(c.fields, parts[1..], value, q[1..], s);
      assert Child(JObj(r), q[0]) == Some(JObj(sub));
    }
  }

  /** The path a token is stored under: its segments, lower-cased when
      asked. */
  function PlainPath(p: TokenRecord, lowercase: bool): (q: seq<string>)
    ensures |q| == |p.path|
  {
    if lowercase then Map(p.path, Lower) else p.path
  }

  function PlainValue(p: TokenRecord, o: JsonOptions, fix: Fix): Option<string> {
    NumberFormat.FormatNumberValue(SelectValue(p, o.useCodeSyntax), fix)
  }

  /** No token after the k-th one (up to `upTo`) is stored at the k-th
      token's path or at one of its ancestors. */
  predicate Survives(props: seq<TokenRecord>, lowercase: bool, k: nat, upTo: nat)
    requires k < upTo <= |props|
  {
    forall j :: k < j < upTo ==> !IsPathPrefix(PlainPath(props[j], lowercase), PlainPath(props[k], lowercase))
  }

  /** The k-th token's non-empty value is readable at its path. */
  predicate Stored(tree: Json, props: seq<TokenRecord>, o: JsonOptions, fix: Fix, k: nat)
    requires k < |props|
  {
    var v := PlainValue(props[k], o, fix);
    v.Some? && |v.value| > 0 ==> Navigate(tree, PlainPath(props[k], o.lowercase)) == Some(JStr(v.value))
  }

  /** The `plainJson` branch: every token is written into one tree by
      `setNestedValue`. On success each token's value can be read back at
      its path, unless a later token was written at that path or above it. */
  method GeneratePlainJson(props: seq<TokenRecord>, o: JsonOptions, fix: Fix) returns (r: Option<Json>)
    ensures r.Some? ==> r.value.JObj?
    ensures r.Some? ==> forall k :: 0 <= k < |props| ==> PlainValue(props[k], o, fix).Some? && |props[k].path| > 0
    ensures r.Some? ==> forall k :: 0 <= k < |props| && Survives(props, o.lowercase, k, |props|) ==>
      Stored(r.value, props, o, fix, k)
    ensures ValuesUpTo(props, o, fix, |props|) && PrefixFree(props, o.lowercase) ==> r.Some?
  {
    var fields: OrderedMaps.OMap<Json> := [];
    var i := 0;
    while i < |props|
      invariant i <= |props| && WrittenUpTo(props, o, fix, i, fields)
      invariant LeavesUpTo(props, o.lowercase, i, fields)
      invariant ValuesUpTo(props, o, fix, |props|) && PrefixFree(props, o.lowercase) ==> WritesFrom(props, o, fix, i)
    {
      var value := PlainValue(props[i], o, fix);
      if value.None? {
        return None;
      }
      var parts := PlainPath(props[i], o.lowercase);
      var next := SetNested(fields, parts, JStr(value.value));
      if next.None? {
        WriteFails(props, o, fix, i, fields);
        return None;
      }
      WriteKeepsStored(props, o, fix, i, fields, value.value, next.value);
      LeavesStep(props, o.lowercase, i, fields, value.value, next.value);
      fields := next.value;
      i := i + 1;
    }
    r := Some(JObj(fields));
  }

  /** The first `i` tokens have a value and a path, and each is stored in
      the tree unless a later one of them covers it. */
  predicate WrittenUpTo(props: seq<TokenRecord>, o: JsonOptions, fix: Fix, i: nat, fields: OrderedMaps.OMap<Json>)
    requires i <= |props|
  {
    ValuesUpTo(props, o, fix, i) && StoredUpTo(props, o, fix, i, fields)
  }

  predicate ValuesUpTo(props: seq<TokenRecord>, o: JsonOptions, fix: Fix, i: nat)
    requires i <= |props|
  {
    forall k :: 0 <= k < i ==> PlainValue(props[k], o, fix).Some? && |props[k].path| > 0
  }

  predicate StoredUpTo(props: seq<TokenRecord>, o: JsonOptions, fix: Fix, i: nat, fields: OrderedMaps.OMap<Json>)
    requires i <= |props|
  {
    forall k :: 0 <= k < i && Survives(props, o.lowercase, k, i) ==> Stored(JObj(fields), props, o, fix, k)
  }

  /** One more token with a value and a path. */
  lemma {:induction false} ValuesStep(props: seq<TokenRecord>, o: JsonOptions, fix: Fix, i: nat)
    requires i < |props| && ValuesUpTo(props, o, fix, i)
    requires PlainValue(props[i], o, fix).Some? && |props[i].path| > 0
    ensures ValuesUpTo(props, o, fix, i + 1)
  {
  }

  /** Writing the i-th token stores it and keeps every earlier token no
      later write covers. */
  lemma {:induction false} WriteKeepsStored(
    props: seq<TokenRecord>, o: JsonOptions, fix: Fix, i: nat, fields: OrderedMaps.OMap<Json>, value: string,
    next: OrderedMaps.OMap<Json>)
    requires i < |props| && PlainValue(props[i], o, fix) == Some(value)
    requires SetNested(fields, PlainPath(props[i], o.lowercase), JStr(value)) == Some(next)
    requires WrittenUpTo(props, o, fix, i, fields)
    ensures WrittenUpTo(props, o, fix, i + 1, next)
  {
    assert |props[i].path| > 0;
    ValuesStep(props, o, fix, i);
    StoredStep(props, o, fix, i, fields, value, next);
  }

  lemma {:induction false} StoredStep(
    props: seq<TokenRecord>, o: JsonOptions, fix: Fix, i: nat, fields: OrderedMaps.OMap<Json>, value: string,
    next: OrderedMaps.OMap<Json>)
    requires i < |props| && PlainValue(props[i], o, fix) == Some(value)
    requires SetNested(fields, PlainPath(props[i], o.lowercase), JStr(value)) == Some(next)
    requires StoredUpTo(props, o, fix, i, fields)
    ensures StoredUpTo(props, o, fix, i + 1, next)
  {
    forall k | 0 <= k < i + 1 && Survives(props, o.lowercase, k, i + 1)
      ensures Stored(JObj(next), props, o, fix, k)
    {
      if k < i {
        assert Survives(props, o.lowercase, k, i);
        assert Stored(JObj(fields), props, o, fix, k);
      }
      StoredAfterWrite(props, o, fix, i, fields, value, next, k);
    }
  }

  /** One token after the write of the i-th: the i-th itself, or an earlier
      one that was stored and that the write does not cover. */
  lemma {:induction false} StoredAfterWrite(
    props: seq<TokenRecord>, o: JsonOptions, fix: Fix, i: nat, fields: OrderedMaps.OMap<Json>, value: string,
    next: OrderedMaps.OMap<Json>, k: nat)
    requires k <= i < |props| && PlainValue(props[i], o, fix) == Some(value)
    requires SetNested(fields, PlainPath(props[i], o.lowercase), JStr(value)) == Some(next)
    requires Survives(props, o.lowercase, k, i + 1)
    requires k < i ==> Stored(JObj(fields), props, o, fix, k)
    ensures Stored(JObj(next), props, o, fix, k)
  {
    var parts := PlainPath(props[i], o.lowercase);
    if k == i {
      SetNestedReads(fields, parts, JStr(value));
    } else {
      assert !IsPathPrefix(parts, PlainPath(props[k], o.lowercase));
      var v := PlainValue(props[k], o, fix);
      if v.Some? && |v.value| > 0 {
        SetNestedKeeps(fields, parts, JStr(value), PlainPath(props[k], o.lowercase), v.value);
      }
    }
  }

  // ---------------------------------------------------------------------
  // When the tree is built

  /** No token's path is a proper prefix of a later token's path, so no
      write has to pass through a string stored before it. */
  predicate PrefixFree(props: seq<TokenRecord>, lowercase: bool) {
    forall a, b :: 0 <= a < b < |props| && |props[a].path| < |props[b].path| ==>
      !IsPathPrefix(PlainPath(props[a], lowercase), PlainPath(props[b], lowercase))
  }

  /** Every token from the i-th on has a value and a path: what the loop
      still needs to succeed. */
  predicate WritesFrom(props: seq<TokenRecord>, o: JsonOptions, fix: Fix, i: nat)
    requires i <= |props|
  {
    forall k :: i <= k < |props| ==> PlainValue(props[k], o, fix).Some? && |props[k].path| > 0
  }

  /** Something other than an object sits at path `q` of the tree. */
  predicate LeafAt(tree: Json, q: seq<string>) {
    Navigate(tree, q).Some? && !Navigate(tree, q).value.JObj?
  }

  /** Every non-object in the tree sits at the path of one of the first `i`
      tokens. */
  ghost predicate LeavesUpTo(props: seq<TokenRecord>, lowercase: bool, i: nat, fields: OrderedMaps.OMap<Json>)
    requires i <= |props|
  {
    forall q :: LeafAt(JObj(fields), q) ==> exists k :: 0 <= k < i && PlainPath(props[k], lowercase) == q
  }

  /** A write adds one leaf, at its own path, and no other. */
  lemma {:induction false} SetNestedLeaves(fields: OrderedMaps.OMap<Json>, parts: seq<string>, value: string, q: seq<string>)
    requires SetNested(fields, parts, JStr(value)).Some?
    requires LeafAt(JObj(SetNested(fields, parts, JStr(value)).value), q)
    ensures q == parts || LeafAt(JObj(fields), q)
    decreases |parts|
  {
    var r := SetNested(fields, parts, JStr(value)).value;
    assert |q| > 0;
    var c := OrderedMaps.Get(r, q[0]).value;
    assert Navigate(JObj(r), q) == Navigate(c, q[1..]);
    if q[0] != parts[0] {
      assert OrderedMaps.Get(r, q[0]) == OrderedMaps.Get(fields, q[0]);
    } else if |parts| == 1 {
      assert c == JStr(value);
      assert |q[1..]| == 0;
      SameHeadTail(q, parts);
    } else {
      var current := OrderedMaps.Get(fields, parts[0]);
      var next := if TruthyOpt(current) then current.value else JObj([]);
      var sub := SetNested(next.fields, parts[1..], JStr(value)).value;
      assert c == JObj(sub);
      SetNestedLeaves(next.fields, parts[1..], value, q[1..]);
      if q[1..] == parts[1..] {
        SameHeadTail(q, parts);
      } else if TruthyOpt(current) {
        assert Navigate(JObj(fields), q) == Navigate(next, q[1..]);
      }
    }
  }

  lemma {:induction false} SameHeadTail<T>(q: seq<T>, p: seq<T>)
    requires |q| > 0 && |p| > 0 && q[0] == p[0] && q[1..] == p[1..]
    ensures q == p
  {
    assert q == [q[0]] + q[1..] && p == [p[0]] + p[1..];
  }

  /** A write succeeds when nothing but objects lies on the way to its
      path. */
  lemma {:induction false} SetNestedSucceeds(fields: OrderedMaps.OMap<Json>, parts: seq<string>, value: Json)
    requires |parts| > 0
    requires forall m :: 0 < m < |parts| ==> !LeafAt(JObj(fields), parts[..m])
    ensures SetNested(fields, parts, value).Some?
    decreases |parts|
  {
    if |parts| >= 2 {
      var current := OrderedMaps.Get(fields, parts[0]);
      var next := if TruthyOpt(current) then current.value else JObj([]);
      assert parts[..1] == [parts[0]];
      assert Navigate(JObj(fields), parts[..1]) == current;
      assert next.JObj?;
      forall m | 0 < m < |parts| - 1
        ensures !LeafAt(next, parts[1..][..m])
      {
        assert parts[..m + 1][1..] == parts[1..][..m];
        assert parts[..m + 1][0] == parts[0];
      }
      SetNestedSucceeds(next.fields, parts[1..], value);
    }
  }

  /** The tree so far has leaves only at earlier tokens' paths, so with
      prefix-free paths the next write succeeds. */
  lemma {:induction false} WriteSucceeds(props: seq<TokenRecord>, lowercase: bool, i: nat, fields: OrderedMaps.OMap<Json>, value: Json)
    requires i < |props| && |props[i].path| > 0
    requires LeavesUpTo(props, lowercase, i, fields) && PrefixFree(props, lowercase)
    ensures SetNested(fields, PlainPath(props[i], lowercase), value).Some?
  {
    var parts := PlainPath(props[i], lowercase);
    forall m | 0 < m < |parts|
      ensures !LeafAt(JObj(fields), parts[..m])
    {
      assert IsPathPrefix(parts[..m], parts);
    }
    SetNestedSucceeds(fields, parts, value);
  }

  /** A failed write means a token lacks a value or a path, or the paths
      are not prefix-free. */
  lemma {:induction false} WriteFails(props: seq<TokenRecord>, o: JsonOptions, fix: Fix, i: nat, fields: OrderedMaps.OMap<Json>)
    requires i < |props| && PlainValue(props[i], o, fix).Some?
    requires LeavesUpTo(props, o.lowercase, i, fields)
    requires SetNested(fields, PlainPath(props[i], o.lowercase), JStr(PlainValue(props[i], o, fix).value)).None?
    ensures !(ValuesUpTo(props, o, fix, |props|) && PrefixFree(props, o.lowercase))
  {
    if |props[i].path| > 0 && PrefixFree(props, o.lowercase) {
      WriteSucceeds(props, o.lowercase, i, fields, JStr(PlainValue(props[i], o, fix).value));
    }
  }

  /** After the i-th write, the leaves are at the first `i + 1` paths. */
  lemma {:induction false} LeavesStep(
    props: seq<TokenRecord>, lowercase: bool, i: nat, fields: OrderedMaps.OMap<Json>, value: string,
    next: OrderedMaps.OMap<Json>)
    requires i < |props| && LeavesUpTo(props, lowercase, i, fields)
    requires SetNested(fields, PlainPath(props[i], lowercase), JStr(value)) == Some(next)
    ensures LeavesUpTo(props, lowercase, i + 1, next)
  {
    forall q | LeafAt(JObj(next), q)
      ensures exists k :: 0 <= k < i + 1 && PlainPath(props[k], lowercase) == q
    {
      SetNestedLeaves(fields, PlainPath(props[i], lowercase), value, q);
    }
  }

  // ---------------------------------------------------------------------
  // generateTokenToToken

  /** The options after defaults: an absent target or source prefix is
      `--`, an absent flag false, an absent depth 99. */
  datatype TokenOptions = TokenOptions(
    separator: string,
    pathSeparator: string,
    spaceSeparator: string,
    lowercase: bool,
    useCodeSyntax: bool,
    targetPrefix: string,
    useTargetPrefix: bool,
    sourcePrefix: string,
    useSourcePrefix: bool,
    depth: int)

  /** Target names are built with the path separator and no custom format. */
  function TargetNameOptions(o: TokenOptions): Naming.NameOptions {
    Naming.NameOptions(o.pathSeparator, o.lowercase, [], o.targetPrefix, o.useTargetPrefix, o.depth)
  }

  function SourceRefOptions(o: TokenOptions): References.RefOptions {
    References.RefOptions(o.separator, o.pathSeparator, o.spaceSeparator, o.lowercase, o.sourcePrefix, o.useSourcePrefix)
  }

  /** The value a token is written with: a string holding a `{...}` alias
      becomes the `var()` of that alias, any other string is kept verbatim,
      and only non-strings go through code syntax and number formatting. */
  function TokenValue(p: TokenRecord, o: TokenOptions, fix: Fix): (r: Option<string>)
    ensures p.value.JStr? ==> r.Some?
    ensures p.value.JStr? && References.ExtractTokenReference(p.value).None? ==> r == Some(p.value.s)
    ensures References.ExtractTokenReference(p.value).Some? ==>
      r == Some(References.TransformTokenReference(References.ExtractTokenReference(p.value).value, SourceRefOptions(o)))
    ensures !p.value.JStr? ==> r == NumberFormat.FormatNumberValue(SelectValue(p, o.useCodeSyntax), fix)
  {
    if p.value.JStr? then
      match References.ExtractTokenReference(p.value)
      case Some(reference) => Some(References.TransformTokenReference(reference, SourceRefOptions(o)))
      case None => Some(p.value.s)
    else
      NumberFormat.FormatNumberValue(SelectValue(p, o.useCodeSyntax), fix)
  }

  function TokenEntry(p: TokenRecord, o: TokenOptions, fix: Fix): Pending {
    (Naming.TransformTokenName(p.path, TargetNameOptions(o)), TokenValue(p, o, fix))
  }

  function TokenEntries(props: seq<TokenRecord>, o: TokenOptions, fix: Fix): seq<Pending> {
    seq(|props|, k requires 0 <= k < |props| => TokenEntry(props[k], o, fix))
  }

  /** `generateTokenToToken(properties, options)`: one declaration per
      token; it can only throw on a non-string value. */
  method GenerateTokenToToken(props: seq<TokenRecord>, o: TokenOptions, fix: Fix) returns (r: Option<string>)
    ensures r.Some? <==> forall k :: 0 <= k < |props| && !props[k].value.JStr? ==>
      NumberFormat.FormatNumberValue(SelectValue(props[k], o.useCodeSyntax), fix).Some?
    ensures r.Some? ==> r.value == RootBlock(Formatted(TokenEntries(props, o, fix)))
  {
    var ps := TokenEntries(props, o, fix);
    assert forall k :: 0 <= k < |ps| ==> ps[k].1 == TokenValue(props[k], o, fix);
    r := WriteRoot(ps);
  }

  /** An alias to a token's full path is written as the `var()` of the very
      name that token is declared under, when both names are built alike:
      the whole path, the same prefix decision, and segments with no `.`,
      `}` or white space. */
  lemma {:induction false} AliasResolvesToDeclaration(target: TokenRecord, alias: TokenRecord, o: TokenOptions, fix: Fix)
    requires |target.path| >= 1 && |target.path[0]| > 0
    requires forall k :: 0 <= k < |target.path| ==>
      '.' !in target.path[k] && '}' !in target.path[k] && NoSpace(target.path[k])
    requires alias.value == JStr("{" + Join(target.path, ".") + "}")
    requires o.depth >= 99
    requires o.lowercase ==> NoUpper(o.pathSeparator)
    requires References.SourcePrefixApplies(SourceRefOptions(o)) <==> Naming.PrefixApplies(TargetNameOptions(o))
    requires References.SourcePrefixApplies(SourceRefOptions(o)) ==>
      o.sourcePrefix == o.targetPrefix && o.separator == o.pathSeparator
    ensures TokenValue(alias, o, fix) == Some("var(" + TokenEntry(target, o, fix).0 + ")")
  {
    AliasOfFullPath(target.path);
    References.ReferenceMatchesDeclaration(target.path, SourceRefOptions(o), TargetNameOptions(o));
    ComposeAlias(target, alias, o, fix);
  }

  lemma {:induction false} AliasOfFullPath(path: seq<string>)
    requires |path| >= 1 && |path[0]| > 0
    requires forall k :: 0 <= k < |path| ==> '}' !in path[k]
    ensures References.ExtractTokenReference(JStr("{" + Join(path, ".") + "}")) == Some(Join(path, "."))
  {
    var ref := Join(path, ".");
    References.JoinNoChar(path, ".", '}');
    References.JoinStartsWithFirst(path, ".");
    WholeAlias(ref);
  }

  /** A value that is exactly one alias refers to its inside. */
  lemma {:induction false} WholeAlias(ref: string)
    requires |ref| > 0 && '}' !in ref
    ensures References.ExtractTokenReference(JStr("{" + ref + "}")) == Some(ref)
  {
    assert "" + "{" + ref + "}" + "" == "{" + ref + "}";
    References.AliasRoundTrip("", ref, "");
  }

  lemma {:induction false} ComposeAlias(target: TokenRecord, alias: TokenRecord, o: TokenOptions, fix: Fix)
    requires alias.value == JStr("{" + Join(target.path, ".") + "}")
    requires References.ExtractTokenReference(alias.value) == Some(Join(target.path, "."))
    requires References.TransformTokenReference(Join(target.path, "."), SourceRefOptions(o))
      == "var(" + Naming.TransformTokenName(target.path, TargetNameOptions(o)) + ")"
    ensures TokenValue(alias, o, fix) == Some("var(" + TokenEntry(target, o, fix).0 + ")")
  {
  }
}

=== FILE: json.dfy ===
/** The JSON values a design-token document parses to, with the JavaScript
    coercions the converter applies to them: truthiness, property access,
    `Object.keys`/`Object.values`, and `String(v)`. */
module Json {
  import opened Strings
  import opened Wrappers
  import OrderedMaps

  /** A parsed JSON value. An object keeps its keys in their enumeration
      order; a number is carried as its `String(n)` rendering, since float
      arithmetic is not modelled. */
  datatype Json =
    | JNull
    | JBool(b: bool)
    | JNum(text: string)
    | JStr(s: string)
    | JArr(items: seq<Json>)
    | JObj(fields: seq<(string, Json)>)

  /** JavaScript `ToBoolean`: `null`, `false`, `0`, `NaN` and `""` are falsy,
      every object and array is truthy. */
  predicate Truthy(j: Json) {
    match j
    case JNull => false
    case JBool(b) => b
    case JNum(t) => t != "0" && t != "NaN"
    case JStr(s) => |s| > 0
    case JArr(_) => true
    case JObj(_) => true
  }

  /** Truthiness of a property read, where `undefined` is falsy. */
  predicate TruthyOpt(o: Option<Json>) {
    o.Some? && Truthy(o.value)
  }

  /** `typeof v === 'object' && v !== null`. */
  predicate IsObjectLike(j: Json) {
    j.JObj? || j.JArr?
  }

  /** Property read `v[k]` for a name that is neither an array index nor a
      built-in property of strings or arrays (`$type`, `$value`, `web`, ...):
      only objects answer it. */
  function Get(j: Json, k: string): (r: Option<Json>)
    ensures r.Some? ==> j.JObj?
  {
    if j.JObj? then OrderedMaps.Get(j.fields, k) else None
  }

  /** Number of own enumerable keys of an object or array. */
  function EntryCount(j: Json): nat {
    match j
    case JObj(fs) => |fs|
    case JArr(xs) => |xs|
    case _ => 0
  }

  /** The i-th key `Object.keys` lists: field names for objects, `"0"`,
      `"1"`, ... for arrays. */
  function EntryKey(j: Json, i: nat): string
    requires i < EntryCount(j)
  {
    if j.JObj? then j.fields[i].0 else NatToString(i)
  }

  function EntryValue(j: Json, i: nat): (v: Json)
    requires i < EntryCount(j)
    ensures v < j
  {
    if j.JObj? then j.fields[i].1 else j.items[i]
  }

  /** `Object.values(v)` for any value: a string lists its characters,
      primitives list nothing. */
  function ObjectValues(j: Json): seq<Json> {
    match j
    case JObj(fs) => seq(|fs|, i requires 0 <= i < |fs| => fs[i].1)
    case JArr(xs) => xs
    case JStr(s) => seq(|s|, i requires 0 <= i < |s| => JStr([s[i]]))
    case _ => []
  }

  /** `Object.keys(v).length` for any value. */
  function KeyCount(j: Json): nat {
    match j
    case JStr(s) => |s|
    case _ => EntryCount(j)
  }

  /** A key beginning with `$` names token metadata, not structure. */
  predicate IsMetaKey(k: string) {
    |k| > 0 && k[0] == '$'
  }

  /** `String(v)`, which is also what a template literal interpolates. */
  function ToString(j: Json): string
    decreases j, 1
  {
    match j
    case JNull => "null"
    case JBool(b) => if b then "true" else "false"
    case JNum(t) => t
    case JStr(s) => s
    case JArr(xs) => JoinItems(j, 0)
    case JObj(_) => "[object Object]"
  }

  /** `Array.prototype.join(",")` from index i, where `null` elements
      contribute the empty string. */
  function JoinItems(j: Json, i: nat): string
    requires j.JArr?
    decreases j, 0, |j.items| - i
  {
    if i >= |j.items| then ""
    else
      var e := if j.items[i].JNull? then "" else ToString(j.items[i]);
      if i + 1 == |j.items| then e else e + "," + JoinItems(j, i + 1)
  }

  /** What `JSON.parse` yields: an object never holds the same key twice. */
  ghost predicate DistinctKeys(j: Json) {
    match j
    case JObj(fs) =>
      && OrderedMaps.Distinct(fs)
      && (forall i :: 0 <= i < |fs| ==> DistinctKeys(fs[i].1))
    case JArr(xs) => forall i :: 0 <= i < |xs| ==> DistinctKeys(xs[i])
    case _ => true
  }

  /** The child reached by one key of `Object.keys`, as `v[k]` reads it. */
  function Child(j: Json, k: string): Option<Json> {
    match j
    case JObj(fs) => OrderedMaps.Get(fs, k)
    case JArr(xs) => IndexChild(xs, k, 0)
    case _ => None
  }

  function IndexChild(xs: seq<Json>, k: string, i: nat): Option<Json>
    decreases |xs| - i
  {
    if i >= |xs| then None
    else if NatToString(i) == k then Some(xs[i])
    else IndexChild(xs, k, i + 1)
  }

  /** Following a key path from a node. */
  function Navigate(j: Json, keys: seq<string>): Option<Json>
    decreases |keys|
  {
    if |keys| == 0 then Some(j)
    else
      match Child(j, keys[0])
      case None => None
      case Some(c) => Navigate(c, keys[1..])
  }

  /** In a JSON.parse result, the i-th entry is what its own key reads. */
  lemma {:induction false} ChildOfEntry(j: Json, i: nat)
    requires DistinctKeys(j)
    requires i < EntryCount(j)
    ensures Child(j, EntryKey(j, i)) == Some(EntryValue(j, i))
    ensures DistinctKeys(EntryValue(j, i))
  {
    if j.JObj? {
      OrderedMaps.GetDistinct(j.fields, i);
    } else {
      IndexChildFinds(j.items, i, 0);
    }
  }

  lemma {:induction false} IndexChildFinds(xs: seq<Json>, i: nat, from: nat)
    requires from <= i < |xs|
    ensures IndexChild(xs, NatToString(i), from) == Some(xs[i])
    decreases i - from
  {
    if from < i {
      if NatToString(from) == NatToString(i) {
        NatToStringInjective(from, i);
      }
      IndexChildFinds(xs, i, from + 1);
    }
  }
}

=== FILE: mappings.dfy ===
/** Mapping names that are not standard CSS properties onto standard ones:
    the post-processing `applyInvalidCssPropertyMappings`, and the
    component's bookkeeping around it (the default-mapping suggestion,
    `checkAndMapInvalidCssProperty`, and the two upserts into the list of
    registered custom properties). */
module Mappings {
  import opened Strings
  import opened Wrappers
  import opened OrderedMaps
  import Naming
  import Validator

  // ---------------------------------------------------------------------
  // applyInvalidCssPropertyMappings

  /** One entry of the mapping loop: a present key with a non-empty mapping
      gives its value to every target and is then deleted (even when it is
      one of its own targets); otherwise nothing changes. */
  function ApplyMapping(css: OMap<string>, key: string, targets: seq<string>): (r: OMap<string>)
    ensures !HasKey(css, key) || |targets| == 0 ==> r == css
    ensures HasKey(css, key) && |targets| > 0 ==>
      && Get(r, key).None?
      && (forall t :: t in targets && t != key ==> Get(r, t) == Get(css, key))
      && (forall k :: k != key && k !in targets ==> Get(r, k) == Get(css, k))
  {
    if HasKey(css, key) && |targets| > 0 then Remove(PutAll(css, targets, Get(css, key).value), key)
    else css
  }

  /** `applyInvalidCssPropertyMappings(cssProperties, invalidProperties)`:
      the mappings applied one after another in the map's insertion order,
      to a copy of the properties. */
  function ApplyInvalidCssPropertyMappings(css: OMap<string>, invalid: OMap<seq<string>>): OMap<string>
    decreases |invalid|
  {
    if |invalid| == 0 then css
    else ApplyInvalidCssPropertyMappings(ApplyMapping(css, invalid[0].0, invalid[0].1), invalid[1..])
  }

  /** A mapping table whose entries do not feed each other: no invalid name
      is also a target, and no two entries share a target. */
  predicate Unchained(invalid: OMap<seq<string>>) {
    && Distinct(invalid)
    && (forall a, b :: 0 <= a < |invalid| && 0 <= b < |invalid| ==> invalid[a].0 !in invalid[b].1)
    && (forall a, b, t :: 0 <= a < b < |invalid| && t in invalid[a].1 ==> t !in invalid[b].1)
  }

  /** The key is neither an invalid name nor a target of the table. */
  predicate Untouched(k: string, invalid: OMap<seq<string>>) {
    forall a :: 0 <= a < |invalid| ==> k != invalid[a].0 && k !in invalid[a].1
  }

  lemma {:induction false} UnchainedTail(invalid: OMap<seq<string>>)
    requires |invalid| > 0 && Unchained(invalid)
    ensures Unchained(invalid[1..])
    ensures Untouched(invalid[0].0, invalid[1..])
    ensures forall t :: t in invalid[0].1 ==> Untouched(t, invalid[1..])
  {
    var tail := invalid[1..];
    forall a | 0 <= a < |tail|
      ensures invalid[0].0 != tail[a].0 && invalid[0].0 !in tail[a].1
    {
      assert tail[a] == invalid[a + 1];
    }
    forall t, a | t in invalid[0].1 && 0 <= a < |tail|
      ensures t != tail[a].0 && t !in tail[a].1
    {
      assert tail[a] == invalid[a + 1];
    }
  }

  /** A name the table never mentions keeps its value. */
  lemma {:induction false} UntouchedKept(css: OMap<string>, invalid: OMap<seq<string>>, k: string)
    requires Untouched(k, invalid)
    ensures Get(ApplyInvalidCssPropertyMappings(css, invalid), k) == Get(css, k)
    decreases |invalid|
  {
    if |invalid| > 0 {
      assert k != invalid[0].0 && k !in invalid[0].1;
      assert Untouched(k, invalid[1..]) by {
        forall a | 0 <= a < |invalid[1..]|
          ensures k != invalid[1..][a].0 && k !in invalid[1..][a].1
        {
          assert invalid[1..][a] == invalid[a + 1];
        }
      }
      UntouchedKept(ApplyMapping(css, invalid[0].0, invalid[0].1), invalid[1..], k);
    }
  }

  /** An invalid name with a non-empty mapping is gone from the result. */
  lemma {:induction false} MappedKeyRemoved(css: OMap<string>, invalid: OMap<seq<string>>, a: nat)
    requires Unchained(invalid) && a < |invalid| && |invalid[a].1| > 0
    ensures Get(ApplyInvalidCssPropertyMappings(css, invalid), invalid[a].0).None?
    decreases |invalid|
  {
    var m1 := ApplyMapping(css, invalid[0].0, invalid[0].1);
    UnchainedTail(invalid);
    if a == 0 {
      UntouchedKept(m1, invalid[1..], invalid[0].0);
    } else {
      assert invalid[1..][a - 1] == invalid[a];
      MappedKeyRemoved(m1, invalid[1..], a - 1);
    }
  }

  /** An invalid name with an empty mapping keeps its value. */
  lemma {:induction false} EmptyMappingKept(css: OMap<string>, invalid: OMap<seq<string>>, a: nat)
    requires Unchained(invalid) && a < |invalid| && |invalid[a].1| == 0
    ensures Get(ApplyInvalidCssPropertyMappings(css, invalid), invalid[a].0) == Get(css, invalid[a].0)
    decreases |invalid|
  {
    var m1 := ApplyMapping(css, invalid[0].0, invalid[0].1);
    UnchainedTail(invalid);
    if a == 0 {
      UntouchedKept(m1, invalid[1..], invalid[0].0);
    } else {
      assert invalid[1..][a - 1] == invalid[a];
      assert invalid[a].0 != invalid[0].0 && invalid[a].0 !in invalid[0].1;
      EmptyMappingKept(m1, invalid[1..], a - 1);
    }
  }

  /** Every target of a present invalid name receives that name's value. */
  lemma {:induction false} TargetReceives(css: OMap<string>, invalid: OMap<seq<string>>, a: nat, t: string)
    requires Unchained(invalid) && a < |invalid| && t in invalid[a].1 && HasKey(css, invalid[a].0)
    ensures Get(ApplyInvalidCssPropertyMappings(css, invalid), t) == Get(css, invalid[a].0)
    decreases |invalid|
  {
    var m1 := ApplyMapping(css, invalid[0].0, invalid[0].1);
    UnchainedTail(invalid);
    if a == 0 {
      assert t != invalid[0].0;
      UntouchedKept(m1, invalid[1..], t);
    } else {
      assert invalid[1..][a - 1] == invalid[a];
      assert invalid[a].0 != invalid[0].0 && invalid[a].0 !in invalid[0].1;
      assert Get(m1, invalid[a].0) == Get(css, invalid[a].0);
      TargetReceives(m1, invalid[1..], a - 1, t);
    }
  }

  /** For a table whose entries do not feed each other: each invalid name
      present with a non-empty mapping hands its value to all its targets
      and disappears; a name with an empty mapping keeps its value; names
      the table never mentions keep theirs. */
  lemma {:induction false} MappingsApplied(css: OMap<string>, invalid: OMap<seq<string>>)
    requires Unchained(invalid)
    ensures forall a :: 0 <= a < |invalid| && |invalid[a].1| > 0 ==>
      Get(ApplyInvalidCssPropertyMappings(css, invalid), invalid[a].0).None?
    ensures forall a :: 0 <= a < |invalid| && |invalid[a].1| == 0 ==>
      Get(ApplyInvalidCssPropertyMappings(css, invalid), invalid[a].0) == Get(css, invalid[a].0)
    ensures forall a, t :: 0 <= a < |invalid| && t in invalid[a].1 && HasKey(css, invalid[a].0) ==>
      Get(ApplyInvalidCssPropertyMappings(css, invalid), t) == Get(css, invalid[a].0)
    ensures forall k :: Untouched(k, invalid) ==>
      Get(ApplyInvalidCssPropertyMappings(css, invalid), k) == Get(css, k)
  {
    forall a | 0 <= a < |invalid| && |invalid[a].1| > 0
      ensures Get(ApplyInvalidCssPropertyMappings(css, invalid), invalid[a].0).None?
    {
      MappedKeyRemoved(css, invalid, a);
    }
    forall a | 0 <= a < |invalid| && |invalid[a].1| == 0
      ensures Get(ApplyInvalidCssPropertyMappings(css, invalid), invalid[a].0) == Get(css, invalid[a].0)
    {
      EmptyMappingKept(css, invalid, a);
    }
    forall a, t | 0 <= a < |invalid| && t in invalid[a].1 && HasKey(css, invalid[a].0)
      ensures Get(ApplyInvalidCssPropertyMappings(css, invalid), t) == Get(css, invalid[a].0)
    {
      TargetReceives(css, invalid, a, t);
    }
    forall k | Untouched(k, invalid)
      ensures Get(ApplyInvalidCssPropertyMappings(css, invalid), k) == Get(css, k)
    {
      UntouchedKept(css, invalid, k);
    }
  }

  /** A name that is its own target is deleted, not kept. */
  lemma {:induction false} SelfTargetDeleted(value: string)
    ensures Get(ApplyInvalidCssPropertyMappings([("gap", value)], [("gap", ["gap"])]), "gap").None?
  {
    assert HasKey([("gap", value)], "gap") by {
      assert [("gap", value)][0].0 == "gap";
    }
  }

  // ---------------------------------------------------------------------
  // The default-mapping suggestion

  /** The suggestion `checkAndMapInvalidCssProperty` makes for an invalid
      name: the first rule whose words the name contains decides. */
  function DefaultMapping(name: string): (r: seq<string>)
    ensures |r| == 0 <==>
      && !Contains(name, "padding-horizontal") && !Contains(name, "padding-vertical")
      && !Contains(name, "margin-horizontal") && !Contains(name, "margin-vertical")
      && !(Contains(name, "border") && Contains(name, "radius"))
      && !Contains(name, "height") && !Contains(name, "width") && !Contains(name, "gap")
  {
    if Contains(name, "padding-horizontal") || name == "padding-horizontal" then ["padding-left", "padding-right"]
    else if Contains(name, "padding-vertical") then ["padding-top", "padding-bottom"]
    else if Contains(name, "margin-horizontal") then ["margin-left", "margin-right"]
    else if Contains(name, "margin-vertical") then ["margin-top", "margin-bottom"]
    else if Contains(name, "border") && Contains(name, "radius") then ["border-radius"]
    else if Contains(name, "height") then ["height"]
    else if Contains(name, "width") then ["width"]
    else if Contains(name, "gap") then ["gap"]
    else []
  }

  /** Every suggested target is a standard property. */
  lemma {:induction false} DefaultMappingIsStandard(name: string)
    ensures forall t :: t in DefaultMapping(name) ==> t in Validator.ValidCssProperties
  {
    Validator.MarginSidesBuiltin();
    Validator.PaddingSidesBuiltin();
    Validator.DimensionsBuiltin();
    DefaultMappingWithin(name, Validator.ValidCssProperties);
  }

  lemma {:induction false} DefaultMappingWithin(name: string, v: seq<string>)
    requires "padding-left" in v && "padding-right" in v && "padding-top" in v && "padding-bottom" in v
    requires "margin-left" in v && "margin-right" in v && "margin-top" in v && "margin-bottom" in v
    requires "border-radius" in v && "height" in v && "width" in v && "gap" in v
    ensures forall t :: t in DefaultMapping(name) ==> t in v
  {
  }

  /** The same chain as written where a scan registers invalid names, with
      an exact comparison beside each of the first four tests. */
  function ScanDefaultMapping(name: string): seq<string> {
    if Contains(name, "padding-horizontal") || name == "padding-horizontal" then ["padding-left", "padding-right"]
    else if Contains(name, "padding-vertical") || name == "padding-vertical" then ["padding-top", "padding-bottom"]
    else if Contains(name, "margin-horizontal") || name == "margin-horizontal" then ["margin-left", "margin-right"]
    else if Contains(name, "margin-vertical") || name == "margin-vertical" then ["margin-top", "margin-bottom"]
    else if Contains(name, "border") && Contains(name, "radius") then ["border-radius"]
    else if Contains(name, "height") then ["height"]
    else if Contains(name, "width") then ["width"]
    else if Contains(name, "gap") then ["gap"]
    else []
  }

  lemma {:induction false} ContainsSelf(s: string)
    ensures Contains(s, s)
  {
    assert s[..|s|] == s;
  }

  /** The exact comparisons are redundant: both sites suggest the same. */
  lemma {:induction false} DefaultMappingsAgree(name: string)
    ensures ScanDefaultMapping(name) == DefaultMapping(name)
  {
    ContainsSelf(name);
  }

  lemma {:induction false} ContainsAt(s: string, i: nat, sub: string)
    requires i + |sub| <= |s| && s[i..i + |sub|] == sub
    ensures Contains(s, sub)
    decreases i
  {
    if i > 0 {
      assert s[1..][i - 1..i - 1 + |sub|] == sub;
      ContainsAt(s[1..], i - 1, sub);
    } else {
      assert s[..|sub|] == sub;
    }
  }

  /** A string lacking one of the characters of `sub` does not contain it. */
  lemma {:induction false} MissingCharNotContained(s: string, sub: string, c: char)
    requires c in sub && c !in s
    ensures !Contains(s, sub)
    decreases |s|
  {
    if |s| > 0 {
      MissingCharNotContained(s[1..], sub, c);
    }
  }

  /** The horizontal shorthand is spread over the left and right sides. */
  lemma {:induction false} HorizontalExample(a: string)
    requires a == "padding-horizontal"
    ensures DefaultMapping(a) == ["padding-left", "padding-right"]
  {
    ContainsSelf(a);
  }

  /** A name with none of the earlier rules' words is mapped by the
      dimension it contains. */
  lemma {:induction false} DimensionExample(b: string)
    requires b == "min-height"
    ensures DefaultMapping(b) == ["height"]
  {
    MinHeightWords(b);
  }

  /** Which of the rules' words `min-height` contains. */
  lemma {:induction false} MinHeightWords(b: string)
    requires b == "min-height"
    ensures Contains(b, "height") && b != "padding-horizontal"
    ensures !Contains(b, "padding-horizontal") && !Contains(b, "padding-vertical")
    ensures !Contains(b, "margin-horizontal") && !Contains(b, "margin-vertical")
    ensures !Contains(b, "border")
  {
    assert b[4..4 + |"height"|] == "height";
    ContainsAt(b, 4, "height");
    MinHeightLacks(b);
  }

  lemma {:induction false} MinHeightLacks(b: string)
    requires b == "min-height"
    ensures !Contains(b, "padding-horizontal") && !Contains(b, "padding-vertical")
    ensures !Contains(b, "margin-horizontal") && !Contains(b, "margin-vertical")
    ensures !Contains(b, "border")
  {
    assert 'p' !in b && 'r' !in b && 'b' !in b;
    assert 'p' in "padding-horizontal" && 'p' in "padding-vertical";
    MissingCharNotContained(b, "padding-horizontal", 'p');
    MissingCharNotContained(b, "padding-vertical", 'p');
    assert 'r' in "margin-horizontal" && 'r' in "margin-vertical";
    MissingCharNotContained(b, "margin-horizontal", 'r');
    MissingCharNotContained(b, "margin-vertical", 'r');
    assert 'b' in "border";
    MissingCharNotContained(b, "border", 'b');
  }

  // ---------------------------------------------------------------------
  // checkAndMapInvalidCssProperty

  /** The targets a name maps to, and the table after the call. */
  datatype Checked = Checked(targets: seq<string>, invalid: OMap<seq<string>>)

  /** The first registered entry whose name matches, ignoring ASCII case. */
  function FindCustom(name: string, customs: seq<Validator.CustomProperty>): (r: Option<nat>)
    ensures r.Some? ==> r.value < |customs| && Lower(customs[r.value].name) == Lower(name)
    ensures r.Some? ==> forall i :: 0 <= i < r.value ==> Lower(customs[i].name) != Lower(name)
    ensures r.None? <==> !Validator.IsCustomName(name, customs)
    decreases |customs|
  {
    if |customs| == 0 then None
    else if Lower(customs[0].name) == Lower(name) then Some(0)
    else
      match FindCustom(name, customs[1..])
      case None => None
      case Some(i) => Some(i + 1)
  }

  /** The standard list the check consults: the loaded keywords, or the
      built-in list while none are loaded. */
  function StandardList(keywords: seq<string>): seq<string> {
    if |keywords| > 0 then keywords else Validator.ValidCssProperties
  }

  /** `checkAndMapInvalidCssProperty(propertyName)` with the component state
      it reads passed in. The name is transformed first; a name already in
      the table yields its stored mapping; a registered custom name with a
      non-empty mapping yields that mapping; a name neither standard nor
      registered yields the default suggestion, which is also stored; any
      other name stands for itself. */
  function CheckAndMapInvalidCssProperty(
    propertyName: string, keySeparator: string, lowercase: bool,
    invalid: OMap<seq<string>>, keywords: seq<string>, customs: seq<Validator.CustomProperty>): (r: Checked)
    ensures var name := Naming.TransformKey(propertyName, keySeparator, lowercase);
      && (HasKey(invalid, name) ==> r == Checked(Get(invalid, name).value, invalid))
      && (r.invalid == invalid || (!HasKey(invalid, name) && r.invalid == Put(invalid, name, r.targets)))
      && (!HasKey(invalid, name) && Lower(name) !in StandardList(keywords) && !Validator.IsCustomName(name, customs) ==>
            r == Checked(DefaultMapping(name), Put(invalid, name, DefaultMapping(name))))
      && (!HasKey(invalid, name) && Lower(name) in StandardList(keywords) && !Validator.IsCustomName(name, customs) ==>
            r == Checked([name], invalid))
      && (!HasKey(invalid, name) && Validator.IsCustomName(name, customs) ==>
            var m := customs[FindCustom(name, customs).value].mappedTo;
            r == Checked(if |m| > 0 then m else [name], invalid))
  {
    var name := Naming.TransformKey(propertyName, keySeparator, lowercase);
    if HasKey(invalid, name) then Checked(Get(invalid, name).value, invalid)
    else
      var isStandard := Lower(name) in StandardList(keywords);
      var custom := FindCustom(name, customs);
      if custom.Some? && |customs[custom.value].mappedTo| > 0 then Checked(customs[custom.value].mappedTo, invalid)
      else if !isStandard && custom.None? then Checked(DefaultMapping(name), Put(invalid, name, DefaultMapping(name)))
      else Checked([name], invalid)
  }

  /** Asking again with the table the first call left gives the same answer
      and leaves the table as it is. */
  lemma {:induction false} CheckIsStable(
    propertyName: string, keySeparator: string, lowercase: bool,
    invalid: OMap<seq<string>>, keywords: seq<string>, customs: seq<Validator.CustomProperty>)
    ensures var r1 := CheckAndMapInvalidCssProperty(propertyName, keySeparator, lowercase, invalid, keywords, customs);
      CheckAndMapInvalidCssProperty(propertyName, keySeparator, lowercase, r1.invalid, keywords, customs) == r1
  {
    var name := Naming.TransformKey(propertyName, keySeparator, lowercase);
    var r1 := CheckAndMapInvalidCssProperty(propertyName, keySeparator, lowercase, invalid, keywords, customs);
    if r1.invalid != invalid {
      assert Get(r1.invalid, name) == Some(r1.targets);
    }
  }

  /** The check as written: the built-in list it falls back to is not in
      scope in the component, so with no keywords loaded, reaching the
      fallback throws a `ReferenceError`, shown as `None`. */
  function CheckAndMapAsWritten(
    propertyName: string, keySeparator: string, lowercase: bool,
    invalid: OMap<seq<string>>, keywords: seq<string>, customs: seq<Validator.CustomProperty>): (r: Option<Checked>)
    ensures r.None? <==> !HasKey(invalid, Naming.TransformKey(propertyName, keySeparator, lowercase)) && |keywords| == 0
    ensures r.Some? ==> r.value == CheckAndMapInvalidCssProperty(propertyName, keySeparator, lowercase, invalid, keywords, customs)
  {
    var name := Naming.TransformKey(propertyName, keySeparator, lowercase);
    if !HasKey(invalid, name) && |keywords| == 0 then None
    else Some(CheckAndMapInvalidCssProperty(propertyName, keySeparator, lowercase, invalid, keywords, customs))
  }

  /** Before any keyword list is loaded, even a standard name makes the
      check as written throw, where the intended fallback accepts it. */
  lemma {:induction false} CheckWithoutKeywords(name: string)
    requires name == "color"
    ensures CheckAndMapAsWritten(name, "-", false, [], [], []).None?
    ensures CheckAndMapInvalidCssProperty(name, "-", false, [], [], []).targets == [name]
  {
    ColorKeyKept(name);
    Validator.ColorBuiltin();
  }

  /** `color` is left as it is by the key transform and by lower-casing. */
  lemma {:induction false} ColorKeyKept(name: string)
    requires name == "color"
    ensures Naming.TransformKey(name, "-", false) == name && Lower(name) == name
  {
    assert NoSpace(name);
    assert NoUpper(name);
    LowerOfNoUpper(name);
  }

  // ---------------------------------------------------------------------
  // The registered custom properties

  /** No two entries carry the same name ignoring ASCII case. */
  predicate NoCaseDuplicates(customs: seq<Validator.CustomProperty>) {
    forall i, j :: 0 <= i < j < |customs| ==> Lower(customs[i].name) != Lower(customs[j].name)
  }

  /** Some entry carries the name, ignoring ASCII case, with this mapping. */
  predicate Registered(customs: seq<Validator.CustomProperty>, name: string, mappedTo: seq<string>) {
    exists i :: 0 <= i < |customs| && Lower(customs[i].name) == Lower(name) && customs[i].mappedTo == mappedTo
  }

  /** The description a new entry is given. */
  function Description(name: string): string {
    "사용자 정의 CSS 속성: " + name
  }

  /** `addCustomCssProperty(name, mappedTo)`: the entry matching the name
      ignoring case gets the new mapping; without one, an entry is
      appended. */
  function AddCustomCssProperty(customs: seq<Validator.CustomProperty>, name: string, mappedTo: seq<string>)
    : (r: seq<Validator.CustomProperty>)
    ensures |customs| <= |r| <= |customs| + 1
    ensures NoCaseDuplicates(customs) ==> NoCaseDuplicates(r)
    ensures Registered(r, name, mappedTo)
    ensures forall i :: 0 <= i < |customs| && Lower(customs[i].name) != Lower(name) ==> r[i] == customs[i]
    ensures forall i :: 0 <= i < |customs| ==> r[i].name == customs[i].name
  {
    match FindCustom(name, customs)
    case Some(i) =>
      var c := customs[i];
      var r := customs[i := Validator.CustomProperty(c.name, mappedTo, c.description)];
      assert Lower(r[i].name) == Lower(name) && r[i].mappedTo == mappedTo;
      r
    case None =>
      var r := customs + [Validator.CustomProperty(name, mappedTo, Some(Description(name)))];
      assert Lower(r[|customs|].name) == Lower(name) && r[|customs|].mappedTo == mappedTo;
      assert forall i :: 0 <= i < |customs| ==> r[i] == customs[i];
      r
  }

  /** `saveCustomCssProperties()` as written: each entry of the invalid
      table is matched against the list by exact name, not ignoring case
      as the rest of the component does. */
  function SaveAsWritten(customs: seq<Validator.CustomProperty>, invalid: OMap<seq<string>>)
    : (r: seq<Validator.CustomProperty>)
    ensures |customs| <= |r| <= |customs| + |invalid|
    decreases |invalid|
  {
    if |invalid| == 0 then customs
    else SaveAsWritten(ExactUpsert(customs, invalid[0].0, invalid[0].1), invalid[1..])
  }

  function FindExact(name: string, customs: seq<Validator.CustomProperty>): (r: Option<nat>)
    ensures r.Some? ==> r.value < |customs| && customs[r.value].name == name
    ensures r.None? ==> forall i :: 0 <= i < |customs| ==> customs[i].name != name
    decreases |customs|
  {
    if |customs| == 0 then None
    else if customs[0].name == name then Some(0)
    else
      match FindExact(name, customs[1..])
      case None => None
      case Some(i) => Some(i + 1)
  }

  function ExactUpsert(customs: seq<Validator.CustomProperty>, name: string, mappedTo: seq<string>)
    : (r: seq<Validator.CustomProperty>)
    ensures |customs| <= |r| <= |customs| + 1
  {
    match FindExact(name, customs)
    case Some(i) =>
      var c := customs[i];
      customs[i := Validator.CustomProperty(c.name, mappedTo, c.description)]
    case None => customs + [Validator.CustomProperty(name, mappedTo, Some(Description(name)))]
  }

  /** A registered `Gap-X` and a detected `gap-x` end up as two entries that
      differ only in case. */
  lemma {:induction false} SaveAsWrittenDuplicates()
    ensures var r := SaveAsWritten([Validator.CustomProperty("Gap-X", [], None)], [("gap-x", ["gap"])]);
      !NoCaseDuplicates(r)
  {
    var customs := [Validator.CustomProperty("Gap-X", [], None)];
    assert FindExact("gap-x", customs).None?;
    var r := SaveAsWritten(customs, [("gap-x", ["gap"])]);
    assert r == customs + [Validator.CustomProperty("gap-x", ["gap"], Some(Description("gap-x")))];
    assert Lower("Gap-X") == "gap-x" && Lower("gap-x") == "gap-x";
    assert Lower(r[0].name) == Lower(r[1].name);
  }

  /** `saveCustomCssProperties()` with the case-insensitive match used
      everywhere else: the same loop through `AddCustomCssProperty`. */
  function SaveCustomCssProperties(customs: seq<Validator.CustomProperty>, invalid: OMap<seq<string>>)
    : (r: seq<Validator.CustomProperty>)
    ensures |customs| <= |r| <= |customs| + |invalid|
    ensures NoCaseDuplicates(customs) ==> NoCaseDuplicates(r)
    decreases |invalid|
  {
    if |invalid| == 0 then customs
    else SaveCustomCssProperties(AddCustomCssProperty(customs, invalid[0].0, invalid[0].1), invalid[1..])
  }

  /** After saving, every entry of the table is registered with its
      mapping, unless a later entry with the same name ignoring case
      replaced it. */
  lemma {:induction false} SavedAreRegistered(customs: seq<Validator.CustomProperty>, invalid: OMap<seq<string>>, a: nat)
    requires a < |invalid|
    requires forall b :: a < b < |invalid| ==> Lower(invalid[b].0) != Lower(invalid[a].0)
    ensures Registered(SaveCustomCssProperties(customs, invalid), invalid[a].0, invalid[a].1)
    decreases |invalid|
  {
    var c1 := AddCustomCssProperty(customs, invalid[0].0, invalid[0].1);
    if a == 0 {
      var i :| 0 <= i < |c1| && Lower(c1[i].name) == Lower(invalid[0].0) && c1[i].mappedTo == invalid[0].1;
      KeptThrough(c1, invalid[1..], i);
      var r := SaveCustomCssProperties(customs, invalid);
      assert r == SaveCustomCssProperties(c1, invalid[1..]);
      assert r[i] == c1[i];
    } else {
      assert invalid[1..][a - 1] == invalid[a];
      forall b | a - 1 < b < |invalid[1..]|
        ensures Lower(invalid[1..][b].0) != Lower(invalid[1..][a - 1].0)
      {
        assert invalid[1..][b] == invalid[b + 1];
      }
      SavedAreRegistered(c1, invalid[1..], a - 1);
    }
  }

  /** An entry no later table name matches survives the rest of the loop
      unchanged. */
  lemma {:induction false} KeptThrough(customs: seq<Validator.CustomProperty>, invalid: OMap<seq<string>>, i: nat)
    requires i < |customs|
    requires forall b :: 0 <= b < |invalid| ==> Lower(invalid[b].0) != Lower(customs[i].name)
    ensures i < |SaveCustomCssProperties(customs, invalid)|
    ensures SaveCustomCssProperties(customs, invalid)[i] == customs[i]
    decreases |invalid|
  {
    if |invalid| > 0 {
      var c1 := AddCustomCssProperty(customs, invalid[0].0, invalid[0].1);
      assert c1[i] == customs[i];
      forall b | 0 <= b < |invalid[1..]|
        ensures Lower(invalid[1..][b].0) != Lower(c1[i].name)
      {
        assert invalid[1..][b] == invalid[b + 1];
      }
      KeptThrough(c1, invalid[1..], i);
    }
  }
}

=== FILE: naming.dfy ===
/** The naming transforms: a raw key becomes a CSS-safe segment, and a token
    path becomes a custom-property name of the `--*` family (section 2 of
    CSS Custom Properties for Cascading Variables Level 1). */
module Naming {
  import opened Strings

  // ---------------------------------------------------------------------
  // transformKey

  /** `s.replace(/[class]+/g, sep)` for the character class `p`: each
      maximal run of characters in the class becomes one copy of `sep`. */
  function ReplaceRuns(s: string, sep: string, p: char -> bool): string
    decreases |s|
  {
    if |s| == 0 then ""
    else if p(s[0]) then sep + ReplaceRuns(DropRun(s, p), sep, p)
    else [s[0]] + ReplaceRuns(s[1..], sep, p)
  }

  /** The text after the leading run of class characters. */
  function DropRun(s: string, p: char -> bool): (r: string)
    ensures |r| <= |s|
    ensures |s| > 0 && p(s[0]) ==> |r| < |s|
    ensures |r| == 0 || !p(r[0])
  {
    if |s| == 0 || !p(s[0]) then s else DropRun(s[1..], p)
  }

  /** `s.replace(/\s+/g, sep)`. */
  function ReplaceSpaceRuns(s: string, sep: string): string {
    ReplaceRuns(s, sep, IsSpace)
  }

  /** `transformKey(key, separator, lowercase)`: whitespace runs become the
      separator, then the whole is lower-cased when asked. */
  function TransformKey(key: string, sep: string, lowercase: bool): (r: string)
    ensures NoSpace(sep) ==> NoSpace(r)
    ensures lowercase ==> NoUpper(r)
    ensures NoSpace(key) ==> r == (if lowercase then Lower(key) else key)
  {
    var t := ReplaceSpaceRuns(key, sep);
    ReplaceNoRun(key, sep, IsSpace);
    if lowercase then LowerNoUpper(t); LowerKeepsNoSpace(t); Lower(t) else t
  }

  lemma {:induction false} ReplaceNoRun(s: string, sep: string, p: char -> bool)
    ensures (forall i :: 0 <= i < |sep| ==> !p(sep[i])) ==>
      forall i :: 0 <= i < |ReplaceRuns(s, sep, p)| ==> !p(ReplaceRuns(s, sep, p)[i])
    ensures (forall i :: 0 <= i < |s| ==> !p(s[i])) ==> ReplaceRuns(s, sep, p) == s
    decreases |s|
  {
    if |s| > 0 {
      if p(s[0]) {
        ReplaceNoRun(DropRun(s, p), sep, p);
      } else {
        ReplaceNoRun(s[1..], sep, p);
        assert s == [s[0]] + s[1..];
      }
    }
  }

  lemma {:induction false} LowerKeepsNoSpace(s: string)
    ensures NoSpace(s) ==> NoSpace(Lower(s))
  {
    if NoSpace(s) {
      forall i | 0 <= i < |s|
        ensures !IsSpace(Lower(s)[i])
      {
        assert !IsSpace(s[i]);
      }
    }
  }

  /** Running a key through `transformKey` twice gives what one run gives,
      as long as the separator holds no whitespace. */
  lemma {:induction false} TransformKeyIdempotent(key: string, sep: string, lowercase: bool)
    requires NoSpace(sep)
    ensures TransformKey(TransformKey(key, sep, lowercase), sep, lowercase)
         == TransformKey(key, sep, lowercase)
  {
    var once := TransformKey(key, sep, lowercase);
    if lowercase {
      LowerOfNoUpper(once);
    }
  }

  /** Replacement works piecewise across a boundary that does not sit inside
      a run. */
  lemma {:induction false} ReplaceConcat(a: string, b: string, sep: string, p: char -> bool)
    requires |a| == 0 || !p(a[|a| - 1]) || |b| == 0 || !p(b[0])
    ensures ReplaceRuns(a + b, sep, p) == ReplaceRuns(a, sep, p) + ReplaceRuns(b, sep, p)
    decreases |a|, 1
  {
    if |a| == 0 {
      assert a + b == b;
    } else if p(a[0]) {
      RunFirstConcat(a, b, sep, p);
    } else {
      var ab := a + b;
      assert ab[0] == a[0] && ab[1..] == a[1..] + b;
      ReplaceConcat(a[1..], b, sep, p);
    }
  }

  /** The case where `a` starts with a run: the run becomes the separator
      on both sides. */
  lemma {:induction false} RunFirstConcat(a: string, b: string, sep: string, p: char -> bool)
    requires |a| > 0 && p(a[0])
    requires !p(a[|a| - 1]) || |b| == 0 || !p(b[0])
    ensures ReplaceRuns(a + b, sep, p) == ReplaceRuns(a, sep, p) + ReplaceRuns(b, sep, p)
    decreases |a|, 0
  {
    var ab := a + b;
    assert ab[0] == a[0];
    var d := DropRun(a, p);
    if |d| == 0 {
      AllRunEndsInRun(a, p);
      DropRunAll(a, b, p);
      assert ReplaceRuns(d, sep, p) == "";
    } else {
      DropRunConcat(a, b, p);
      DropRunKeepsLast(a, p);
      ReplaceConcat(d, b, sep, p);
    }
  }

  lemma {:induction false} DropRunKeepsLast(s: string, p: char -> bool)
    requires |DropRun(s, p)| > 0
    ensures DropRun(s, p)[|DropRun(s, p)| - 1] == s[|s| - 1]
    decreases |s|
  {
    if p(s[0]) {
      DropRunKeepsLast(s[1..], p);
    }
  }

  lemma {:induction false} DropRunAll(a: string, b: string, p: char -> bool)
    requires |DropRun(a, p)| == 0
    requires |b| == 0 || !p(b[0])
    ensures DropRun(a + b, p) == b
    decreases |a|
  {
    if |a| > 0 {
      assert p(a[0]);
      var ab := a + b;
      assert ab[0] == a[0];
      assert DropRun(ab, p) == DropRun(ab[1..], p);
      assert ab[1..] == a[1..] + b;
      DropRunAll(a[1..], b, p);
    } else {
      assert a + b == b;
    }
  }

  lemma {:induction false} AllRunEndsInRun(a: string, p: char -> bool)
    requires |a| > 0 && |DropRun(a, p)| == 0
    ensures p(a[|a| - 1])
    decreases |a|
  {
    if |a| > 1 {
      AllRunEndsInRun(a[1..], p);
      assert a[1..][|a| - 2] == a[|a| - 1];
    }
  }

  lemma {:induction false} DropRunConcat(a: string, b: string, p: char -> bool)
    requires |DropRun(a, p)| > 0
    ensures DropRun(a + b, p) == DropRun(a, p) + b
    decreases |a|
  {
    if p(a[0]) {
      assert (a + b)[1..] == a[1..] + b;
      DropRunConcat(a[1..], b, p);
    }
  }

  /** A segment with no whitespace at either end. */
  predicate Trimmed(s: string) {
    |s| > 0 && !IsSpace(s[0]) && !IsSpace(s[|s| - 1])
  }

  /** Joining trimmed segments with a space and then transforming the result
      (how class and property names are formed in the class generator) is the
      same as transforming every segment and joining with the separator (how
      the extractor forms token paths). */
  lemma {:induction false} JoinSpaceThenTransform(path: seq<string>, sep: string, lowercase: bool)
    requires forall k :: 0 <= k < |path| ==> Trimmed(path[k])
    ensures TransformKey(Join(path, " "), sep, lowercase)
         == Join(Map(path, k => TransformKey(k, sep, lowercase)), if lowercase then Lower(sep) else sep)
  {
    JoinSpaceReplace(path, sep);
    var mapped := Map(path, k => ReplaceSpaceRuns(k, sep));
    if lowercase {
      LowerJoin(mapped, sep);
      assert Map(mapped, Lower) == Map(path, k => TransformKey(k, sep, lowercase));
    } else {
      assert mapped == Map(path, k => TransformKey(k, sep, lowercase));
    }
  }

  lemma {:induction false} JoinSpaceReplace(path: seq<string>, sep: string)
    requires forall k :: 0 <= k < |path| ==> Trimmed(path[k])
    ensures ReplaceSpaceRuns(Join(path, " "), sep) == Join(Map(path, k => ReplaceSpaceRuns(k, sep)), sep)
    decreases |path|
  {
    if |path| >= 2 {
      var rest := Join(path[1..], " ");
      JoinSpaceReplace(path[1..], sep);
      assert Join(path, " ") == path[0] + (" " + rest);
      JoinStartsTrimmed(path[1..]);
      ReplaceConcat(path[0], " " + rest, sep, IsSpace);
      assert (" " + rest)[1..] == rest;
      assert DropRun(" " + rest, IsSpace) == rest;
      assert Map(path, k => ReplaceSpaceRuns(k, sep))[1..] == Map(path[1..], k => ReplaceSpaceRuns(k, sep));
    }
  }

  lemma {:induction false} JoinStartsTrimmed(path: seq<string>)
    requires |path| >= 1
    requires forall k :: 0 <= k < |path| ==> Trimmed(path[k])
    ensures |Join(path, " ")| > 0 && !IsSpace(Join(path, " ")[0])
  {
    if |path| >= 2 {
      assert Join(path, " ") == path[0] + " " + Join(path[1..], " ");
    }
  }

  // ---------------------------------------------------------------------
  // Path depth

  /** The start index `path.slice(-depth)` uses. */
  function SliceStart(len: nat, depth: int): (k: nat)
    ensures k <= len
  {
    if depth > 0 then (if depth >= len then 0 else len - depth)
    else if -depth > len then len
    else -depth
  }

  /** The segments a name is built from: the whole path when the depth is the
      "all" sentinel (99 or more), otherwise `path.slice(-depth)`. */
  function SelectPath(path: seq<string>, depth: int): (r: seq<string>)
    ensures depth >= 99 ==> r == path
    ensures 1 <= depth < 99 ==>
      |r| == (if depth < |path| then depth else |path|) && r == path[|path| - |r|..]
    ensures depth == 0 ==> r == path
  {
    if depth >= 99 then path else path[SliceStart(|path|, depth)..]
  }

  // ---------------------------------------------------------------------
  // transformTokenName / transformToCssVariableName

  /** The naming options both transforms take. `customFormat` empty stands
      for an absent one; the converter's defaults are `prefix = "--"`,
      `usePrefix = false` and `depth = 99`. */
  datatype NameOptions = NameOptions(
    separator: string,
    lowercase: bool,
    customFormat: seq<string>,
    prefix: string,
    usePrefix: bool,
    depth: int)

  function Case(s: string, lowercase: bool): string {
    if lowercase then Lower(s) else s
  }

  /** A custom prefix takes effect only when enabled and different from the
      bare `--` marker. */
  predicate PrefixApplies(o: NameOptions) {
    o.usePrefix && o.prefix != "--"
  }

  /** The prefix with the `--` marker added unless it already has it. */
  function MarkedPrefix(prefix: string): (p: string)
    ensures StartsWith(p, "--")
    ensures StartsWith(prefix, "--") ==> p == prefix
  {
    if StartsWith(prefix, "--") then prefix else "--" + prefix
  }

  /** The separator between prefix and body is left out when the prefix
      already ends with it. */
  function PrefixJoint(prefix: string, sep: string): string {
    if EndsWith(prefix, sep) then "" else sep
  }

  /** `transformTokenName(path, options)`. */
  function TransformTokenName(path: seq<string>, o: NameOptions): (r: string)
    ensures StartsWith(r, "--")
    ensures !PrefixApplies(o) ==> r[2..] == Case(Join(if |o.customFormat| > 0 then o.customFormat else SelectPath(path, o.depth), o.separator), o.lowercase)
    ensures PrefixApplies(o) && StartsWith(o.prefix, "--") ==> StartsWith(r, o.prefix)
    ensures PrefixApplies(o) && !StartsWith(o.prefix, "--") ==> StartsWith(r, "--" + o.prefix)
  {
    var effectivePrefix := if PrefixApplies(o) then MarkedPrefix(o.prefix) else "--";
    if |o.customFormat| > 0 then
      var result := Case(Join(o.customFormat, o.separator), o.lowercase);
      if PrefixApplies(o) then effectivePrefix + PrefixJoint(effectivePrefix, o.separator) + result
      else "--" + result
    else
      var processed := Case(Join(SelectPath(path, o.depth), o.separator), o.lowercase);
      if PrefixApplies(o) then effectivePrefix + PrefixJoint(effectivePrefix, o.separator) + processed
      else "--" + processed
  }

  /** `transformToCssVariableName(property, options)`, which computes the
      same name in a different order (depth first, custom format afterwards). */
  function TransformToCssVariableName(path: seq<string>, o: NameOptions): string
  {
    var pathParts := if o.depth >= 99 then path else path[SliceStart(|path|, o.depth)..];
    var result := Case(Join(pathParts, o.separator), o.lowercase);
    var result' := if |o.customFormat| > 0 then Case(Join(o.customFormat, o.separator), o.lowercase) else result;
    if o.usePrefix && o.prefix != "--" then
      var formattedPrefix := if StartsWith(o.prefix, "--") then o.prefix else "--" + o.prefix;
      var needsSeparator := !EndsWith(formattedPrefix, o.separator);
      formattedPrefix + (if needsSeparator then o.separator else "") + result'
    else
      "--" + result'
  }

  /** The two name transforms agree on every path and every option set. */
  lemma {:induction false} CssVariableNameAgrees(path: seq<string>, o: NameOptions)
    ensures TransformToCssVariableName(path, o) == TransformTokenName(path, o)
  {
  }

  /** With the default prefix, the name is `--` followed by the last `depth`
      segments joined by the separator (all of them for the "all" sentinel). */
  lemma {:induction false} TokenNameOfSuffix(path: seq<string>, o: NameOptions)
    requires !PrefixApplies(o) && |o.customFormat| == 0
    requires o.depth >= 1
    ensures var n := if o.depth >= 99 || o.depth > |path| then |path| else o.depth;
      TransformTokenName(path, o) == "--" + Case(Join(path[|path| - n..], o.separator), o.lowercase)
  {
  }

  /** With a prefix, the name is the marked prefix, the separator only if the
      prefix does not end with it, then the body: the prefix is never doubled
      and the separator never repeated. */
  lemma {:induction false} PrefixedTokenName(path: seq<string>, o: NameOptions)
    requires PrefixApplies(o) && |o.customFormat| == 0
    ensures var p := MarkedPrefix(o.prefix);
      var body := Case(Join(SelectPath(path, o.depth), o.separator), o.lowercase);
      && (EndsWith(p, o.separator) ==> TransformTokenName(path, o) == p + body)
      && (!EndsWith(p, o.separator) ==> TransformTokenName(path, o) == p + o.separator + body)
  {
  }
}

=== FILE: numberformat.dfy ===
/** `formatNumberValue(value, decimals)`: a numeric token value is rounded to
    a fixed number of decimals and stripped of trailing zeros, keeping any
    unit suffix; anything that does not read as a number is passed through.

    The rounding itself (`parseFloat` followed by `toFixed`) is floating-point
    work and is supplied as a function `fix` from the text being parsed to the
    digits `toFixed` prints. Everything around it is modelled: which values
    reach the rounding, how the unit is split off, and how zeros are trimmed. */
module NumberFormat {
  import opened Strings
  import opened Wrappers
  import opened Json
  import Naming

  /** What `n.toFixed(decimals)` prints for a finite `n` below 1e21 in
      magnitude: a sign, at least one whole digit, and exactly `decimals`
      fraction digits (no point at all when `decimals` is 0). */
  datatype Fixed = Fixed(negative: bool, whole: string, frac: string)

  predicate WellFormed(f: Fixed) {
    |f.whole| >= 1 && AllDigits(f.whole) && AllDigits(f.frac)
  }

  type FixedText = f: Fixed | WellFormed(f) witness Fixed(false, "0", "")

  function Sign(f: Fixed): string {
    if f.negative then "-" else ""
  }

  /** The text `toFixed` returns. */
  function Render(f: Fixed): string {
    Sign(f) + f.whole + (if |f.frac| > 0 then "." + f.frac else "")
  }

  // ---------------------------------------------------------------------
  // Trimming trailing zeros

  predicate AllZeros(s: string) {
    forall i :: 0 <= i < |s| ==> s[i] == '0'
  }

  /** The fraction digits without their trailing zeros. */
  function DropTrailingZeros(s: string): (r: string)
    ensures |r| <= |s| && s == r + s[|r|..]
    ensures AllZeros(s[|r|..])
    ensures |r| == 0 || r[|r| - 1] != '0'
  {
    if |s| > 0 && s[|s| - 1] == '0' then
      var r := DropTrailingZeros(s[..|s| - 1]);
      ZerosStep(s, r);
      r
    else s
  }

  /** A trailing zero joins the zeros already cut from the rest. */
  lemma {:induction false} ZerosStep(s: string, r: string)
    requires |s| > 0 && s[|s| - 1] == '0'
    requires |r| <= |s| - 1 && s[..|s| - 1] == r + s[..|s| - 1][|r|..] && AllZeros(s[..|s| - 1][|r|..])
    ensures s == r + s[|r|..] && AllZeros(s[|r|..])
  {
    assert s[|r|..] == s[..|s| - 1][|r|..] + "0";
  }

  /** The trim as it is meant: drop zeros at the end of the fraction, and
      the point with them when nothing is left after it. The whole digits
      are never touched. */
  function TrimFixed(f: Fixed): string {
    var frac := DropTrailingZeros(f.frac);
    Sign(f) + f.whole + (if |frac| > 0 then "." + frac else "")
  }

  /** Does the whole text match `\.?0+`? */
  predicate DotZeros(t: string) {
    || (|t| >= 1 && AllZeros(t))
    || (|t| >= 2 && t[0] == '.' && AllZeros(t[1..]))
  }

  /** The leftmost position from which the rest of `s` matches `\.?0+`
      (where an unanchored-at-start search for `/\.?0+$/` succeeds), or
      `|s|` when there is none. */
  function FirstMatch(s: string, i: nat): (k: nat)
    requires i <= |s|
    ensures i <= k <= |s|
    decreases |s| - i
  {
    if i == |s| then |s|
    else if DotZeros(s[i..]) then i
    else FirstMatch(s, i + 1)
  }

  /** `s.replace(/\.?0+$/, '')` as written. */
  function TrimRegex(s: string): string {
    s[..FirstMatch(s, 0)]
  }

  /** With at least one fraction digit (`decimals` of 1 or more) the regular
      expression removes exactly the trailing fraction zeros and a dangling
      point: the two trims agree. */
  lemma {:induction false} TrimRegexAgrees(f: Fixed)
    requires WellFormed(f) && |f.frac| > 0
    ensures TrimRegex(Render(f)) == TrimFixed(f)
  {
    var pre := Sign(f) + f.whole;
    assert Render(f) == pre + "." + f.frac;
    var frac := DropTrailingZeros(f.frac);
    if |frac| > 0 {
      TrimRegexKeepsDigits(pre, f.frac, frac);
    } else {
      TrimRegexDropsPoint(pre, f.frac);
    }
  }

  lemma {:induction false} TrimRegexKeepsDigits(pre: string, digits: string, kept: string)
    requires AllDigits(digits)
    requires kept == DropTrailingZeros(digits) && |kept| > 0
    ensures TrimRegex(pre + "." + digits) == pre + "." + kept
  {
    var s := pre + "." + digits;
    var cut := |pre| + 1 + |kept|;
    assert s[cut - 1] == kept[|kept| - 1] == digits[|kept| - 1];
    forall j | 0 <= j < cut
      ensures !DotZeros(s[j..])
    {
      NotDotZeros(s[j..], cut - 1 - j);
    }
    assert s[cut..] == digits[|kept|..];
    FirstMatchIs(s, 0, cut);
    assert s[..cut] == pre + "." + kept;
  }

  lemma {:induction false} TrimRegexDropsPoint(pre: string, digits: string)
    requires |digits| > 0 && AllZeros(digits)
    ensures TrimRegex(pre + "." + digits) == pre
  {
    var s := pre + "." + digits;
    var cut := |pre|;
    assert s[cut..] == "." + digits;
    forall j | 0 <= j < cut
      ensures !DotZeros(s[j..])
    {
      assert s[j..][cut - j] == '.';
      NotDotZeros(s[j..], cut - j);
    }
    FirstMatchIs(s, 0, cut);
    assert s[..cut] == pre;
  }

  /** A text with a character other than `0` (and other than a leading
      point) somewhere does not match `\.?0+`. */
  lemma {:induction false} NotDotZeros(t: string, m: nat)
    requires m < |t| && t[m] != '0' && (m > 0 || t[m] != '.')
    ensures !DotZeros(t)
  {
    if m > 0 {
      assert t[1..][m - 1] == t[m];
    }
  }

  lemma {:induction false} FirstMatchIs(s: string, i: nat, k: nat)
    requires i <= k <= |s|
    requires forall j :: i <= j < k ==> !DotZeros(s[j..])
    requires k == |s| || DotZeros(s[k..])
    ensures FirstMatch(s, i) == k
    decreases k - i
  {
    if i < k {
      FirstMatchIs(s, i + 1, k);
    }
  }

  /** Trimming only ever drops zeros from the end of the fraction, so the
      number is unchanged, and what is left is canonical: no trailing zero
      after the point and no dangling point. */
  lemma {:induction false} TrimKeepsValue(f: Fixed)
    ensures exists kept: string ::
      && |kept| <= |f.frac|
      && f.frac == kept + f.frac[|kept|..] && AllZeros(f.frac[|kept|..])
      && (|kept| == 0 || kept[|kept| - 1] != '0')
      && TrimFixed(f) == Render(Fixed(f.negative, f.whole, kept))
  {
    var kept := DropTrailingZeros(f.frac);
    assert TrimFixed(f) == Render(Fixed(f.negative, f.whole, kept));
  }

  // ---------------------------------------------------------------------
  // What reaches the rounding

  /** `isNaN(parseFloat(s))` is false: after leading white space the text
      begins with an optional sign and then `Infinity`, a digit, or a point
      followed by a digit (the longest prefix of StrDecimalLiteral that
      `parseFloat` reads is then non-empty). */
  predicate ParseFloatSucceeds(s: string) {
    var t := Naming.DropRun(s, IsSpace);
    var u := if |t| > 0 && (t[0] == '+' || t[0] == '-') then t[1..] else t;
    || StartsWith(u, "Infinity")
    || (|u| > 0 && IsDigit(u[0]))
    || (|u| > 1 && u[0] == '.' && IsDigit(u[1]))
  }

  predicate IsNumberChar(c: char) {
    IsDigit(c) || c == '.'
  }

  /** The end of the run of digits and points that starts at `i`. */
  function NumberRunEnd(s: string, i: nat): (k: nat)
    requires i <= |s|
    ensures i <= k <= |s|
    ensures forall j :: i <= j < k ==> IsNumberChar(s[j])
    ensures k == |s| || !IsNumberChar(s[k])
    decreases |s| - i
  {
    if i < |s| && IsNumberChar(s[i]) then NumberRunEnd(s, i + 1) else i
  }

  lemma {:induction false} NumberRunEndIs(s: string, i: nat, k: nat)
    requires i <= k <= |s|
    requires forall j :: i <= j < k ==> IsNumberChar(s[j])
    requires k == |s| || !IsNumberChar(s[k])
    ensures NumberRunEnd(s, i) == k
    decreases k - i
  {
    if i < k {
      NumberRunEndIs(s, i + 1, k);
    }
  }

  predicate HasLineTerminator(s: string) {
    exists j :: 0 <= j < |s| && IsLineTerminator(s[j])
  }

  /** `s.match(/^([\d.]+)(.*)$/)`: the leading run of digits and points and
      the rest of the text. There is no match when the run is empty, or when
      the rest holds a line terminator, which `.` does not cross and `$`
      does not accept without the `m` flag. */
  function UnitMatch(s: string): (r: Option<(string, string)>)
    ensures r.Some? ==>
      && r.value.0 + r.value.1 == s
      && |r.value.0| > 0 && (forall j :: 0 <= j < |r.value.0| ==> IsNumberChar(r.value.0[j]))
      && (|r.value.1| == 0 || !IsNumberChar(r.value.1[0]))
      && !HasLineTerminator(r.value.1)
    ensures r.None? <==> |s| == 0 || !IsNumberChar(s[0]) || HasLineTerminator(s[NumberRunEnd(s, 0)..])
  {
    var k := NumberRunEnd(s, 0);
    if k == 0 || HasLineTerminator(s[k..]) then None
    else
      assert s[..k] + s[k..] == s;
      Some((s[..k], s[k..]))
  }

  // ---------------------------------------------------------------------
  // `Number(String(v))` for arrays

  function DigitRun(s: string, i: nat): (k: nat)
    requires i <= |s|
    ensures i <= k <= |s|
    decreases |s| - i
  {
    if i < |s| && IsDigit(s[i]) then DigitRun(s, i + 1) else i
  }

  /** An ExponentPart, or nothing. */
  predicate OptExponent(s: string) {
    || |s| == 0
    || ((s[0] == 'e' || s[0] == 'E') &&
        var r := if |s| > 1 && (s[1] == '+' || s[1] == '-') then s[2..] else s[1..];
        |r| > 0 && AllDigits(r))
  }

  /** The whole text is a StrUnsignedDecimalLiteral. */
  predicate UnsignedDecimal(u: string) {
    if u == "Infinity" then true
    else
      var a := DigitRun(u, 0);
      if a > 0 then
        if a < |u| && u[a] == '.' then OptExponent(u[DigitRun(u, a + 1)..])
        else OptExponent(u[a..])
      else
        |u| > 1 && u[0] == '.' && DigitRun(u, 1) > 1 && OptExponent(u[DigitRun(u, 1)..])
  }

  predicate IsHexDigit(c: char) {
    IsDigit(c) || ('a' <= c <= 'f') || ('A' <= c <= 'F')
  }

  /** A `0x`, `0o` or `0b` integer literal, which takes no sign. */
  predicate NonDecimalInteger(t: string) {
    && |t| > 2 && t[0] == '0'
    && (|| ((t[1] == 'x' || t[1] == 'X') && forall i :: 2 <= i < |t| ==> IsHexDigit(t[i]))
        || ((t[1] == 'o' || t[1] == 'O') && forall i :: 2 <= i < |t| ==> '0' <= t[i] <= '7')
        || ((t[1] == 'b' || t[1] == 'B') && forall i :: 2 <= i < |t| ==> t[i] == '0' || t[i] == '1'))
  }

  /** The whole text is a StrNumericLiteral. */
  predicate NumericLiteral(t: string) {
    || NonDecimalInteger(t)
    || UnsignedDecimal(if |t| > 0 && (t[0] == '+' || t[0] == '-') then t[1..] else t)
  }

  /** The text without white space at its end. */
  function TrimEnd(s: string): (r: string)
    ensures |r| <= |s| && r == s[..|r|]
  {
    if |s| > 0 && IsSpace(s[|s| - 1]) then TrimEnd(s[..|s| - 1]) else s
  }

  /** `isNaN(Number(s))`: after trimming, the text is neither empty (which
      converts to 0) nor a numeric literal. */
  predicate StringToNumberIsNaN(s: string) {
    var t := TrimEnd(Naming.DropRun(s, IsSpace));
    |t| > 0 && !NumericLiteral(t)
  }

  // ---------------------------------------------------------------------
  // formatNumberValue

  /** `formatNumberValue(value, decimals)`, with `fix(t)` standing for
      `parseFloat(t).toFixed(decimals)`. `None` is the `TypeError` the converter
      throws when a value that is not NaN reaches `.toFixed` without being a
      number or a string: `true`, `false`, `null`, and arrays such as `[]` or
      `[5]`. */
  function FormatNumberValue(v: Json, fix: string -> FixedText): (r: Option<string>)
    ensures v.JStr? ==> r.Some?
    ensures v.JStr? && !ParseFloatSucceeds(v.s) ==> r == Some(v.s)
    ensures v.JStr? && ParseFloatSucceeds(v.s) && UnitMatch(v.s).Some? ==>
      r == Some(TrimFixed(fix(UnitMatch(v.s).value.0)) + UnitMatch(v.s).value.1)
    ensures v.JStr? && ParseFloatSucceeds(v.s) && UnitMatch(v.s).None? ==> r == Some(TrimFixed(fix(v.s)))
    ensures v.JNum? ==> r == Some(TrimFixed(fix(v.text)))
    ensures v.JNull? || v.JBool? ==> r.None?
    ensures v.JObj? ==> r == Some("[object Object]")
    ensures v.JArr? ==> (r.Some? <==> StringToNumberIsNaN(ToString(v))) && (r.Some? ==> r.value == ToString(v))
  {
    match v
    case JStr(s) =>
      if !ParseFloatSucceeds(s) then Some(s)
      else
        (match UnitMatch(s)
         case Some(m) => Some(TrimFixed(fix(m.0)) + m.1)
         case None => Some(TrimFixed(fix(s))))
    case JNum(t) => Some(TrimFixed(fix(t)))
    case JObj(_) => Some("[object Object]")
    case JArr(_) =>
      var text := ToString(v);
      if StringToNumberIsNaN(text) then Some(text) else None
    case _ => None
  }

  /** A text that matches the unit pattern also reads as a number, so the
      unit branch is the one taken for it. */
  lemma {:induction false} UnitMatchParses(s: string)
    requires UnitMatch(s).Some? && !(s[0] == '.' && (|s| == 1 || !IsDigit(s[1])))
    ensures ParseFloatSucceeds(s)
  {
    assert !IsSpace(s[0]);
    assert Naming.DropRun(s, IsSpace) == s;
  }

  /** The unit suffix survives formatting verbatim, after a canonical
      number: the output ends with exactly what followed the digits. */
  lemma {:induction false} FormatKeepsUnit(s: string, fix: string -> FixedText)
    requires ParseFloatSucceeds(s) && UnitMatch(s).Some?
    ensures var m := UnitMatch(s).value;
      FormatNumberValue(JStr(s), fix) == Some(TrimFixed(fix(m.0)) + m.1)
      && EndsWith(FormatNumberValue(JStr(s), fix).value, m.1)
  {
    var m := UnitMatch(s).value;
    var out := TrimFixed(fix(m.0)) + m.1;
    assert out[|out| - |m.1|..] == m.1;
  }

  /** `formatNumberValue` exactly as written: what `toFixed` prints is
      trimmed by `.replace(/\.?0+$/, '')`. It fails and passes values
      through exactly where FormatNumberValue does; only the trim differs. */
  function FormatNumberValueAsWritten(v: Json, fix: string -> FixedText): (r: Option<string>)
    ensures r.Some? <==> FormatNumberValue(v, fix).Some?
    ensures v.JStr? && !ParseFloatSucceeds(v.s) ==> r == Some(v.s)
    ensures !v.JStr? && !v.JNum? ==> r == FormatNumberValue(v, fix)
    ensures v.JStr? && ParseFloatSucceeds(v.s) && UnitMatch(v.s).Some? ==>
      r == Some(TrimRegex(Render(fix(UnitMatch(v.s).value.0))) + UnitMatch(v.s).value.1)
    ensures v.JStr? && ParseFloatSucceeds(v.s) && UnitMatch(v.s).None? ==> r == Some(TrimRegex(Render(fix(v.s))))
    ensures v.JNum? ==> r == Some(TrimRegex(Render(fix(v.text))))
  {
    match v
    case JStr(s) =>
      if !ParseFloatSucceeds(s) then Some(s)
      else
        (match UnitMatch(s)
         case Some(m) => Some(TrimRegex(Render(fix(m.0))) + m.1)
         case None => Some(TrimRegex(Render(fix(s)))))
    case JNum(t) => Some(TrimRegex(Render(fix(t))))
    case JObj(_) => Some("[object Object]")
    case JArr(_) =>
      var text := ToString(v);
      if StringToNumberIsNaN(text) then Some(text) else None
    case _ => None
  }

  /** With one decimal or more, the code as written computes exactly the
      intended result, for every value. */
  lemma {:induction false} AsWrittenAgrees(v: Json, fix: string -> FixedText)
    requires forall t :: |fix(t).frac| > 0
    ensures FormatNumberValueAsWritten(v, fix) == FormatNumberValue(v, fix)
  {
    match v
    case JStr(s) =>
      if ParseFloatSucceeds(s) {
        match UnitMatch(s)
        case Some(m) => TrimRegexAgrees(fix(m.0));
        case None => TrimRegexAgrees(fix(s));
      }
    case JNum(t) => TrimRegexAgrees(fix(t));
    case _ =>
  }

  /** With no decimals, a number whose rounded digits end in 0 comes out
      shorter as written than intended: the zeros of the integer are eaten. */
  lemma {:induction false} AsWrittenEatsIntegerZeros(t: string, fix: string -> FixedText)
    requires fix(t).frac == "" && fix(t).whole[|fix(t).whole| - 1] == '0'
    ensures FormatNumberValue(JNum(t), fix) == Some(Render(fix(t)))
    ensures |FormatNumberValueAsWritten(JNum(t), fix).value| < |FormatNumberValue(JNum(t), fix).value|
  {
    IntegerZerosEaten(fix(t));
  }

  /** A signed value does not match the unit pattern, so it is rounded as a
      whole and its unit is dropped: `-4px` comes out as `-4`. */
  lemma {:induction false} SignedUnitDropped(s: string, fix: string -> FixedText)
    requires s == "-4px"
    requires fix(s) == Fixed(true, "4", "0000")
    ensures FormatNumberValue(JStr(s), fix) == Some("-4")
  {
    assert !IsSpace(s[0]) && !IsNumberChar(s[0]);
    assert Naming.DropRun(s, IsSpace) == s;
    assert s[1..] == "4px" && IsDigit(s[1..][0]);
    assert ParseFloatSucceeds(s);
    assert UnitMatch(s).None?;
    assert DropTrailingZeros("0000") == "";
    assert TrimFixed(fix(s)) == "-4";
  }

  /** `100` with no decimals: `1` as written, `100` as intended. */
  lemma {:induction false} AsWrittenHundred(fix: string -> FixedText)
    requires fix("100") == Fixed(false, "100", "")
    ensures FormatNumberValueAsWritten(JNum("100"), fix) == Some("1")
    ensures FormatNumberValue(JNum("100"), fix) == Some("100")
  {
    IntegerZerosExample("100");
  }

  // ---------------------------------------------------------------------
  // Examples

  /** Colours and references are not numbers and pass through unchanged. */
  lemma {:induction false} PassThroughExamples(fix: string -> FixedText)
    ensures FormatNumberValue(JStr("#CCCCCC"), fix) == Some("#CCCCCC")
    ensures FormatNumberValue(JStr("{Color.Gray.100}"), fix) == Some("{Color.Gray.100}")
  {
    ColourPassesThrough(fix);
    ReferencePassesThrough(fix);
  }

  lemma {:induction false} ColourPassesThrough(fix: string -> FixedText)
    ensures FormatNumberValue(JStr("#CCCCCC"), fix) == Some("#CCCCCC")
  {
    assert Naming.DropRun("#CCCCCC", IsSpace) == "#CCCCCC";
  }

  lemma {:induction false} ReferencePassesThrough(fix: string -> FixedText)
    ensures FormatNumberValue(JStr("{Color.Gray.100}"), fix) == Some("{Color.Gray.100}")
  {
    assert Naming.DropRun("{Color.Gray.100}", IsSpace) == "{Color.Gray.100}";
  }

  /** The digits before trailing zeros are what the trim keeps. */
  lemma {:induction false} DropZerosAfter(kept: string, zeros: string)
    requires AllZeros(zeros) && (|kept| == 0 || kept[|kept| - 1] != '0')
    ensures DropTrailingZeros(kept + zeros) == kept
    decreases |zeros|
  {
    if |zeros| > 0 {
      var s := kept + zeros;
      assert s[..|s| - 1] == kept + zeros[..|zeros| - 1];
      DropZerosAfter(kept, zeros[..|zeros| - 1]);
    } else {
      assert kept + zeros == kept;
    }
  }

  lemma {:induction false} FormatWithRun(s: string, k: nat, fix: string -> FixedText)
    requires |s| > 0 && IsDigit(s[0])
    requires 0 < k <= |s| && (forall j :: 0 <= j < k ==> IsNumberChar(s[j]))
    requires k == |s| || !IsNumberChar(s[k])
    requires forall j :: k <= j < |s| ==> !IsLineTerminator(s[j])
    ensures FormatNumberValue(JStr(s), fix) == Some(TrimFixed(fix(s[..k])) + s[k..])
  {
    assert Naming.DropRun(s, IsSpace) == s;
    NumberRunEndIs(s, 0, k);
    assert !HasLineTerminator(s[k..]) by {
      forall j | 0 <= j < |s[k..]|
        ensures !IsLineTerminator(s[k..][j])
      {
        assert s[k..][j] == s[k + j];
      }
    }
  }

  /** With four decimals `10.00000px` loses its zeros and keeps its unit. */
  lemma {:induction false} UnitExample(s: string, fix: string -> FixedText)
    requires s == "10.00000px"
    requires fix("10.00000") == Fixed(false, "10", "0000")
    ensures FormatNumberValue(JStr(s), fix) == Some("10px")
  {
    UnitExampleFacts(s, fix);
    FormatWithRun(s, 8, fix);
  }

  lemma {:induction false} UnitExampleFacts(s: string, fix: string -> FixedText)
    requires s == "10.00000px"
    requires fix("10.00000") == Fixed(false, "10", "0000")
    ensures IsDigit(s[0])
    ensures forall j :: 0 <= j < 8 ==> IsNumberChar(s[j])
    ensures !IsNumberChar(s[8])
    ensures forall j :: 8 <= j < |s| ==> !IsLineTerminator(s[j])
    ensures TrimFixed(fix(s[..8])) + s[8..] == "10px"
  {
    UnitTrim(s, fix);
  }

  lemma {:induction false} UnitTrim(s: string, fix: string -> FixedText)
    requires s == "10.00000px"
    requires fix("10.00000") == Fixed(false, "10", "0000")
    ensures TrimFixed(fix(s[..8])) + s[8..] == "10px"
  {
    assert s[..8] == "10.00000" && s[8..] == "px";
    DropZerosAfter("", "0000");
    assert "" + "0000" == "0000";
  }

  /** With four decimals `0.5` keeps its one significant digit. */
  lemma {:induction false} FractionExample(s: string, fix: string -> FixedText)
    requires s == "0.5"
    requires fix("0.5") == Fixed(false, "0", "5000")
    ensures FormatNumberValue(JStr(s), fix) == Some("0.5")
  {
    FractionExampleFacts(s, fix);
    FormatWithRun(s, 3, fix);
  }

  lemma {:induction false} FractionExampleFacts(s: string, fix: string -> FixedText)
    requires s == "0.5"
    requires fix("0.5") == Fixed(false, "0", "5000")
    ensures IsDigit(s[0])
    ensures forall j :: 0 <= j < 3 ==> IsNumberChar(s[j])
    ensures TrimFixed(fix(s[..3])) + s[3..] == "0.5"
  {
    assert s[..3] == s && s[3..] == "";
    DropZerosAfter("5", "000");
    assert "5" + "000" == "5000";
  }

  // ---------------------------------------------------------------------
  // As written with no decimals

  /** A match starting at `m` bounds the leftmost match. */
  lemma {:induction false} FirstMatchAtMost(s: string, i: nat, m: nat)
    requires i <= m < |s| && DotZeros(s[m..])
    ensures FirstMatch(s, i) <= m
    decreases m - i
  {
    if i < m && !DotZeros(s[i..]) {
      FirstMatchAtMost(s, i + 1, m);
    }
  }

  /** With `decimals` of 0 `toFixed` prints no point, and the regular
      expression then eats the zeros of the integer itself: any whole number
      ending in 0 comes out shorter than the intended trim, which leaves it
      untouched. */
  lemma {:induction false} IntegerZerosEaten(f: Fixed)
    requires WellFormed(f) && f.frac == "" && f.whole[|f.whole| - 1] == '0'
    ensures TrimFixed(f) == Render(f)
    ensures |TrimRegex(Render(f))| < |TrimFixed(f)|
  {
    var s := Render(f);
    assert s[|s| - 1] == '0';
    assert DotZeros(s[|s| - 1..]);
    FirstMatchAtMost(s, 0, |s| - 1);
  }

  /** `100` rounded to no decimals prints as `1`. */
  lemma {:induction false} IntegerZerosExample(s: string)
    requires s == "100"
    ensures Render(Fixed(false, s, "")) == s
    ensures TrimRegex(s) == "1"
    ensures TrimFixed(Fixed(false, s, "")) == s
  {
    assert !DotZeros(s[0..]) by { NotDotZeros(s[0..], 0); }
    assert DotZeros(s[1..]) by { assert s[1..] == "00"; }
    FirstMatchIs(s, 0, 1);
    assert s[..1] == "1";
  }
}

=== FILE: objectkeys.dfy ===
/** `transformObjectKeys(obj, options)`: a copy of a JSON tree with every
    object key run through `transformKey`, except token metadata keys
    (those beginning with `$`), which are kept as they are. */
module ObjectKeys {
  import opened Strings
  import opened Json
  import opened Wrappers
  import OrderedMaps
  import Naming

  /** `options.separator || '-'`: an empty separator falls back to `-`. */
  function KeySeparator(sep: string): string {
    if sep == "" then "-" else sep
  }

  /** The key a field is copied under. */
  function NewKey(key: string, sep: string, lowercase: bool): string {
    if IsMetaKey(key) then key else Naming.TransformKey(key, KeySeparator(sep), lowercase)
  }

  /** Primitives and falsy values come back as they are, arrays item by
      item, objects key by key in enumeration order. Two keys that transform
      alike collapse into one, the later value winning in the earlier
      position, as repeated assignments to a JavaScript object do. */
  function TransformObjectKeys(j: Json, sep: string, lowercase: bool): (r: Json)
    ensures !Truthy(j) || !IsObjectLike(j) ==> r == j
    ensures j.JArr? ==> r.JArr? && |r.items| == |j.items|
    ensures j.JObj? ==> r.JObj? && OrderedMaps.Distinct(r.fields) && |r.fields| <= |j.fields|
    decreases j, 2
  {
    if !Truthy(j) || !IsObjectLike(j) then j
    else if j.JArr? then JArr(TransformItems(j, 0, sep, lowercase))
    else JObj(TransformFields(j, 0, [], sep, lowercase))
  }

  function TransformItems(j: Json, i: nat, sep: string, lowercase: bool): (r: seq<Json>)
    requires j.JArr? && i <= |j.items|
    ensures |r| == |j.items| - i
    ensures forall k :: 0 <= k < |r| ==> r[k] == TransformObjectKeys(j.items[i + k], sep, lowercase)
    decreases j, 1, |j.items| - i
  {
    if i == |j.items| then []
    else [TransformObjectKeys(j.items[i], sep, lowercase)] + TransformItems(j, i + 1, sep, lowercase)
  }

  /** The `for (const key in obj)` loop from the i-th key on, assigning into
      `acc`. */
  function TransformFields(j: Json, i: nat, acc: OrderedMaps.OMap<Json>, sep: string, lowercase: bool): (r: OrderedMaps.OMap<Json>)
    requires j.JObj? && i <= |j.fields|
    ensures OrderedMaps.Distinct(acc) ==> OrderedMaps.Distinct(r)
    ensures |r| <= |acc| + |j.fields| - i
    decreases j, 1, |j.fields| - i
  {
    if i == |j.fields| then acc
    else
      var acc' := OrderedMaps.Put(acc, NewKey(j.fields[i].0, sep, lowercase), TransformObjectKeys(j.fields[i].1, sep, lowercase));
      OrderedMaps.PutShape(acc, NewKey(j.fields[i].0, sep, lowercase), TransformObjectKeys(j.fields[i].1, sep, lowercase));
      TransformFields(j, i + 1, acc', sep, lowercase)
  }

  // ---------------------------------------------------------------------
  // Idempotence

  predicate FixedEntry(e: (string, Json), sep: string, lowercase: bool) {
    NewKey(e.0, sep, lowercase) == e.0 && TransformObjectKeys(e.1, sep, lowercase) == e.1
  }

  predicate AllFixed(m: OrderedMaps.OMap<Json>, sep: string, lowercase: bool) {
    forall i :: 0 <= i < |m| ==> FixedEntry(m[i], sep, lowercase)
  }

  lemma {:induction false} NewKeyIdempotent(key: string, sep: string, lowercase: bool)
    requires NoSpace(KeySeparator(sep))
    ensures NewKey(NewKey(key, sep, lowercase), sep, lowercase) == NewKey(key, sep, lowercase)
  {
    if !IsMetaKey(key) {
      Naming.TransformKeyIdempotent(key, KeySeparator(sep), lowercase);
    }
  }

  /** Transforming an already transformed tree changes nothing, as long as
      the separator holds no white space. */
  lemma {:induction false} ObjectKeysIdempotent(j: Json, sep: string, lowercase: bool)
    requires NoSpace(KeySeparator(sep))
    ensures TransformObjectKeys(TransformObjectKeys(j, sep, lowercase), sep, lowercase) == TransformObjectKeys(j, sep, lowercase)
    decreases j, 2
  {
    if !Truthy(j) || !IsObjectLike(j) {
    } else if j.JArr? {
      var ys := TransformItems(j, 0, sep, lowercase);
      forall k | 0 <= k < |ys|
        ensures TransformObjectKeys(ys[k], sep, lowercase) == ys[k]
      {
        ObjectKeysIdempotent(j.items[k], sep, lowercase);
      }
      var zs := TransformItems(JArr(ys), 0, sep, lowercase);
      assert zs == ys;
    } else {
      var g := TransformFields(j, 0, [], sep, lowercase);
      FieldsFixedAfter(j, 0, [], sep, lowercase);
      assert g[..0] == [];
      FieldsUnchanged(g, 0, sep, lowercase);
    }
  }

  /** Every field the loop writes is already in transformed form. */
  lemma {:induction false} FieldsFixedAfter(j: Json, i: nat, acc: OrderedMaps.OMap<Json>, sep: string, lowercase: bool)
    requires NoSpace(KeySeparator(sep))
    requires j.JObj? && i <= |j.fields|
    requires AllFixed(acc, sep, lowercase)
    ensures AllFixed(TransformFields(j, i, acc, sep, lowercase), sep, lowercase)
    decreases j, 1, |j.fields| - i
  {
    if i < |j.fields| {
      var k := NewKey(j.fields[i].0, sep, lowercase);
      var v := TransformObjectKeys(j.fields[i].1, sep, lowercase);
      NewKeyIdempotent(j.fields[i].0, sep, lowercase);
      ObjectKeysIdempotent(j.fields[i].1, sep, lowercase);
      PutFixed(acc, k, v, sep, lowercase);
      FieldsFixedAfter(j, i + 1, OrderedMaps.Put(acc, k, v), sep, lowercase);
    }
  }

  lemma {:induction false} PutFixed(acc: OrderedMaps.OMap<Json>, k: string, v: Json, sep: string, lowercase: bool)
    requires AllFixed(acc, sep, lowercase) && FixedEntry((k, v), sep, lowercase)
    ensures AllFixed(OrderedMaps.Put(acc, k, v), sep, lowercase)
  {
    var acc' := OrderedMaps.Put(acc, k, v);
    OrderedMaps.PutEntries(acc, k, v);
    forall x | 0 <= x < |acc'|
      ensures FixedEntry(acc'[x], sep, lowercase)
    {
      if acc'[x] != (k, v) {
        var y :| 0 <= y < |acc| && acc[y] == acc'[x];
      }
    }
  }

  /** Over fields already in transformed form, the loop rebuilds them one
      for one. */
  lemma {:induction false} FieldsUnchanged(g: OrderedMaps.OMap<Json>, i: nat, sep: string, lowercase: bool)
    requires i <= |g| && OrderedMaps.Distinct(g) && AllFixed(g, sep, lowercase)
    ensures TransformFields(JObj(g), i, g[..i], sep, lowercase) == g
    decreases |g| - i
  {
    if i == |g| {
      assert g[..i] == g;
    } else {
      assert FixedEntry(g[i], sep, lowercase);
      FixedStep(g, i, sep, lowercase);
      FieldsUnchanged(g, i + 1, sep, lowercase);
    }
  }

  /** A field already in transformed form, with a key the earlier fields
      lack, is appended as it is. */
  lemma {:induction false} FixedStep(g: OrderedMaps.OMap<Json>, i: nat, sep: string, lowercase: bool)
    requires i < |g| && OrderedMaps.Distinct(g) && FixedEntry(g[i], sep, lowercase)
    ensures TransformFields(JObj(g), i, g[..i], sep, lowercase) == TransformFields(JObj(g), i + 1, g[..i + 1], sep, lowercase)
  {
    FieldsUnfold(JObj(g), i, g[..i], sep, lowercase);
    PrefixLacksNext(g, i);
    PutNext(g, i);
  }

  /** One turn of the loop over the fields. */
  lemma {:induction false} FieldsUnfold(j: Json, i: nat, acc: OrderedMaps.OMap<Json>, sep: string, lowercase: bool)
    requires j.JObj? && i < |j.fields|
    ensures TransformFields(j, i, acc, sep, lowercase)
         == TransformFields(j, i + 1, OrderedMaps.Put(acc, NewKey(j.fields[i].0, sep, lowercase), TransformObjectKeys(j.fields[i].1, sep, lowercase)), sep, lowercase)
  {
  }

  /** Putting the i-th field, whose key the ones before it lack, after
      them extends them by that field. */
  lemma {:induction false} PutNext(g: OrderedMaps.OMap<Json>, i: nat)
    requires i < |g| && !OrderedMaps.HasKey(g[..i], g[i].0)
    ensures OrderedMaps.Put(g[..i], g[i].0, g[i].1) == g[..i + 1]
  {
    TakeOneMore(g, i);
    OrderedMaps.PutShape(g[..i], g[i].0, g[i].1);
    assert (g[i].0, g[i].1) == g[i];
  }

  /** A prefix one longer is the prefix followed by the next element. */
  lemma {:induction false} TakeOneMore<T>(s: seq<T>, i: nat)
    requires i < |s|
    ensures s[..i] + [s[i]] == s[..i + 1]
  {
  }

  /** With distinct keys, the fields before the i-th do not hold its key. */
  lemma {:induction false} PrefixLacksNext(g: OrderedMaps.OMap<Json>, i: nat)
    requires i < |g| && OrderedMaps.Distinct(g)
    ensures !OrderedMaps.HasKey(g[..i], g[i].0)
  {
    forall y | 0 <= y < i
      ensures g[..i][y].0 != g[i].0
    {
      assert g[..i][y] == g[y];
    }
  }

  // ---------------------------------------------------------------------
  // Which keys are written, and with what

  /** The key each field is copied under, in field order. */
  function RenamedKeys(j: Json, sep: string, lowercase: bool): (ks: seq<string>)
    requires j.JObj?
    ensures |ks| == |j.fields|
    ensures forall i :: 0 <= i < |ks| ==> ks[i] == NewKey(j.fields[i].0, sep, lowercase)
  {
    seq(|j.fields|, i requires 0 <= i < |j.fields| => NewKey(j.fields[i].0, sep, lowercase))
  }

  /** The position of the last of the first `n` keys equal to `k`. */
  function LastIndex(keys: seq<string>, k: string, n: nat): (r: Option<nat>)
    requires n <= |keys|
    ensures r.Some? ==> r.value < n && keys[r.value] == k
    ensures r.Some? ==> forall m :: r.value < m < n ==> keys[m] != k
    ensures r.None? <==> forall m :: 0 <= m < n ==> keys[m] != k
    decreases n
  {
    if n == 0 then None
    else if keys[n - 1] == k then Some(n - 1)
    else LastIndex(keys, k, n - 1)
  }

  /** What the loop has stored under `k` once the first `n` fields are
      copied: the transformed value of the last of them renamed to `k`. */
  function StoredUnder(j: Json, k: string, sep: string, lowercase: bool, n: nat): Option<Json>
    requires j.JObj? && n <= |j.fields|
  {
    match LastIndex(RenamedKeys(j, sep, lowercase), k, n)
    case None => None
    case Some(m) => Some(TransformObjectKeys(j.fields[m].1, sep, lowercase))
  }

  /** Copying one more field stores its value under its new key and
      nothing else. */
  lemma {:induction false} StoredUnderStep(j: Json, k: string, sep: string, lowercase: bool, i: nat)
    requires j.JObj? && i < |j.fields|
    ensures StoredUnder(j, k, sep, lowercase, i + 1) ==
      if NewKey(j.fields[i].0, sep, lowercase) == k then Some(TransformObjectKeys(j.fields[i].1, sep, lowercase))
      else StoredUnder(j, k, sep, lowercase, i)
  {
  }

  lemma {:induction false} FieldsGet(j: Json, i: nat, acc: OrderedMaps.OMap<Json>, k: string, sep: string, lowercase: bool)
    requires j.JObj? && i <= |j.fields|
    requires OrderedMaps.Get(acc, k) == StoredUnder(j, k, sep, lowercase, i)
    ensures OrderedMaps.Get(TransformFields(j, i, acc, sep, lowercase), k) == StoredUnder(j, k, sep, lowercase, |j.fields|)
    decreases |j.fields| - i
  {
    if i < |j.fields| {
      var acc' := OrderedMaps.Put(acc, NewKey(j.fields[i].0, sep, lowercase), TransformObjectKeys(j.fields[i].1, sep, lowercase));
      StoredUnderStep(j, k, sep, lowercase, i);
      FieldsUnfold(j, i, acc, sep, lowercase);
      FieldsGet(j, i + 1, acc', k, sep, lowercase);
    }
  }

  /** The i-th field renames to `k`, and no later field does. */
  predicate LastToRename(j: Json, i: nat, k: string, sep: string, lowercase: bool)
    requires j.JObj? && i < |j.fields|
  {
    NewKey(j.fields[i].0, sep, lowercase) == k && forall m :: i < m < |j.fields| ==> NewKey(j.fields[m].0, sep, lowercase) != k
  }

  /** An object comes back with exactly the renamed keys of its fields, and
      each key holds the transformed value of the last field renamed to it:
      a later field overwrites an earlier one that renames alike. */
  lemma {:induction false} ObjectKeysRenamed(j: Json, sep: string, lowercase: bool, k: string)
    requires j.JObj?
    ensures OrderedMaps.HasKey(TransformObjectKeys(j, sep, lowercase).fields, k) <==>
      exists i :: 0 <= i < |j.fields| && NewKey(j.fields[i].0, sep, lowercase) == k
    ensures forall i :: 0 <= i < |j.fields| && LastToRename(j, i, k, sep, lowercase) ==>
      OrderedMaps.Get(TransformObjectKeys(j, sep, lowercase).fields, k) == Some(TransformObjectKeys(j.fields[i].1, sep, lowercase))
  {
    var r := TransformObjectKeys(j, sep, lowercase).fields;
    assert r == TransformFields(j, 0, [], sep, lowercase);
    FieldsGet(j, 0, [], k, sep, lowercase);
    forall i | 0 <= i < |j.fields| && LastToRename(j, i, k, sep, lowercase)
      ensures OrderedMaps.Get(r, k) == Some(TransformObjectKeys(j.fields[i].1, sep, lowercase))
    {
      LastIndexIs(RenamedKeys(j, sep, lowercase), k, |j.fields|, i);
    }
  }

  lemma {:induction false} LastIndexIs(keys: seq<string>, k: string, n: nat, i: nat)
    requires i < n <= |keys| && keys[i] == k
    requires forall m :: i < m < n ==> keys[m] != k
    ensures LastIndex(keys, k, n) == Some(i)
  {
  }

  /** No two fields of the object rename to the same key. */
  predicate RenamesApart(j: Json, sep: string, lowercase: bool)
    requires j.JObj?
  {
    forall a, b :: 0 <= a < b < |j.fields| ==> NewKey(j.fields[a].0, sep, lowercase) != NewKey(j.fields[b].0, sep, lowercase)
  }

  /** The i-th field, renamed and with its value transformed. */
  function RenamedField(j: Json, i: nat, sep: string, lowercase: bool): (string, Json)
    requires j.JObj? && i < |j.fields|
  {
    (NewKey(j.fields[i].0, sep, lowercase), TransformObjectKeys(j.fields[i].1, sep, lowercase))
  }

  /** `acc` holds the first `i` fields, renamed and transformed, in order. */
  predicate RenamedUpTo(j: Json, acc: OrderedMaps.OMap<Json>, i: nat, sep: string, lowercase: bool)
    requires j.JObj? && i <= |j.fields|
  {
    |acc| == i && forall x :: 0 <= x < i ==> acc[x] == RenamedField(j, x, sep, lowercase)
  }

  /** When no two keys rename alike, the object comes back field for field
      in the same order, each key renamed and each value transformed. */
  lemma {:induction false} ObjectKeysInOrder(j: Json, sep: string, lowercase: bool)
    requires j.JObj? && RenamesApart(j, sep, lowercase)
    ensures |TransformObjectKeys(j, sep, lowercase).fields| == |j.fields|
    ensures forall i :: 0 <= i < |j.fields| ==> TransformObjectKeys(j, sep, lowercase).fields[i] == RenamedField(j, i, sep, lowercase)
  {
    FieldsInOrder(j, 0, [], sep, lowercase);
  }

  lemma {:induction false} FieldsInOrder(j: Json, i: nat, acc: OrderedMaps.OMap<Json>, sep: string, lowercase: bool)
    requires j.JObj? && RenamesApart(j, sep, lowercase) && i <= |j.fields|
    requires RenamedUpTo(j, acc, i, sep, lowercase)
    ensures RenamedUpTo(j, TransformFields(j, i, acc, sep, lowercase), |j.fields|, sep, lowercase)
    decreases |j.fields| - i
  {
    if i < |j.fields| {
      var e := RenamedField(j, i, sep, lowercase);
      ApartLacks(j, acc, i, sep, lowercase);
      OrderedMaps.PutShape(acc, e.0, e.1);
      FieldsUnfold(j, i, acc, sep, lowercase);
      RenamedStep(j, acc, i, sep, lowercase);
      FieldsInOrder(j, i + 1, acc + [e], sep, lowercase);
    }
  }

  /** The fields copied so far do not hold the next field's new key. */
  lemma {:induction false} ApartLacks(j: Json, acc: OrderedMaps.OMap<Json>, i: nat, sep: string, lowercase: bool)
    requires j.JObj? && RenamesApart(j, sep, lowercase) && i < |j.fields|
    requires RenamedUpTo(j, acc, i, sep, lowercase)
    ensures !OrderedMaps.HasKey(acc, NewKey(j.fields[i].0, sep, lowercase))
  {
    forall y | 0 <= y < i
      ensures acc[y].0 != NewKey(j.fields[i].0, sep, lowercase)
    {
      assert acc[y] == RenamedField(j, y, sep, lowercase);
    }
  }

  lemma {:induction false} RenamedStep(j: Json, acc: OrderedMaps.OMap<Json>, i: nat, sep: string, lowercase: bool)
    requires j.JObj? && i < |j.fields|
    requires RenamedUpTo(j, acc, i, sep, lowercase)
    ensures RenamedUpTo(j, acc + [RenamedField(j, i, sep, lowercase)], i + 1, sep, lowercase)
  {
  }
}

=== FILE: ordered_maps.dfy ===
/** String-keyed dictionaries with insertion order: a plain JavaScript
    object used as a record (`o[k] = v`, `delete o[k]`, `k in o`) and a
    `Map<string, V>`. Both enumerate their keys in insertion order, and an
    assignment to a present key keeps its position. */
module OrderedMaps {
  import opened Wrappers

  type OMap<V> = seq<(string, V)>

  /** No key is listed twice, which every map built with `Put` satisfies. */
  predicate Distinct<V>(m: OMap<V>) {
    forall a, b :: 0 <= a < b < |m| ==> m[a].0 != m[b].0
  }

  predicate HasKey<V>(m: OMap<V>, k: string) {
    exists i :: 0 <= i < |m| && m[i].0 == k
  }

  /** `o[k]`: the value stored under the key, if any. */
  function Get<V>(m: OMap<V>, k: string): (r: Option<V>)
    ensures r.Some? <==> HasKey(m, k)
    ensures r.Some? ==> exists i :: 0 <= i < |m| && m[i] == (k, r.value)
  {
    if |m| == 0 then None
    else if m[0].0 == k then Some(m[0].1)
    else
      var r := Get(m[1..], k);
      assert r.Some? ==> exists i :: 0 <= i < |m[1..]| && m[1..][i] == (k, r.value);
      assert HasKey(m[1..], k) ==> HasKey(m, k);
      assert HasKey(m, k) ==> HasKey(m[1..], k) by {
        if HasKey(m, k) {
          var i :| 0 <= i < |m| && m[i].0 == k;
          assert i > 0 && m[1..][i - 1].0 == k;
        }
      }
      r
  }

  /** `o[k] = v`: overwrites in place when the key is present, otherwise
      appends; every other key keeps its value. */
  function Put<V>(m: OMap<V>, k: string, v: V): (r: OMap<V>)
    ensures Get(r, k) == Some(v)
    ensures forall k' :: k' != k ==> Get(r, k') == Get(m, k')
    ensures Distinct(m) ==> Distinct(r)
  {
    if |m| == 0 then [(k, v)]
    else if m[0].0 == k then [(k, v)] + m[1..]
    else
      var t := Put(m[1..], k, v);
      PutDistinctStep(m, k, t);
      [m[0]] + t
  }

  lemma {:induction false} PutDistinctStep<V>(m: OMap<V>, k: string, t: OMap<V>)
    requires |m| > 0 && m[0].0 != k
    requires forall k' :: k' != k ==> Get(t, k') == Get(m[1..], k')
    requires Distinct(m[1..]) ==> Distinct(t)
    ensures Distinct(m) ==> Distinct([m[0]] + t)
  {
    if Distinct(m) {
      assert forall i :: 0 <= i < |m[1..]| ==> m[1..][i].0 != m[0].0 by {
        forall i | 0 <= i < |m[1..]|
          ensures m[1..][i].0 != m[0].0
        {
          assert m[1..][i] == m[i + 1];
        }
      }
      assert Get(t, m[0].0) == None;
      assert Distinct(m[1..]);
    }
  }

  /** Assigning to a present key keeps the length; to an absent one appends. */
  lemma {:induction false} PutShape<V>(m: OMap<V>, k: string, v: V)
    ensures HasKey(m, k) ==> |Put(m, k, v)| == |m|
    ensures !HasKey(m, k) ==> Put(m, k, v) == m + [(k, v)]
  {
    if |m| == 0 {
    } else if m[0].0 == k {
      assert HasKey(m, k) by {
        assert 0 <= 0 < |m| && m[0].0 == k;
      }
    } else {
      PutShape(m[1..], k, v);
      HasKeyTail(m, k);
      assert Put(m, k, v) == [m[0]] + Put(m[1..], k, v);
      if !HasKey(m, k) {
        ConsAppend(m, (k, v));
      }
    }
  }

  lemma {:induction false} ConsAppend<T>(m: seq<T>, x: T)
    requires |m| > 0
    ensures [m[0]] + (m[1..] + [x]) == m + [x]
  {
  }

  /** A key the first entry does not hold is in the map exactly when it is
      in the rest. */
  lemma {:induction false} HasKeyTail<V>(m: OMap<V>, k: string)
    requires |m| > 0 && m[0].0 != k
    ensures HasKey(m, k) <==> HasKey(m[1..], k)
  {
    if HasKey(m, k) {
      var i :| 0 <= i < |m| && m[i].0 == k;
      assert m[1..][i - 1] == m[i];
    }
    if HasKey(m[1..], k) {
      var i :| 0 <= i < |m[1..]| && m[1..][i].0 == k;
      assert m[i + 1] == m[1..][i];
    }
  }

  /** Every entry after an assignment is the assigned one or was there
      before. */
  lemma {:induction false} PutEntries<V>(m: OMap<V>, k: string, v: V)
    ensures forall i :: 0 <= i < |Put(m, k, v)| ==> Put(m, k, v)[i] == (k, v) || Put(m, k, v)[i] in m
  {
    var r := Put(m, k, v);
    if |m| > 0 {
      if m[0].0 == k {
        forall i | 0 <= i < |r|
          ensures r[i] == (k, v) || r[i] in m
        {
          if i > 0 {
            assert r[i] == m[i];
          }
        }
      } else {
        PutEntries(m[1..], k, v);
        var t := Put(m[1..], k, v);
        forall i | 0 <= i < |r|
          ensures r[i] == (k, v) || r[i] in m
        {
          if i > 0 {
            assert r[i] == t[i - 1];
            if t[i - 1] in m[1..] {
              var x :| 0 <= x < |m[1..]| && m[1..][x] == t[i - 1];
              assert m[x + 1] == r[i];
            }
          }
        }
      }
    }
  }

  /** `keys.forEach(k => o[k] = v)`: every listed key ends up holding the
      value and every other key keeps its own. */
  function PutAll<V>(m: OMap<V>, keys: seq<string>, v: V): (r: OMap<V>)
    ensures forall k :: k in keys ==> Get(r, k) == Some(v)
    ensures forall k :: k !in keys ==> Get(r, k) == Get(m, k)
    ensures Distinct(m) ==> Distinct(r)
    decreases |keys|
  {
    if |keys| == 0 then m
    else PutAll(Put(m, keys[0], v), keys[1..], v)
  }

  /** `delete o[k]`: the key is gone and every other key keeps its value. */
  function Remove<V>(m: OMap<V>, k: string): (r: OMap<V>)
    ensures Get(r, k) == None
    ensures forall k' :: k' != k ==> Get(r, k') == Get(m, k')
    ensures |r| <= |m|
    ensures Distinct(m) ==> Distinct(r)
    ensures forall i :: 0 <= i < |r| ==> r[i] in m
  {
    if |m| == 0 then []
    else
      var t := Remove(m[1..], k);
      assert forall i :: 0 <= i < |m[1..]| ==> m[1..][i] in m;
      if m[0].0 == k then t
      else
        assert Distinct(m) ==> forall j :: 0 <= j < |t| ==> t[j].0 != m[0].0 by {
          if Distinct(m) {
            forall j | 0 <= j < |t|
              ensures t[j].0 != m[0].0
            {
              assert t[j] in m;
              var x :| 0 <= x < |m| && m[x] == t[j];
              assert t[j] in m[1..];
            }
          }
        }
        [m[0]] + t
  }

  /** In a map without repeated keys, each entry is what its key reads. */
  lemma {:induction false} GetDistinct<V>(m: OMap<V>, i: nat)
    requires i < |m| && Distinct(m)
    ensures Get(m, m[i].0) == Some(m[i].1)
  {
    if i > 0 {
      assert m[0].0 != m[i].0;
      assert m[1..][i - 1] == m[i];
      GetDistinct(m[1..], i - 1);
    }
  }
}

=== FILE: references.dfy ===
/** Token aliases: a value `{Color.Gray.100}` names another token by its
    dotted path (the "Aliases / References" section of the W3C Design Tokens
    Community Group format) and is rewritten into a `var(--...)` reference
    (section 3 of CSS Custom Properties for Cascading Variables Level 1). */
module References {
  import opened Strings
  import opened Wrappers
  import opened Json
  import Naming

  // ---------------------------------------------------------------------
  // extractTokenReference

  /** The pattern `\{([^}]+)\}` matches starting at `i`. The greedy class
      runs to the first `}` after the brace, which must then close the
      match; so a match exists exactly when the brace is followed by a
      character other than `}` and some `}` comes later. */
  predicate MatchesAt(s: string, i: nat) {
    i + 1 < |s| && s[i] == '{' && s[i + 1] != '}' && '}' in s[i + 2..]
  }

  /** The captured group of the match at `i`: everything up to the next `}`. */
  function CaptureAt(s: string, i: nat): (c: string)
    requires MatchesAt(s, i)
    ensures |c| > 0 && '}' !in c
    ensures i + 2 + |c| <= |s| && s[i + 1..i + 1 + |c|] == c && s[i + 1 + |c|] == '}'
  {
    var p := i + 2 + IndexOf(s[i + 2..], '}');
    assert s[i + 1..p] == [s[i + 1]] + s[i + 2..][..p - i - 2];
    s[i + 1..p]
  }

  /** The leftmost match at or after `from`. */
  function FindReference(s: string, from: nat): (r: Option<nat>)
    ensures r.Some? ==> from <= r.value < |s| && MatchesAt(s, r.value)
    ensures r.Some? ==> forall k :: from <= k < r.value ==> !MatchesAt(s, k)
    ensures r.None? ==> forall k :: from <= k < |s| ==> !MatchesAt(s, k)
    decreases |s| - from
  {
    if from >= |s| then None
    else if MatchesAt(s, from) then Some(from)
    else FindReference(s, from + 1)
  }

  /** `ref` is what the leftmost match at `i` captures. */
  predicate LeftmostReference(s: string, i: nat, ref: string) {
    && i + |ref| + 2 <= |s|
    && s[i] == '{' && s[i + 1..i + 1 + |ref|] == ref && s[i + 1 + |ref|] == '}'
    && (forall k :: 0 <= k < i ==> !MatchesAt(s, k))
  }

  /** `extractTokenReference(value)`: the inside of the first `{...}` of a
      string value, if there is one; `None` for every other value. */
  function ExtractTokenReference(v: Json): (r: Option<string>)
    ensures !v.JStr? ==> r.None?
    ensures v.JStr? ==> (r.None? <==> forall k :: 0 <= k < |v.s| ==> !MatchesAt(v.s, k))
    ensures r.Some? ==> v.JStr? && |r.value| > 0 && '}' !in r.value
    ensures r.Some? ==> exists i :: LeftmostReference(v.s, i, r.value)
  {
    if !v.JStr? then None
    else match FindReference(v.s, 0)
      case None => None
      case Some(i) =>
        var c := CaptureAt(v.s, i);
        assert LeftmostReference(v.s, i, c);
        Some(c)
  }

  /** Text before the first brace is skipped, and the alias is read up to
      its closing brace whatever follows. */
  lemma {:induction false} AliasRoundTrip(pre: string, ref: string, post: string)
    requires '{' !in pre
    requires |ref| > 0 && '}' !in ref
    ensures ExtractTokenReference(JStr(pre + "{" + ref + "}" + post)) == Some(ref)
  {
    var s := pre + "{" + ref + "}" + post;
    var n := |pre|;
    forall k | 0 <= k < n
      ensures !MatchesAt(s, k)
    {
      assert s[k] == pre[k];
    }
    BraceOpens(pre, ref, post);
    FindReferenceIs(s, 0, n);
    CaptureIs(pre, ref, post);
  }

  /** The match after `pre` captures exactly `ref`. */
  lemma {:induction false} CaptureIs(pre: string, ref: string, post: string)
    requires |ref| > 0 && '}' !in ref
    requires MatchesAt(pre + "{" + ref + "}" + post, |pre|)
    ensures CaptureAt(pre + "{" + ref + "}" + post, |pre|) == ref
  {
    var s := pre + "{" + ref + "}" + post;
    var n := |pre|;
    assert s[n + 2..] == ref[1..] + "}" + post;
    IndexOfPrefix(ref[1..], '}', post);
    assert s[n + 1..n + 1 + |ref|] == ref;
  }

  /** The brace after `pre` starts a match. */
  lemma {:induction false} BraceOpens(pre: string, ref: string, post: string)
    requires |ref| > 0 && '}' !in ref
    ensures MatchesAt(pre + "{" + ref + "}" + post, |pre|)
  {
    var s := pre + "{" + ref + "}" + post;
    var n := |pre|;
    assert s[n] == '{' && s[n + 1] == ref[0];
    assert s[n + 2..] == ref[1..] + "}" + post;
    assert s[n + 2..][|ref| - 1] == '}';
  }

  /** A match at `n` with none between `from` and `n` is the one found. */
  lemma {:induction false} FindReferenceIs(s: string, from: nat, n: nat)
    requires from <= n < |s| && MatchesAt(s, n)
    requires forall k :: from <= k < n ==> !MatchesAt(s, k)
    ensures FindReference(s, from) == Some(n)
  {
    var r := FindReference(s, from);
    assert r.Some?;
    assert !(r.value < n);
    assert !(n < r.value);
  }

  // ---------------------------------------------------------------------
  // transformTokenReference

  /** The options after defaults: an absent `sourcePrefix` is `--`. */
  datatype RefOptions = RefOptions(
    separator: string,
    pathSeparator: string,
    spaceSeparator: string,
    lowercase: bool,
    sourcePrefix: string,
    useSourcePrefix: bool)

  /** A custom source prefix is used only when enabled and not the bare `--`. */
  predicate SourcePrefixApplies(ro: RefOptions) {
    ro.useSourcePrefix && ro.sourcePrefix != "--"
  }

  /** One path segment of a reference: white-space runs replaced, then
      lower-cased when asked. */
  function RefSegment(part: string, ro: RefOptions): string {
    Naming.Case(Naming.ReplaceSpaceRuns(part, ro.spaceSeparator), ro.lowercase)
  }

  /** The segments rewritten and joined with the path separator. */
  function ReferencePath(reference: string, ro: RefOptions): string {
    Join(Map(Split(reference, '.'), p => RefSegment(p, ro)), ro.pathSeparator)
  }

  /** The `--` marker, or the marked source prefix followed by the
      separator unless it already ends with it. */
  function ReferencePrefix(ro: RefOptions): (p: string)
    ensures StartsWith(p, "--")
  {
    if SourcePrefixApplies(ro) then
      var p := Naming.MarkedPrefix(ro.sourcePrefix);
      assert (p + Naming.PrefixJoint(p, ro.separator))[..2] == p[..2];
      p + Naming.PrefixJoint(p, ro.separator)
    else "--"
  }

  /** `transformTokenReference(reference, options)`: split on `.`, rewrite
      each segment, join with the path separator, and wrap in `var(...)`
      behind the `--` marker or the configured prefix. */
  function TransformTokenReference(reference: string, ro: RefOptions): (r: string)
    ensures StartsWith(r, "var(--") && EndsWith(r, ")")
  {
    var prefix := ReferencePrefix(ro);
    var variablePath := ReferencePath(reference, ro);
    assert StartsWith("var(" + prefix + variablePath + ")", "var(--") by {
      assert ("var(" + prefix + variablePath + ")")[..6] == "var(" + prefix[..2];
    }
    "var(" + prefix + variablePath + ")"
  }

  /** A reference to a token's full path becomes a `var()` of exactly the
      name that token is declared under, provided the names are built alike:
      the whole path (depth 99 or more), no custom format, the same path
      separator and case, the same prefix decision, and segments holding
      neither `.` nor white space. */
  lemma {:induction false} ReferenceMatchesDeclaration(path: seq<string>, ro: RefOptions, no: Naming.NameOptions)
    requires |path| >= 1
    requires forall k :: 0 <= k < |path| ==> '.' !in path[k] && NoSpace(path[k])
    requires |no.customFormat| == 0 && no.depth >= 99
    requires ro.pathSeparator == no.separator && ro.lowercase == no.lowercase
    requires ro.lowercase ==> NoUpper(ro.pathSeparator)
    requires SourcePrefixApplies(ro) <==> Naming.PrefixApplies(no)
    requires SourcePrefixApplies(ro) ==> ro.sourcePrefix == no.prefix && ro.separator == no.separator
    ensures TransformTokenReference(Join(path, "."), ro) == "var(" + Naming.TransformTokenName(path, no) + ")"
  {
    var body := Naming.Case(Join(path, no.separator), no.lowercase);
    ReferencePathOfJoin(path, ro);
    var pre := DeclarationSplit(path, no);
    PrefixAgrees(ro, no, pre);
    assert TransformTokenReference(Join(path, "."), ro) == "var(" + pre + body + ")";
    Assoc("var(", pre, body, ")");
  }

  lemma {:induction false} Assoc(a: string, b: string, c: string, d: string)
    ensures a + b + c + d == a + (b + c) + d
  {
  }

  /** With the same prefix decision, prefix and separator, the reference
      and the declaration put the same text before the body. */
  lemma {:induction false} PrefixAgrees(ro: RefOptions, no: Naming.NameOptions, pre: string)
    requires SourcePrefixApplies(ro) <==> Naming.PrefixApplies(no)
    requires SourcePrefixApplies(ro) ==> ro.sourcePrefix == no.prefix && ro.separator == no.separator
    requires pre == (if Naming.PrefixApplies(no) then
        Naming.MarkedPrefix(no.prefix) + Naming.PrefixJoint(Naming.MarkedPrefix(no.prefix), no.separator)
      else "--")
    ensures ReferencePrefix(ro) == pre
  {
  }

  /** The declared name, split into its prefix part and its body. */
  lemma {:induction false} DeclarationSplit(path: seq<string>, no: Naming.NameOptions) returns (pre: string)
    requires |no.customFormat| == 0 && no.depth >= 99
    ensures pre == (if Naming.PrefixApplies(no) then
        Naming.MarkedPrefix(no.prefix) + Naming.PrefixJoint(Naming.MarkedPrefix(no.prefix), no.separator)
      else "--")
    ensures Naming.TransformTokenName(path, no) == pre + Naming.Case(Join(path, no.separator), no.lowercase)
  {
    assert Naming.SelectPath(path, no.depth) == path;
    pre := if Naming.PrefixApplies(no) then
        Naming.MarkedPrefix(no.prefix) + Naming.PrefixJoint(Naming.MarkedPrefix(no.prefix), no.separator)
      else "--";
  }

  /** Splitting the joined path gives the segments back, and each segment is
      left as it is apart from case. */
  lemma {:induction false} ReferencePathOfJoin(path: seq<string>, ro: RefOptions)
    requires |path| >= 1
    requires forall k :: 0 <= k < |path| ==> '.' !in path[k] && NoSpace(path[k])
    requires ro.lowercase ==> NoUpper(ro.pathSeparator)
    ensures ReferencePath(Join(path, "."), ro) == Naming.Case(Join(path, ro.pathSeparator), ro.lowercase)
  {
    JoinSplit(path, '.');
    assert Split(Join(path, "."), '.') == path by {
      assert "." == ['.'];
    }
    var transformed := Map(path, p => RefSegment(p, ro));
    forall k | 0 <= k < |path|
      ensures transformed[k] == Naming.Case(path[k], ro.lowercase)
    {
      Naming.ReplaceNoRun(path[k], ro.spaceSeparator, IsSpace);
    }
    if ro.lowercase {
      LowerJoin(path, ro.pathSeparator);
      LowerOfNoUpper(ro.pathSeparator);
      assert transformed == Map(path, Lower);
    } else {
      assert transformed == path;
    }
  }

  /** `{Color.Gray.100}` holds the alias `Color.Gray.100`. */
  lemma {:induction false} AliasExample(value: string, ref: string)
    requires value == "{Color.Gray.100}" && ref == "Color.Gray.100"
    ensures ExtractTokenReference(JStr(value)) == Some(ref)
  {
    assert value == "" + "{" + ref + "}" + "";
    AliasRoundTrip("", ref, "");
  }

  /** With the defaults, `Color.Gray.100` becomes a `var()` of the name the
      token at that path is declared under ... */
  lemma {:induction false} ReferenceExample(ref: string, path: seq<string>, ro: RefOptions, no: Naming.NameOptions)
    requires ref == "Color.Gray.100" && path == ["Color", "Gray", "100"]
    requires ro == RefOptions("-", "-", "-", true, "--", false)
    requires no == Naming.NameOptions("-", true, [], "--", false, 99)
    ensures TransformTokenReference(ref, ro) == "var(" + Naming.TransformTokenName(path, no) + ")"
  {
    JoinExampleFact(path, ref, ".");
    SegmentFact(path[0]);
    SegmentFact(path[1]);
    SegmentFact(path[2]);
    ReferenceMatchesDeclaration(path, ro, no);
  }

  /** ... which is `--color-gray-100`. */
  lemma {:induction false} DeclaredNameExample(path: seq<string>, no: Naming.NameOptions)
    requires path == ["Color", "Gray", "100"]
    requires no == Naming.NameOptions("-", true, [], "--", false, 99)
    ensures Naming.TransformTokenName(path, no) == "--color-gray-100"
  {
    Naming.TokenNameOfSuffix(path, no);
    assert path[|path| - |path|..] == path;
    JoinExampleFact(path, "Color-Gray-100", "-");
    LowerExample("Color-Gray-100", "color-gray-100");
  }

  lemma {:induction false} LowerExample(s: string, t: string)
    requires s == "Color-Gray-100" && t == "color-gray-100"
    ensures Lower(s) == t
  {
  }

  lemma {:induction false} JoinExampleFact(path: seq<string>, joined: string, sep: string)
    requires path == ["Color", "Gray", "100"] && joined == "Color" + sep + "Gray" + sep + "100"
    ensures Join(path, sep) == joined
  {
    assert path[1..][1..] == ["100"];
    assert Join(path[1..], sep) == "Gray" + sep + "100";
  }

  /** Letters and digits are neither dots nor white space. */
  lemma {:induction false} SegmentFact(s: string)
    requires forall i :: 0 <= i < |s| ==> IsDigit(s[i]) || IsUpper(s[i]) || 'a' <= s[i] <= 'z'
    ensures '.' !in s && NoSpace(s)
  {
  }

  // ---------------------------------------------------------------------
  // The class generator's own rewrite

  /** The value rewrite of the class-rule generator: a string that starts
      with `{` and ends with `}` becomes `var(--` + its inside with `.`
      replaced by `-`, lower-cased, + `)`. Only a value that is wholly one
      alias is rewritten. */
  function ClassValueRewrite(v: Json): (r: Json)
    ensures !(v.JStr? && StartsWith(v.s, "{") && EndsWith(v.s, "}")) ==> r == v
    ensures v.JStr? && StartsWith(v.s, "{") && EndsWith(v.s, "}") ==>
      r.JStr? && |r.s| >= 7 && StartsWith(r.s, "var(--") && EndsWith(r.s, ")") && NoUpper(r.s[6..|r.s| - 1])
  {
    if v.JStr? && StartsWith(v.s, "{") && EndsWith(v.s, "}") then
      assert |v.s| >= 2 by {
        assert v.s[0] == v.s[..1][0] == '{';
        assert v.s[|v.s| - 1] == v.s[|v.s| - 1..][0] == '}';
      }
      var inner := v.s[1..|v.s| - 1];
      var body := Lower(Join(Split(inner, '.'), "-"));
      LowerNoUpper(Join(Split(inner, '.'), "-"));
      var t := "var(--" + body + ")";
      assert t[6..|t| - 1] == body;
      assert t[..6] == "var(--";
      JStr(t)
    else v
  }

  /** For a value that is one alias of a path without white space or dots,
      the class generator's rewrite and `transformTokenReference` with `-`
      as path separator, lower-casing and no source prefix agree. */
  lemma {:induction false} ClassRewriteAgrees(path: seq<string>, ro: RefOptions)
    requires |path| >= 1
    requires forall k :: 0 <= k < |path| ==> '.' !in path[k] && '}' !in path[k] && NoSpace(path[k])
    requires |path[0]| > 0
    requires ro.pathSeparator == "-" && ro.lowercase && !SourcePrefixApplies(ro)
    ensures var v := JStr("{" + Join(path, ".") + "}");
      ExtractTokenReference(v).Some?
      && ClassValueRewrite(v) == JStr(TransformTokenReference(ExtractTokenReference(v).value, ro))
  {
    var no := Naming.NameOptions("-", true, [], "--", false, 99);
    AliasOfPath(path);
    ClassValueOfPath(path);
    ReferenceMatchesDeclaration(path, ro, no);
    var pre := DeclarationSplit(path, no);
    ComposeRewrites(path, ro, no, Lower(Join(path, "-")));
  }

  /** The alias of a path of plain segments reads back as the joined path. */
  lemma {:induction false} AliasOfPath(path: seq<string>)
    requires |path| >= 1 && |path[0]| > 0
    requires forall k :: 0 <= k < |path| ==> '}' !in path[k]
    ensures ExtractTokenReference(JStr("{" + Join(path, ".") + "}")) == Some(Join(path, "."))
  {
    var ref := Join(path, ".");
    JoinNoChar(path, ".", '}');
    JoinStartsWithFirst(path, ".");
    assert "{" + ref + "}" == "" + "{" + ref + "}" + "";
    AliasRoundTrip("", ref, "");
  }

  /** The class rewrite of the alias of a path without dots in its segments. */
  lemma {:induction false} ClassValueOfPath(path: seq<string>)
    requires |path| >= 1
    requires forall k :: 0 <= k < |path| ==> '.' !in path[k]
    ensures ClassValueRewrite(JStr("{" + Join(path, ".") + "}")) == JStr("var(--" + Lower(Join(path, "-")) + ")")
  {
    var ref := Join(path, ".");
    ClassValueOfAlias(ref);
    JoinSplit(path, '.');
    assert Split(ref, '.') == path by {
      assert "." == ['.'];
    }
  }

  lemma {:induction false} ComposeRewrites(path: seq<string>, ro: RefOptions, no: Naming.NameOptions, body: string)
    requires var v := JStr("{" + Join(path, ".") + "}");
      && ExtractTokenReference(v) == Some(Join(path, "."))
      && ClassValueRewrite(v) == JStr("var(--" + body + ")")
      && TransformTokenReference(Join(path, "."), ro) == "var(" + Naming.TransformTokenName(path, no) + ")"
      && Naming.TransformTokenName(path, no) == "--" + body
    ensures var v := JStr("{" + Join(path, ".") + "}");
      ExtractTokenReference(v).Some?
      && ClassValueRewrite(v) == JStr(TransformTokenReference(ExtractTokenReference(v).value, ro))
  {
    VarWrap(body);
  }

  lemma {:induction false} VarWrap(body: string)
    ensures "var(--" + body + ")" == "var(" + ("--" + body) + ")"
  {
    assert "var(--" == "var(" + "--";
  }

  /** The class rewrite of a value that is one brace-wrapped text. */
  lemma {:induction false} ClassValueOfAlias(ref: string)
    ensures ClassValueRewrite(JStr("{" + ref + "}")) == JStr("var(--" + Lower(Join(Split(ref, '.'), "-")) + ")")
  {
    var s := "{" + ref + "}";
    assert s[1..|s| - 1] == ref;
    assert s[..1] == "{" && s[|s| - 1..] == "}";
  }

  /** A character absent from every part and the separator is absent from
      the joined text. */
  lemma {:induction false} JoinNoChar(parts: seq<string>, sep: string, c: char)
    requires c !in sep
    requires forall k :: 0 <= k < |parts| ==> c !in parts[k]
    ensures c !in Join(parts, sep)
    decreases |parts|
  {
    if |parts| >= 2 {
      JoinNoChar(parts[1..], sep, c);
    }
  }

  lemma {:induction false} JoinStartsWithFirst(parts: seq<string>, sep: string)
    requires |parts| >= 1
    ensures |Join(parts, sep)| >= |parts[0]|
  {
  }
}

=== FILE: strings.dfy ===
/** String helpers shared by every stage of the converter: the JavaScript
    whitespace class, ASCII lower-casing, `Array.prototype.join`,
    `String.prototype.split` on one character, prefix/suffix/substring tests
    and decimal rendering of integers. */
module Strings {

  /** The characters matched by `\s` in a JavaScript regular expression
      (ECMAScript WhiteSpace and LineTerminator). */
  predicate IsSpace(c: char) {
    || c == ' ' || c == '\t' || c == '\n' || c == '\U{000B}' || c == '\U{000C}' || c == '\r'
    || c == '\U{00A0}' || c == '\U{1680}' || ('\U{2000}' <= c <= '\U{200A}')
    || c == '\U{2028}' || c == '\U{2029}' || c == '\U{202F}' || c == '\U{205F}'
    || c == '\U{3000}' || c == '\U{FEFF}'
  }

  /** The characters a JavaScript `.` does not match without the `s` flag. */
  predicate IsLineTerminator(c: char) {
    c == '\n' || c == '\r' || c == '\U{2028}' || c == '\U{2029}'
  }

  predicate NoSpace(s: string) {
    forall i :: 0 <= i < |s| ==> !IsSpace(s[i])
  }

  predicate IsUpper(c: char) {
    'A' <= c <= 'Z'
  }

  function LowerChar(c: char): char {
    if IsUpper(c) then (c as int + 32) as char else c
  }

  /** `toLowerCase`, restricted to the ASCII letters. */
  function Lower(s: string): string {
    seq(|s|, i requires 0 <= i < |s| => LowerChar(s[i]))
  }

  predicate NoUpper(s: string) {
    forall i :: 0 <= i < |s| ==> !IsUpper(s[i])
  }

  predicate IsDigit(c: char) {
    '0' <= c <= '9'
  }

  predicate AllDigits(s: string) {
    forall i :: 0 <= i < |s| ==> IsDigit(s[i])
  }

  function StartsWith(s: string, p: string): bool {
    |p| <= |s| && s[..|p|] == p
  }

  function EndsWith(s: string, p: string): bool {
    |p| <= |s| && s[|s| - |p|..] == p
  }

  /** `String.prototype.includes`. */
  function Contains(s: string, sub: string): bool {
    StartsWith(s, sub) || (|s| > 0 && Contains(s[1..], sub))
  }

  /** `Array.prototype.join` over strings. */
  function Join(parts: seq<string>, sep: string): string {
    if |parts| == 0 then ""
    else if |parts| == 1 then parts[0]
    else parts[0] + sep + Join(parts[1..], sep)
  }

  /** `String.prototype.split` with a one-character separator: every
      occurrence cuts, so the result is never empty. */
  function Split(s: string, d: char): (parts: seq<string>)
    ensures |parts| >= 1
    ensures forall k :: 0 <= k < |parts| ==> d !in parts[k]
  {
    if d !in s then [s]
    else
      var i := IndexOf(s, d);
      [s[..i]] + Split(s[i + 1..], d)
  }

  function IndexOf(s: string, d: char): (i: nat)
    requires d in s
    ensures i < |s| && s[i] == d && d !in s[..i]
  {
    if s[0] == d then 0 else 1 + IndexOf(s[1..], d)
  }

  function Map(xs: seq<string>, f: string -> string): (ys: seq<string>)
    ensures |ys| == |xs|
    ensures forall k :: 0 <= k < |xs| ==> ys[k] == f(xs[k])
  {
    seq(|xs|, k requires 0 <= k < |xs| => f(xs[k]))
  }

  function DigitChar(d: nat): char
    requires d < 10
  {
    ('0' as int + d) as char
  }

  /** `String(n)` for a non-negative integer. */
  function NatToString(n: nat): (s: string)
    ensures |s| >= 1 && AllDigits(s)
    ensures (|s| == 1) == (n < 10)
  {
    if n < 10 then [DigitChar(n)] else NatToString(n / 10) + [DigitChar(n % 10)]
  }

  /** `String(n)` for an integer. */
  function IntToString(n: int): string {
    if n < 0 then "-" + NatToString(-n) else NatToString(n)
  }

  // ---------------------------------------------------------------------
  // Lemmas

  /** Splitting on a character and joining with it gives the text back. */
  lemma {:induction false} SplitJoin(s: string, d: char)
    ensures Join(Split(s, d), [d]) == s
    decreases |s|
  {
    if d in s {
      var i := IndexOf(s, d);
      var rest := s[i + 1..];
      SplitJoin(rest, d);
      var ps := Split(rest, d);
      assert Split(s, d) == [s[..i]] + ps;
      assert ([s[..i]] + ps)[1..] == ps;
      assert s == s[..i] + [d] + rest;
    }
  }

  /** Joining parts that hold no separator character and splitting again
      gives the parts back. */
  lemma {:induction false} JoinSplit(parts: seq<string>, d: char)
    requires |parts| >= 1
    requires forall k :: 0 <= k < |parts| ==> d !in parts[k]
    ensures Split(Join(parts, [d]), d) == parts
    decreases |parts|
  {
    if |parts| > 1 {
      var tail := Join(parts[1..], [d]);
      assert Join(parts, [d]) == parts[0] + [d] + tail;
      SplitAtFirst(parts[0], d, tail);
      JoinSplit(parts[1..], d);
      assert parts == [parts[0]] + parts[1..];
    }
  }

  /** Splitting cuts at the first separator. */
  lemma {:induction false} SplitAtFirst(a: string, d: char, b: string)
    requires d !in a
    ensures Split(a + [d] + b, d) == [a] + Split(b, d)
  {
    var s := a + [d] + b;
    IndexOfPrefix(a, d, b);
    assert s[..|a|] == a;
    assert s[|a| + 1..] == b;
  }

  lemma {:induction false} IndexOfPrefix(a: string, d: char, b: string)
    requires d !in a
    ensures d in a + [d] + b && IndexOf(a + [d] + b, d) == |a|
  {
    var s := a + [d] + b;
    assert s[|a|] == d;
    assert s[..|a|] == a;
  }

  lemma {:induction false} StartsWithConcat(a: string, b: string)
    ensures StartsWith(a + b, a)
  {
    assert (a + b)[..|a|] == a;
  }

  lemma {:induction false} LowerConcat(a: string, b: string)
    ensures Lower(a + b) == Lower(a) + Lower(b)
  {
  }

  lemma {:induction false} LowerIdempotent(s: string)
    ensures Lower(Lower(s)) == Lower(s)
  {
  }

  lemma {:induction false} LowerNoUpper(s: string)
    ensures NoUpper(Lower(s))
  {
  }

  lemma {:induction false} LowerOfNoUpper(s: string)
    requires NoUpper(s)
    ensures Lower(s) == s
  {
  }

  /** Lower-casing a joined path lower-cases every part and the separator. */
  lemma {:induction false} LowerJoin(parts: seq<string>, sep: string)
    ensures Lower(Join(parts, sep)) == Join(Map(parts, Lower), Lower(sep))
    decreases |parts|
  {
    if |parts| >= 2 {
      LowerJoin(parts[1..], sep);
      assert Map(parts, Lower)[1..] == Map(parts[1..], Lower);
      LowerConcat(parts[0] + sep, Join(parts[1..], sep));
      LowerConcat(parts[0], sep);
    }
  }

  /** `String(n)` is injective on the naturals, so array index keys name
      distinct elements. */
  lemma {:induction false} NatToStringInjective(a: nat, b: nat)
    requires NatToString(a) == NatToString(b)
    ensures a == b
    decreases a
  {
    var sa, sb := NatToString(a), NatToString(b);
    if a < 10 || b < 10 {
      assert a < 10 && b < 10;
      assert sa[0] == DigitChar(a) && sb[0] == DigitChar(b);
    } else {
      var pa, pb := NatToString(a / 10), NatToString(b / 10);
      assert sa == pa + [DigitChar(a % 10)];
      assert sb == pb + [DigitChar(b % 10)];
      assert |pa| == |pb|;
      assert sa[..|pa|] == pa && sb[..|pb|] == pb;
      NatToStringInjective(a / 10, b / 10);
      assert sa[|pa|] == DigitChar(a % 10) && sb[|pb|] == DigitChar(b % 10);
    }
  }
}

=== FILE: tokens.dfy ===
/** `extractTokenProperties`: the flat list of design tokens in a token
    document, in document order. A design token is an object carrying a
    truthy `$type` and a truthy `$value` (the "Design token" section of the
    W3C Design Tokens Community Group format); keys beginning with `$` are
    metadata and are never walked into. */
module Tokens {
  import opened Strings
  import opened Wrappers
  import opened Json
  import Naming

  /** One extracted token. `path` holds the keys from the document root
      (transformed or not), `fullPath` the same keys joined by `.`. */
  datatype TokenRecord = TokenRecord(
    path: seq<string>,
    fullPath: string,
    tokenType: Json,
    value: Json,
    description: Option<Json>,
    extensions: Option<Json>,
    hasCodeSyntax: bool,
    codeSyntaxValues: Option<Json>)

  /** The options after their defaults are applied: an empty
      `keySpaceSeparator` falls back to `-`; `lowercase` and `transformKeys`
      default to true when absent. The `separator` option is accepted but
      never read, so it is not modelled. */
  datatype ExtractOptions = ExtractOptions(keySpaceSeparator: string, lowercase: bool, transformKeys: bool)

  function KeySeparator(o: ExtractOptions): string {
    if o.keySpaceSeparator == "" then "-" else o.keySpaceSeparator
  }

  /** The path segment a key contributes. */
  function ProcessKey(k: string, o: ExtractOptions): string {
    if o.transformKeys then Naming.TransformKey(k, KeySeparator(o), o.lowercase) else k
  }

  /** `obj.$type && obj.$value`. */
  predicate IsToken(j: Json) {
    TruthyOpt(Get(j, "$type")) && TruthyOpt(Get(j, "$value"))
  }

  /** `obj.$extensions?.['com.figma']?.codeSyntax`. */
  function CodeSyntax(j: Json): Option<Json> {
    match Get(j, "$extensions")
    case None => None
    case Some(e) =>
      match Get(e, "com.figma")
      case None => None
      case Some(f) => Get(f, "codeSyntax")
  }

  /** The record pushed for a token node reached by `path`. */
  function MakeRecord(j: Json, path: seq<string>): (r: TokenRecord)
    requires IsToken(j)
    ensures r.path == path && r.fullPath == Join(path, ".")
    ensures Truthy(r.tokenType) && Truthy(r.value)
    ensures r.hasCodeSyntax <==> TruthyOpt(CodeSyntax(j)) && KeyCount(CodeSyntax(j).value) > 0
    ensures r.codeSyntaxValues.Some? <==> r.hasCodeSyntax
  {
    var cs := CodeSyntax(j);
    var has := TruthyOpt(cs) && KeyCount(cs.value) > 0;
    TokenRecord(
      path, Join(path, "."),
      Get(j, "$type").value, Get(j, "$value").value,
      Get(j, "$description"), Get(j, "$extensions"),
      has, if has then cs else None)
  }

  /** The recursive `extract(obj, path)`: a token node yields its record and
      is not walked further; any other object or array is walked key by
      key; primitives yield nothing. */
  function Extract(j: Json, path: seq<string>, o: ExtractOptions): seq<TokenRecord>
    decreases j, 1
  {
    if !IsObjectLike(j) then []
    else if IsToken(j) then [MakeRecord(j, path)]
    else ExtractEntries(j, 0, path, o)
  }

  /** `Object.keys(obj).forEach(...)` from the i-th key on. */
  function ExtractEntries(j: Json, i: nat, path: seq<string>, o: ExtractOptions): seq<TokenRecord>
    decreases j, 0, EntryCount(j) - i
  {
    if i >= EntryCount(j) then []
    else
      var k := EntryKey(j, i);
      var rest := ExtractEntries(j, i + 1, path, o);
      if IsMetaKey(k) then rest
      else Extract(EntryValue(j, i), path + [ProcessKey(k, o)], o) + rest
  }

  /** `extractTokenProperties(data, options)` once `propertyInfo` is left
      out of the record (see `ExtractAsWritten`). */
  function ExtractTokenProperties(data: Json, o: ExtractOptions): seq<TokenRecord> {
    Extract(data, [], o)
  }

  // ---------------------------------------------------------------------
  // Which paths emit

  /** `keys` leads from `j` to a token through objects and arrays that are
      not tokens themselves, using no `$` key. */
  predicate Emits(j: Json, keys: seq<string>)
    decreases |keys|
  {
    if |keys| == 0 then IsToken(j)
    else
      && IsObjectLike(j) && !IsToken(j) && !IsMetaKey(keys[0])
      && match Child(j, keys[0])
         case None => false
         case Some(c) => Emits(c, keys[1..])
  }

  lemma {:induction false} EmitsReachesToken(j: Json, keys: seq<string>)
    requires Emits(j, keys)
    ensures Navigate(j, keys).Some? && IsToken(Navigate(j, keys).value)
    decreases |keys|
  {
    if |keys| > 0 {
      EmitsReachesToken(Child(j, keys[0]).value, keys[1..]);
    }
  }

  /** Every record with the keys left raw names a token by its path from
      the walk's start, and is exactly the record built from that token. */
  lemma {:induction false} ExtractSound(j: Json, path: seq<string>, o: ExtractOptions, r: TokenRecord)
    requires DistinctKeys(j) && !o.transformKeys
    requires r in Extract(j, path, o)
    ensures |path| <= |r.path| && r.path[..|path|] == path
    ensures Emits(j, r.path[|path|..])
    ensures Navigate(j, r.path[|path|..]).Some? && IsToken(Navigate(j, r.path[|path|..]).value)
    ensures r == MakeRecord(Navigate(j, r.path[|path|..]).value, r.path)
    decreases j, 1
  {
    if IsToken(j) {
      assert r.path[|path|..] == [];
    } else {
      EntriesSound(j, 0, path, o, r);
    }
  }

  lemma {:induction false} EntriesSound(j: Json, i: nat, path: seq<string>, o: ExtractOptions, r: TokenRecord)
    requires DistinctKeys(j) && !o.transformKeys && IsObjectLike(j) && !IsToken(j)
    requires r in ExtractEntries(j, i, path, o)
    ensures |path| <= |r.path| && r.path[..|path|] == path
    ensures Emits(j, r.path[|path|..])
    ensures Navigate(j, r.path[|path|..]).Some? && IsToken(Navigate(j, r.path[|path|..]).value)
    ensures r == MakeRecord(Navigate(j, r.path[|path|..]).value, r.path)
    decreases j, 0, EntryCount(j) - i, 1
  {
    var k := EntryKey(j, i);
    var rest := ExtractEntries(j, i + 1, path, o);
    if IsMetaKey(k) || r in rest {
      assert EntryCount(j) - (i + 1) < EntryCount(j) - i;
      EntriesSound(j, i + 1, path, o, r);
    } else {
      EntrySound(j, i, path, o, r);
    }
  }

  /** The record comes from the i-th entry itself. */
  lemma {:induction false} EntrySound(j: Json, i: nat, path: seq<string>, o: ExtractOptions, r: TokenRecord)
    requires DistinctKeys(j) && !o.transformKeys && IsObjectLike(j) && !IsToken(j)
    requires i < EntryCount(j) && !IsMetaKey(EntryKey(j, i))
    requires r in Extract(EntryValue(j, i), path + [EntryKey(j, i)], o)
    ensures |path| <= |r.path| && r.path[..|path|] == path
    ensures Emits(j, r.path[|path|..])
    ensures Navigate(j, r.path[|path|..]).Some? && IsToken(Navigate(j, r.path[|path|..]).value)
    ensures r == MakeRecord(Navigate(j, r.path[|path|..]).value, r.path)
    decreases j, 0, EntryCount(j) - i, 0
  {
    var k := EntryKey(j, i);
    var c := EntryValue(j, i);
    ChildOfEntry(j, i);
    ExtractSound(c, path + [k], o, r);
    var tail := r.path[|path| + 1..];
    assert r.path[..|path| + 1] == path + [k];
    assert r.path[|path|..] == [k] + tail;
    assert ([k] + tail)[1..] == tail;
  }

  /** Every token reachable by an emitting path is listed, under that
      path. */
  lemma {:induction false} ExtractComplete(j: Json, path: seq<string>, o: ExtractOptions, keys: seq<string>)
    requires DistinctKeys(j) && !o.transformKeys
    requires Emits(j, keys)
    ensures exists r :: r in Extract(j, path, o) && r.path == path + keys
    decreases |keys|
  {
    if |keys| == 0 {
      assert Extract(j, path, o)[0].path == path + keys;
    } else {
      var c := Child(j, keys[0]).value;
      var i := EntryOfChild(j, keys[0], c);
      ChildOfEntry(j, i);
      ExtractComplete(c, path + [keys[0]], o, keys[1..]);
      var r :| r in Extract(c, path + [keys[0]], o) && r.path == path + [keys[0]] + keys[1..];
      EntriesInclude(j, 0, i, path, o, r);
      assert path + [keys[0]] + keys[1..] == path + keys;
    }
  }

  /** The child a key reads is one of the entries `Object.keys` lists. */
  lemma {:induction false} EntryOfChild(j: Json, k: string, c: Json) returns (i: nat)
    requires Child(j, k) == Some(c)
    ensures i < EntryCount(j) && EntryKey(j, i) == k && EntryValue(j, i) == c
  {
    if j.JObj? {
      var x :| 0 <= x < |j.fields| && j.fields[x] == (k, c);
      i := x;
    } else {
      i := IndexEntry(j.items, k, c, 0);
    }
  }

  lemma {:induction false} IndexEntry(xs: seq<Json>, k: string, c: Json, from: nat) returns (i: nat)
    requires IndexChild(xs, k, from) == Some(c)
    ensures from <= i < |xs| && NatToString(i) == k && xs[i] == c
    decreases |xs| - from
  {
    if NatToString(from) == k {
      i := from;
    } else {
      i := IndexEntry(xs, k, c, from + 1);
    }
  }

  lemma {:induction false} EntriesInclude(j: Json, from: nat, i: nat, path: seq<string>, o: ExtractOptions, r: TokenRecord)
    requires from <= i < EntryCount(j) && !IsMetaKey(EntryKey(j, i))
    requires r in Extract(EntryValue(j, i), path + [ProcessKey(EntryKey(j, i), o)], o)
    ensures r in ExtractEntries(j, from, path, o)
    decreases i - from
  {
    if from < i {
      EntriesInclude(j, from + 1, i, path, o, r);
    }
  }

  // ---------------------------------------------------------------------
  // transformKeys only renames

  function RenamePath(p: seq<string>, o: ExtractOptions): seq<string> {
    Map(p, k => ProcessKey(k, o))
  }

  /** The record with its path segments transformed. */
  function Rename(r: TokenRecord, o: ExtractOptions): TokenRecord {
    r.(path := RenamePath(r.path, o), fullPath := Join(RenamePath(r.path, o), "."))
  }

  function RenameAll(rs: seq<TokenRecord>, o: ExtractOptions): (out: seq<TokenRecord>)
    ensures |out| == |rs| && forall i :: 0 <= i < |rs| ==> out[i] == Rename(rs[i], o)
  {
    seq(|rs|, i requires 0 <= i < |rs| => Rename(rs[i], o))
  }

  /** Transforming keys yields the same records in the same order as the
      raw walk, each with every path segment transformed: the option
      changes names only, never which tokens are found. */
  lemma {:induction false} ExtractRenames(j: Json, path: seq<string>, o: ExtractOptions)
    ensures Extract(j, RenamePath(path, o), o) == RenameAll(Extract(j, path, o.(transformKeys := false)), o)
    decreases j, 1
  {
    if IsObjectLike(j) && !IsToken(j) {
      EntriesRename(j, 0, path, o);
    }
  }

  lemma {:induction false} EntriesRename(j: Json, i: nat, path: seq<string>, o: ExtractOptions)
    ensures ExtractEntries(j, i, RenamePath(path, o), o)
         == RenameAll(ExtractEntries(j, i, path, o.(transformKeys := false)), o)
    decreases j, 0, EntryCount(j) - i
  {
    var raw := o.(transformKeys := false);
    if i < EntryCount(j) {
      var k := EntryKey(j, i);
      EntriesRename(j, i + 1, path, o);
      if !IsMetaKey(k) {
        var c := EntryValue(j, i);
        ExtractRenames(c, path + [k], o);
        RenamePathSnoc(path, k, o);
        RenameAllConcat(Extract(c, path + [k], raw), ExtractEntries(j, i + 1, path, raw), o);
      }
    }
  }

  lemma {:induction false} RenamePathSnoc(path: seq<string>, k: string, o: ExtractOptions)
    ensures RenamePath(path + [k], o) == RenamePath(path, o) + [ProcessKey(k, o)]
  {
  }

  lemma {:induction false} RenameAllConcat(a: seq<TokenRecord>, b: seq<TokenRecord>, o: ExtractOptions)
    ensures RenameAll(a + b, o) == RenameAll(a, o) + RenameAll(b, o)
  {
  }

  // ---------------------------------------------------------------------
  // Depth-first key order

  /** The position of a key among `Object.keys(j)`. */
  function KeyIndex(j: Json, k: string): (i: nat)
    ensures i <= EntryCount(j)
  {
    KeyIndexFrom(j, k, 0)
  }

  function KeyIndexFrom(j: Json, k: string, from: nat): (i: nat)
    ensures from <= EntryCount(j) ==> from <= i <= EntryCount(j)
    decreases EntryCount(j) - from
  {
    if from >= EntryCount(j) then from
    else if EntryKey(j, from) == k then from
    else KeyIndexFrom(j, k, from + 1)
  }

  /** The length of the longest common prefix of two paths. */
  function FirstDiff(p: seq<string>, q: seq<string>): (m: nat)
    ensures m <= |p| && m <= |q| && p[..m] == q[..m]
    ensures m < |p| && m < |q| ==> p[m] != q[m]
  {
    if |p| == 0 || |q| == 0 || p[0] != q[0] then 0
    else
      var m := FirstDiff(p[1..], q[1..]);
      assert p[..m + 1] == [p[0]] + p[1..][..m];
      assert q[..m + 1] == [q[0]] + q[1..][..m];
      m + 1
  }

  /** Relative path `p` comes before `q` in depth-first key order: where
      they first part, `p`'s key is listed earlier by the node there. */
  predicate Before(j: Json, p: seq<string>, q: seq<string>) {
    var m := FirstDiff(p, q);
    && m < |p| && m < |q|
    && Navigate(j, p[..m]).Some?
    && KeyIndex(Navigate(j, p[..m]).value, p[m]) < KeyIndex(Navigate(j, p[..m]).value, q[m])
  }

  /** Record `ra` precedes record `rb` below `path` in depth-first key order. */
  predicate InOrder(j: Json, path: seq<string>, ra: TokenRecord, rb: TokenRecord) {
    |path| <= |ra.path| && |path| <= |rb.path| && Before(j, ra.path[|path|..], rb.path[|path|..])
  }

  /** Records come out in depth-first key order. */
  lemma {:induction false} ExtractOrdered(j: Json, path: seq<string>, o: ExtractOptions, a: nat, b: nat)
    requires DistinctKeys(j) && !o.transformKeys
    requires a < b < |Extract(j, path, o)|
    ensures InOrder(j, path, Extract(j, path, o)[a], Extract(j, path, o)[b])
    decreases j, 2
  {
    EntriesOrdered(j, 0, path, o, a, b);
  }

  lemma {:induction false} EntriesOrdered(j: Json, i: nat, path: seq<string>, o: ExtractOptions, a: nat, b: nat)
    requires DistinctKeys(j) && !o.transformKeys && IsObjectLike(j) && !IsToken(j)
    requires a < b < |ExtractEntries(j, i, path, o)|
    ensures InOrder(j, path, ExtractEntries(j, i, path, o)[a], ExtractEntries(j, i, path, o)[b])
    decreases j, 1, EntryCount(j) - i, 2
  {
    if IsMetaKey(EntryKey(j, i)) {
      EntriesOrdered(j, i + 1, path, o, a, b);
    } else {
      var n := |Extract(EntryValue(j, i), path + [EntryKey(j, i)], o)|;
      if b < n {
        FirstEntryOrdered(j, i, path, o, a, b);
      } else if a >= n {
        LaterEntriesOrdered(j, i, path, o, a, b);
      } else {
        SplitEntriesOrdered(j, i, path, o, a, b);
      }
    }
  }

  /** Both records come from the first entry. */
  lemma {:induction false} FirstEntryOrdered(j: Json, i: nat, path: seq<string>, o: ExtractOptions, a: nat, b: nat)
    requires DistinctKeys(j) && !o.transformKeys && i < EntryCount(j) && !IsMetaKey(EntryKey(j, i))
    requires a < b < |Extract(EntryValue(j, i), path + [EntryKey(j, i)], o)|
    ensures b < |ExtractEntries(j, i, path, o)|
    ensures InOrder(j, path, ExtractEntries(j, i, path, o)[a], ExtractEntries(j, i, path, o)[b])
    decreases j, 0, 1
  {
    EntriesUnfold(j, i, path, o);
    WithinEntryOrdered(j, i, path, o, a, b);
  }

  /** Both records come from later entries. */
  lemma {:induction false} LaterEntriesOrdered(j: Json, i: nat, path: seq<string>, o: ExtractOptions, a: nat, b: nat)
    requires DistinctKeys(j) && !o.transformKeys && IsObjectLike(j) && !IsToken(j)
    requires i < EntryCount(j) && !IsMetaKey(EntryKey(j, i))
    requires |Extract(EntryValue(j, i), path + [EntryKey(j, i)], o)| <= a < b < |ExtractEntries(j, i, path, o)|
    ensures InOrder(j, path, ExtractEntries(j, i, path, o)[a], ExtractEntries(j, i, path, o)[b])
    decreases j, 1, EntryCount(j) - i, 1
  {
    var out := ExtractEntries(j, i, path, o);
    var sub := Extract(EntryValue(j, i), path + [EntryKey(j, i)], o);
    var rest := ExtractEntries(j, i + 1, path, o);
    EntriesUnfold(j, i, path, o);
    var a', b' := a - |sub|, b - |sub|;
    assert out[a] == rest[a'] && out[b] == rest[b'];
    RestOrdered(j, i, path, o, a', b');
  }

  /** The entries after the i-th keep their order. */
  lemma {:induction false} RestOrdered(j: Json, i: nat, path: seq<string>, o: ExtractOptions, a: nat, b: nat)
    requires DistinctKeys(j) && !o.transformKeys && IsObjectLike(j) && !IsToken(j) && i < EntryCount(j)
    requires a < b < |ExtractEntries(j, i + 1, path, o)|
    ensures InOrder(j, path, ExtractEntries(j, i + 1, path, o)[a], ExtractEntries(j, i + 1, path, o)[b])
    decreases j, 1, EntryCount(j) - i, 0
  {
    EntriesOrdered(j, i + 1, path, o, a, b);
  }

  /** With keys kept as they are, a non-`$` entry contributes the records
      below it ahead of the later entries'. */
  lemma {:induction false} EntriesUnfold(j: Json, i: nat, path: seq<string>, o: ExtractOptions)
    requires !o.transformKeys && i < EntryCount(j) && !IsMetaKey(EntryKey(j, i))
    ensures ExtractEntries(j, i, path, o)
         == Extract(EntryValue(j, i), path + [EntryKey(j, i)], o) + ExtractEntries(j, i + 1, path, o)
  {
  }

  /** One record from the first entry, one from a later entry. */
  lemma {:induction false} SplitEntriesOrdered(j: Json, i: nat, path: seq<string>, o: ExtractOptions, a: nat, b: nat)
    requires DistinctKeys(j) && !o.transformKeys && i < EntryCount(j) && !IsMetaKey(EntryKey(j, i))
    requires a < |Extract(EntryValue(j, i), path + [EntryKey(j, i)], o)| <= b < |ExtractEntries(j, i, path, o)|
    ensures InOrder(j, path, ExtractEntries(j, i, path, o)[a], ExtractEntries(j, i, path, o)[b])
  {
    var out := ExtractEntries(j, i, path, o);
    var sub := Extract(EntryValue(j, i), path + [EntryKey(j, i)], o);
    var rest := ExtractEntries(j, i + 1, path, o);
    EntriesUnfold(j, i, path, o);
    ConcatIndex(sub, rest, a, b);
    AcrossEntriesOrdered(j, i, path, o, sub[a], rest[b - |sub|]);
  }

  /** Indexing a concatenation on either side of the seam. */
  lemma {:induction false} ConcatIndex<T>(x: seq<T>, y: seq<T>, a: nat, b: nat)
    requires a < |x| <= b < |x| + |y|
    ensures (x + y)[a] == x[a] && (x + y)[b] == y[b - |x|]
  {
  }

  lemma {:induction false} WithinEntryOrdered(j: Json, i: nat, path: seq<string>, o: ExtractOptions, a: nat, b: nat)
    requires DistinctKeys(j) && !o.transformKeys && i < EntryCount(j)
    requires a < b < |Extract(EntryValue(j, i), path + [EntryKey(j, i)], o)|
    ensures var sub := Extract(EntryValue(j, i), path + [EntryKey(j, i)], o);
      InOrder(j, path, sub[a], sub[b])
    decreases j, 0, 0
  {
    var k := EntryKey(j, i);
    var c := EntryValue(j, i);
    var sub := Extract(c, path + [k], o);
    ChildOfEntry(j, i);
    ExtractOrdered(c, path + [k], o, a, b);
    var pa := BelowEntry(c, path, k, o, sub[a]);
    var pb := BelowEntry(c, path, k, o, sub[b]);
    assert pa[1..] == sub[a].path[|path + [k]|..];
    assert pb[1..] == sub[b].path[|path + [k]|..];
    BeforeUnder(j, i, pa[1..], pb[1..]);
    assert [k] + pa[1..] == pa;
    assert [k] + pb[1..] == pb;
  }

  lemma {:induction false} AcrossEntriesOrdered(j: Json, i: nat, path: seq<string>, o: ExtractOptions, ra: TokenRecord, rb: TokenRecord)
    requires DistinctKeys(j) && !o.transformKeys && i < EntryCount(j) && !IsMetaKey(EntryKey(j, i))
    requires ra in Extract(EntryValue(j, i), path + [EntryKey(j, i)], o)
    requires rb in ExtractEntries(j, i + 1, path, o)
    ensures InOrder(j, path, ra, rb)
  {
    var k := EntryKey(j, i);
    var m := EntriesStartLater(j, i + 1, path, o, rb);
    var pa := BelowEntry(EntryValue(j, i), path, k, o, ra);
    BeforeAtRoot(j, pa, rb.path[|path|..], i, m);
  }

  /** The path of a record found under entry `k`, relative to `path`. */
  lemma {:induction false} BelowEntry(c: Json, path: seq<string>, k: string, o: ExtractOptions, r: TokenRecord) returns (p: seq<string>)
    requires r in Extract(c, path + [k], o)
    ensures |path| < |r.path| && p == r.path[|path|..] && p[0] == k
  {
    ExtractPrefix(c, path + [k], o, r);
    assert r.path[..|path| + 1] == path + [k];
    p := r.path[|path|..];
  }

  /** Paths that part at the root are ordered by their first keys. */
  lemma {:induction false} BeforeAtRoot(j: Json, pa: seq<string>, pb: seq<string>, i: nat, m: nat)
    requires DistinctKeys(j) && i < m < EntryCount(j)
    requires |pa| > 0 && |pb| > 0 && pa[0] == EntryKey(j, i) && pb[0] == EntryKey(j, m)
    ensures Before(j, pa, pb)
  {
    KeyIndexDistinct(j, i);
    KeyIndexDistinct(j, m);
    assert pa[0] != pb[0] by {
      if j.JObj? {
        assert j.fields[i].0 != j.fields[m].0;
      } else if NatToString(i) == NatToString(m) {
        NatToStringInjective(i, m);
      }
    }
    assert FirstDiff(pa, pb) == 0;
    assert pa[..0] == [];
  }

  /** Every record's path extends the path the walk started from. */
  lemma {:induction false} ExtractPrefix(j: Json, path: seq<string>, o: ExtractOptions, r: TokenRecord)
    requires r in Extract(j, path, o)
    ensures |path| <= |r.path| && r.path[..|path|] == path
    decreases j, 1
  {
    if !IsToken(j) {
      EntriesPrefix(j, 0, path, o, r);
    }
  }

  lemma {:induction false} EntriesPrefix(j: Json, i: nat, path: seq<string>, o: ExtractOptions, r: TokenRecord)
    requires r in ExtractEntries(j, i, path, o)
    ensures |path| < |r.path| && r.path[..|path|] == path
    decreases j, 0, EntryCount(j) - i
  {
    var k := EntryKey(j, i);
    if IsMetaKey(k) || r in ExtractEntries(j, i + 1, path, o) {
      EntriesPrefix(j, i + 1, path, o, r);
    } else {
      var p := path + [ProcessKey(k, o)];
      ExtractPrefix(EntryValue(j, i), p, o, r);
      assert r.path[..|path|] == p[..|path|];
    }
  }

  /** Records from later entries start, below `path`, with the key of one of
      those entries. */
  lemma {:induction false} EntriesStartLater(j: Json, i: nat, path: seq<string>, o: ExtractOptions, r: TokenRecord) returns (m: nat)
    requires DistinctKeys(j) && !o.transformKeys
    requires r in ExtractEntries(j, i, path, o)
    ensures i <= m < EntryCount(j)
    ensures |r.path| > |path| && r.path[..|path|] == path && r.path[|path|] == EntryKey(j, m)
    decreases EntryCount(j) - i
  {
    var k := EntryKey(j, i);
    var rest := ExtractEntries(j, i + 1, path, o);
    if IsMetaKey(k) || r in rest {
      m := EntriesStartLater(j, i + 1, path, o, r);
    } else {
      ExtractPrefix(EntryValue(j, i), path + [k], o, r);
      assert r.path[..|path| + 1] == path + [k];
      m := i;
    }
  }

  lemma {:induction false} KeyIndexDistinct(j: Json, i: nat)
    requires DistinctKeys(j) && i < EntryCount(j)
    ensures KeyIndex(j, EntryKey(j, i)) == i
  {
    KeyIndexFromDistinct(j, i, 0);
  }

  lemma {:induction false} KeyIndexFromDistinct(j: Json, i: nat, from: nat)
    requires DistinctKeys(j) && from <= i < EntryCount(j)
    ensures KeyIndexFrom(j, EntryKey(j, i), from) == i
    decreases i - from
  {
    if from < i {
      if j.JObj? {
        assert j.fields[from].0 != j.fields[i].0;
      } else if NatToString(from) == NatToString(i) {
        NatToStringInjective(from, i);
      }
      KeyIndexFromDistinct(j, i, from + 1);
    }
  }

  /** Order below one entry lifts to order below its parent. */
  lemma {:induction false} BeforeUnder(j: Json, i: nat, p: seq<string>, q: seq<string>)
    requires DistinctKeys(j) && i < EntryCount(j)
    requires Before(EntryValue(j, i), p, q)
    ensures Before(j, [EntryKey(j, i)] + p, [EntryKey(j, i)] + q)
  {
    var k := EntryKey(j, i);
    var c := EntryValue(j, i);
    ChildOfEntry(j, i);
    var m := FirstDiff(p, q);
    var kp, kq := [k] + p, [k] + q;
    assert kp[1..] == p && kq[1..] == q;
    assert FirstDiff(kp, kq) == m + 1;
    assert kp[..m + 1] == [k] + p[..m];
    assert ([k] + p[..m])[1..] == p[..m];
    assert Navigate(j, kp[..m + 1]) == Navigate(c, p[..m]);
  }

  // ---------------------------------------------------------------------
  // As written: propertyInfo

  /** The walk as the converter writes it. Before pushing a record it computes
      `getCssKeywords().includes(...)`; `getCssKeywords` is `async` and so
      returns a Promise, which has no `includes` method, and the call throws
      a `TypeError`. `None` is that exception: it escapes at the first token
      reached. */
  function ExtractAsWritten(j: Json, path: seq<string>, o: ExtractOptions): Option<seq<TokenRecord>>
    decreases j, 1
  {
    if !IsObjectLike(j) then Some([])
    else if IsToken(j) then None
    else EntriesAsWritten(j, 0, path, o)
  }

  function EntriesAsWritten(j: Json, i: nat, path: seq<string>, o: ExtractOptions): Option<seq<TokenRecord>>
    decreases j, 0, EntryCount(j) - i
  {
    if i >= EntryCount(j) then Some([])
    else
      var k := EntryKey(j, i);
      if IsMetaKey(k) then EntriesAsWritten(j, i + 1, path, o)
      else
        match ExtractAsWritten(EntryValue(j, i), path + [ProcessKey(k, o)], o)
        case None => None
        case Some(a) =>
          match EntriesAsWritten(j, i + 1, path, o)
          case None => None
          case Some(b) => Some(a + b)
  }

  /** As written, extraction fails exactly when the corrected walk finds at
      least one token, and otherwise returns nothing: it can never return a
      record. */
  lemma {:induction false} AsWrittenThrowsOnAnyToken(j: Json, path: seq<string>, o: ExtractOptions)
    ensures ExtractAsWritten(j, path, o) == if |Extract(j, path, o)| > 0 then None else Some([])
    decreases j, 1
  {
    if IsObjectLike(j) && !IsToken(j) {
      EntriesAsWrittenThrow(j, 0, path, o);
    }
  }

  lemma {:induction false} EntriesAsWrittenThrow(j: Json, i: nat, path: seq<string>, o: ExtractOptions)
    ensures EntriesAsWritten(j, i, path, o) == if |ExtractEntries(j, i, path, o)| > 0 then None else Some([])
    decreases j, 0, EntryCount(j) - i
  {
    if i < EntryCount(j) {
      EntriesAsWrittenThrow(j, i + 1, path, o);
      var k := EntryKey(j, i);
      if !IsMetaKey(k) {
        AsWrittenThrowsOnAnyToken(EntryValue(j, i), path + [ProcessKey(k, o)], o);
      }
    }
  }
}

=== FILE: validator.dfy ===
/** `isValidCssProperty`: whether a property name may stand in a CSS
    declaration as it is, or needs mapping to standard properties first. */
module Validator {
  import opened Strings
  import opened Wrappers

  /** A user-registered name that is not a standard CSS property, together
      with the standard properties it stands for. */
  datatype CustomProperty = CustomProperty(name: string, mappedTo: seq<string>, description: Option<string>)

  /** The built-in property list, used when no keyword list is supplied,
      in its original order. It is assembled from short alphabetical groups
      so that the membership of a given name can be shown by indexing into
      one group. */
  const ValidCssProperties: seq<string> :=
    PropertiesA + PropertiesBackground + PropertiesBorder + PropertiesBToC
    + PropertiesDToF + PropertiesGToL + PropertiesMToP + PropertiesQToZ

  const PropertiesA: seq<string> := [
    "align-content", "align-items", "align-self", "animation", "animation-delay",
    "animation-direction", "animation-duration", "animation-fill-mode",
    "animation-iteration-count", "animation-name", "animation-play-state",
    "animation-timing-function"
  ]

  const PropertiesBackground: seq<string> := [
    "backface-visibility", "background", "background-attachment", "background-blend-mode",
    "background-clip", "background-color", "background-image", "background-origin",
    "background-position", "background-repeat", "background-size"
  ]

  const PropertiesBorder: seq<string> := [
    "border", "border-bottom", "border-bottom-color", "border-bottom-left-radius",
    "border-bottom-right-radius", "border-bottom-style", "border-bottom-width",
    "border-collapse", "border-color", "border-image", "border-image-outset",
    "border-image-repeat", "border-image-slice", "border-image-source",
    "border-image-width", "border-left", "border-left-color", "border-left-style",
    "border-left-width", "border-radius", "border-right", "border-right-color",
    "border-right-style", "border-right-width", "border-spacing", "border-style",
    "border-top", "border-top-color", "border-top-left-radius", "border-top-right-radius",
    "border-top-style", "border-top-width", "border-width"
  ]

  const PropertiesBToC: seq<string> := [
    "bottom", "box-shadow", "box-sizing", "caption-side", "clear", "clip", "color",
    "column-count", "column-fill", "column-gap", "column-rule", "column-rule-color",
    "column-rule-style", "column-rule-width", "column-span", "column-width", "columns",
    "content", "counter-increment", "counter-reset", "cursor"
  ]

  const PropertiesDToF: seq<string> := [
    "direction", "display", "empty-cells", "filter", "flex", "flex-basis", "flex-direction",
    "flex-flow", "flex-grow", "flex-shrink", "flex-wrap", "float", "font", "font-family",
    "font-size", "font-size-adjust", "font-stretch", "font-style", "font-variant",
    "font-weight"
  ]

  const PropertiesGToL: seq<string> := [
    "gap", "grid", "grid-area", "grid-auto-columns", "grid-auto-flow", "grid-auto-rows",
    "grid-column", "grid-column-end", "grid-column-gap", "grid-column-start", "grid-gap",
    "grid-row", "grid-row-end", "grid-row-gap", "grid-row-start", "grid-template",
    "grid-template-areas", "grid-template-columns", "grid-template-rows", "height",
    "justify-content", "left", "letter-spacing", "line-height", "list-style",
    "list-style-image", "list-style-position", "list-style-type"
  ]

  const PropertiesMToP: seq<string> := [
    "margin", "margin-bottom", "margin-left", "margin-right", "margin-top", "max-height",
    "max-width", "min-height", "min-width", "object-fit", "object-position", "opacity",
    "order", "outline", "outline-color", "outline-offset", "outline-style", "outline-width",
    "overflow", "overflow-x", "overflow-y", "padding", "padding-bottom", "padding-left",
    "padding-right", "padding-top", "page-break-after", "page-break-before",
    "page-break-inside", "perspective", "perspective-origin", "pointer-events", "position"
  ]

  const PropertiesQToZ: seq<string> := [
    "quotes", "resize", "right", "tab-size", "table-layout", "text-align",
    "text-align-last", "text-decoration", "text-decoration-color", "text-decoration-line",
    "text-decoration-style", "text-indent", "text-justify", "text-overflow", "text-shadow",
    "text-transform", "top", "transform", "transform-origin", "transform-style",
    "transition", "transition-delay", "transition-duration", "transition-property",
    "transition-timing-function", "vertical-align", "visibility", "white-space", "width",
    "word-break", "word-spacing", "word-wrap", "writing-mode", "z-index"
  ]

  /** A name in one of the groups is in the list. */
  lemma {:induction false} InGroup(x: string)
    requires || x in PropertiesA || x in PropertiesBackground || x in PropertiesBorder || x in PropertiesBToC
             || x in PropertiesDToF || x in PropertiesGToL || x in PropertiesMToP || x in PropertiesQToZ
    ensures x in ValidCssProperties
  {
  }

  /** The margin sides the suggestion rules map onto are built in. */
  lemma {:induction false} MarginSidesBuiltin()
    ensures "margin-left" in ValidCssProperties && "margin-right" in ValidCssProperties
    ensures "margin-top" in ValidCssProperties && "margin-bottom" in ValidCssProperties
  {
    var m := PropertiesMToP;
    assert m[1] == "margin-bottom" && m[2] == "margin-left" && m[3] == "margin-right" && m[4] == "margin-top";
    InGroup("margin-bottom");
    InGroup("margin-left");
    InGroup("margin-right");
    InGroup("margin-top");
  }

  /** The padding sides the suggestion rules map onto are built in. */
  lemma {:induction false} PaddingSidesBuiltin()
    ensures "padding-left" in ValidCssProperties && "padding-right" in ValidCssProperties
    ensures "padding-top" in ValidCssProperties && "padding-bottom" in ValidCssProperties
  {
    var m := PropertiesMToP;
    assert m[22] == "padding-bottom" && m[23] == "padding-left" && m[24] == "padding-right" && m[25] == "padding-top";
    InGroup("padding-bottom");
    InGroup("padding-left");
    InGroup("padding-right");
    InGroup("padding-top");
  }

  /** The dimensions the suggestion rules map onto are built in. */
  lemma {:induction false} DimensionsBuiltin()
    ensures "border-radius" in ValidCssProperties && "height" in ValidCssProperties
    ensures "width" in ValidCssProperties && "gap" in ValidCssProperties
  {
    assert PropertiesBorder[19] == "border-radius";
    assert PropertiesGToL[0] == "gap" && PropertiesGToL[19] == "height";
    assert PropertiesQToZ[28] == "width";
    InGroup("border-radius");
    InGroup("gap");
    InGroup("height");
    InGroup("width");
  }

  /** `color` is built in. */
  lemma {:induction false} ColorBuiltin()
    ensures "color" in ValidCssProperties
  {
    assert PropertiesBToC[6] == "color";
    InGroup("color");
  }

  /** The four shorthand names accepted without registration. */
  const BuiltinShorthands: seq<string> :=
    ["padding-horizontal", "padding-vertical", "margin-horizontal", "margin-vertical"]

  const VendorPrefixes: seq<string> := ["-webkit-", "-moz-", "-ms-", "-o-"]

  /** The prefix `^(-webkit-|-moz-|-ms-|-o-)` matches, compared exactly (the
      pattern has no `i` flag). At most one alternative can match. */
  function VendorPrefix(s: string): (r: Option<string>)
    ensures r.Some? ==> r.value in VendorPrefixes && StartsWith(s, r.value)
    ensures r.None? ==> forall i :: 0 <= i < |VendorPrefixes| ==> !StartsWith(s, VendorPrefixes[i])
  {
    if StartsWith(s, "-webkit-") then Some("-webkit-")
    else if StartsWith(s, "-moz-") then Some("-moz-")
    else if StartsWith(s, "-ms-") then Some("-ms-")
    else if StartsWith(s, "-o-") then Some("-o-")
    else None
  }

  /** A name that does not begin with a hyphen has no vendor prefix. */
  lemma {:induction false} NoDashNoVendor(s: string)
    requires |s| > 0 && s[0] != '-'
    ensures VendorPrefix(s).None?
  {
    assert !StartsWith(s, "-webkit-") && !StartsWith(s, "-moz-") by {
      assert "-webkit-"[0] == '-' && "-moz-"[0] == '-';
    }
    assert !StartsWith(s, "-ms-") && !StartsWith(s, "-o-") by {
      assert "-ms-"[0] == '-' && "-o-"[0] == '-';
    }
  }

  /** Some registered entry carries the name, ignoring ASCII case. */
  predicate IsCustomName(property: string, customs: seq<CustomProperty>) {
    exists i :: 0 <= i < |customs| && Lower(customs[i].name) == Lower(property)
  }

  /** `isValidCssProperty(property, keywords, customs)` with both lists
      supplied. The checks run in a fixed order and the first that applies
      decides: the lower-cased name is a keyword; a vendor-prefixed name is
      decided by its exact remainder alone; a registered custom name; one of
      the built-in shorthands. */
  function IsValidCssProperty(property: string, keywords: seq<string>, customs: seq<CustomProperty>): (r: bool)
    ensures Lower(property) in keywords ==> r
    ensures Lower(property) !in keywords && VendorPrefix(property).Some? ==>
      (r <==> property[|VendorPrefix(property).value|..] in keywords)
    ensures Lower(property) !in keywords && VendorPrefix(property).None? ==>
      (r <==> IsCustomName(property, customs) || Lower(property) in BuiltinShorthands)
  {
    if Lower(property) in keywords then true
    else match VendorPrefix(property)
      case Some(p) => property[|p|..] in keywords
      case None =>
        (exists i :: 0 <= i < |customs| && Lower(customs[i].name) == Lower(property))
        || Lower(property) in BuiltinShorthands
  }

  // ---------------------------------------------------------------------
  // Lemmas

  /** A vendor-prefixed name is never rescued by the custom list: its verdict
      is the same whatever is registered. */
  lemma {:induction false} VendorIgnoresCustoms(property: string, keywords: seq<string>, c1: seq<CustomProperty>, c2: seq<CustomProperty>)
    requires VendorPrefix(property).Some?
    ensures IsValidCssProperty(property, keywords, c1) == IsValidCssProperty(property, keywords, c2)
  {
  }

  /** Registering more custom properties never makes a valid name invalid. */
  lemma {:induction false} CustomsMonotone(property: string, keywords: seq<string>, customs: seq<CustomProperty>, extra: seq<CustomProperty>)
    requires IsValidCssProperty(property, keywords, customs)
    ensures IsValidCssProperty(property, keywords, customs + extra)
  {
    if Lower(property) !in keywords && VendorPrefix(property).None? && IsCustomName(property, customs) {
      var i :| 0 <= i < |customs| && Lower(customs[i].name) == Lower(property);
      assert (customs + extra)[i] == customs[i];
    }
  }

  /** A registered name is valid unless a vendor prefix takes the decision. */
  lemma {:induction false} RegisteredIsValid(c: CustomProperty, keywords: seq<string>, customs: seq<CustomProperty>)
    requires VendorPrefix(c.name).None?
    ensures IsValidCssProperty(c.name, keywords, customs + [c])
  {
    assert (customs + [c])[|customs|] == c;
  }

  /** Outside the vendor branch the verdict ignores ASCII case. */
  lemma {:induction false} CaseInsensitiveOutsideVendor(property: string, keywords: seq<string>, customs: seq<CustomProperty>)
    requires VendorPrefix(property).None? && VendorPrefix(Lower(property)).None?
    ensures IsValidCssProperty(property, keywords, customs) == IsValidCssProperty(Lower(property), keywords, customs)
  {
    LowerIdempotent(property);
  }

  /** Inside the vendor branch the remainder is compared exactly, so case
      matters there. */
  lemma {:induction false} VendorRemainderIsCaseSensitive()
    ensures IsValidCssProperty("-webkit-transform", ["transform"], [])
    ensures !IsValidCssProperty("-webkit-Transform", ["transform"], [])
  {
    assert Lower("-webkit-Transform") == "-webkit-transform";
    assert "-webkit-Transform"[8..] == "Transform";
  }

  /** The shorthands are accepted with no list at all, in any case. */
  lemma {:induction false} ShorthandExamples()
    ensures IsValidCssProperty("padding-horizontal", [], [])
    ensures IsValidCssProperty("Padding-Horizontal", [], [])
  {
    assert Lower("Padding-Horizontal") == "padding-horizontal";
    assert Lower("padding-horizontal") == "padding-horizontal";
    assert "padding-horizontal" in BuiltinShorthands;
    NoDashNoVendor("padding-horizontal");
    NoDashNoVendor("Padding-Horizontal");
  }

  /** A name in no list is rejected. */
  lemma {:induction false} UnknownExample()
    ensures !IsValidCssProperty("totally-made-up", ["color"], [])
  {
    assert Lower("totally-made-up") == "totally-made-up";
    NoDashNoVendor("totally-made-up");
  }
}

=== FILE: wrappers.dfy ===
module Wrappers {

  /** A value that may be absent: JavaScript's `undefined` on the one hand,
      and a thrown exception on the other, depending on where it is used. */
  datatype Option<+T> = None | Some(value: T)
}
